=== FILE: README.md ===
# Hungary clinic data scraping: a Dafny model of the cleaning, validation, import and configuration core

This project models the data-handling core of a practitioner-directory scraping
repository and proves properties of it. The core covers:

- **Cleaning scripts.** `report.py` splits a practitioner table into a cleaned
  frame and a "problematic" frame. `data_quality_checks.py` filters missing rows,
  then duplicates. Both first trim the text columns.
- **Per-row field validator.** `data_validator.py` reports a missing value or an
  `int()` type error for each required field of each row.
- **Data import tool.** `data_import_tool.py` covers frame validation, the CSV and
  Google Sheets importers, the Sheets URL check and CSV-export rewrite, dispatch
  on the source type, the command line's choice of source and the configuration
  merge.
- **Logging utilities.** `src/utils/logger.py` covers the size-string parser, the
  scraping request counters and the performance timers.
- **Settings loader.** `src/config/settings.py` covers the environment-variable
  overrides written through `_set_nested_value`, the typed section accessors and
  the dotted-key `get`.

`src/data_processing/report.py` is a byte-for-byte copy of `report.py`.
`src/data_processing/data_import_tool.py` is likewise a copy of
`data_import_tool.py`. Each pair is modelled once, and the table below cites both
copies.

The modules, one per file:

| module | file | models |
|---|---|---|
| `Wrappers` | wrappers.dfy | `Option` and `Result` |
| `Text` | text.dfy | the string operations used: `strip` of ASCII whitespace, `in`, `replace`, `endswith`, `upper`/`lower`, `split`/`join` on one character, `int()` of a decimal string |
| `Table` | table.dfy | a pandas frame: columns, rows of cells (`Null`, text or integer), trimming, the missing mask, keep-first `duplicated`, row selection by mask |
| `Report` | report.dfy | `report.py` |
| `QualityChecks` | quality.dfy | `data_quality_checks.py` |
| `RowValidator` | row_validator.dfy | `src/data_processing/data_validator.py` |
| `SheetsUrl` | sheets_url.dfy | `urlparse(...).netloc`, `_is_valid_google_sheets_url`, `_convert_to_csv_url` |
| `ImportTool` | import_tool.dfy | the rest of `data_import_tool.py` |
| `Logger` | logger.dfy | `src/utils/logger.py` |
| `ConfigTree` | config_tree.dfy | a parsed YAML/JSON document, `_set_nested_value` and `get` |
| `Settings` | settings.dfy | the rest of `src/config/settings.py` |

Each script works on a frame that is already loaded. Reading files, fetching
URLs, the environment and the clock are all parameters of the model:

- a table value;
- the `Sources` record of the importers;
- an `Env` map for the settings loader;
- `now` readings for the timers.

## Model

| member | source | states |
|---|---|---|
| Table.TrimMeaning | report.py:18-20 | after trimming, a text cell holds the string stripped of the ten ASCII characters `str.strip()` removes, the separators U+001C-U+001F included, a non-string cell in a text column becomes null, and other columns are unchanged |
| Table.TrimIdempotent | data_quality_checks.py:17-19 | trimming a trimmed table changes nothing |
| Text.StripAround | report.py:20 | stripping removes exactly a whitespace prefix and suffix around text whose ends are not whitespace, for `str.strip()` and `int()` alike |
| Text.StripRemovesSeparators | report.py:20 | the information separators are whitespace to `str.strip()`: `"\x1f ab\x1c"` strips to `"ab"` |
| Text.ParseIntKeepsSeparators | src/data_processing/data_validator.py:41 | `int()` does not skip those separators: `int("\x1c5")` raises `ValueError` |
| Table.DuplicatedBySeenSet | src/data_processing/report.py:28 | a cross-check of the mask the model uses: a one-pass loop with a set of seen keys flags row i iff an earlier row is equal, and yields exactly `Table.Duplicated` |
| Table.UnflaggedCountIsDistinctCount | data_quality_checks.py:30-32 | the rows keep-first `duplicated` leaves unflagged number exactly the distinct values |
| Report.MissingMaskMeaning | report.py:23 | after trimming, a row is flagged missing iff some required cell was null, or was a number in a text column; blank strings are not flagged |
| Report.DuplicateMaskMeaning | report.py:28 | a row is flagged iff an earlier row agrees with it on every key column, null agreeing with null |
| Report.KeepFirst | src/data_processing/report.py:28 | the first row with each key is never flagged, so unflagged rows number the distinct keys |
| Report.ProblematicContents | report.py:33 | the problematic frame holds only flagged rows with their own labels and cells, no two of them equal in every column and no label twice |
| Report.ProblematicCovers | src/data_processing/report.py:33 | every flagged row is represented in the problematic frame by a row with the same cells |
| Report.ProblematicOrder | report.py:33 | the problematic frame lists the missing rows in source order, then the remaining duplicate rows in source order |
| Report.Run | report.py:7-43 | a missing required or key column is a KeyError; otherwise cleaned and problematic rows share no label and together number the input rows, and the problematic file is written only when non-empty |
| Report.PartitionSizes | report.py:41-42 | dropping the problematic labels leaves the other rows; the two frames share no label and together number the input rows |
| Report.LeakIff | report.py:33 | some flagged row survives into the cleaned output iff two different flagged rows are equal in every column |
| Report.ThreeCopiesLeak | src/data_processing/report.py:41 | on three identical rows, only the second's label is problematic, so the third, flagged as a duplicate, is written as clean |
| Report.CleanedByIndex | report.py:40-42 | the intended cleaned frame: exactly the unflagged rows, in source order |
| Report.ByIndexPartition | src/data_processing/report.py:33-42 | the intended cleaned and problematic frames partition the input by label |
| Report.CleanedAgreesWithoutEqualFlaggedRows | report.py:33-41 | when no two flagged rows are equal, the script's cleaned frame is the intended one |
| QualityChecks.DropMissingMeaning | data_quality_checks.py:22-25 | no surviving row has a null required cell, and a row is removed iff it has one |
| QualityChecks.DedupDistinctKeys | data_quality_checks.py:31 | no two rows that survive deduplication share a key |
| QualityChecks.DedupEarliest | data_quality_checks.py:31 | each survivor is the earliest row of the frame with its key |
| QualityChecks.DedupCovers | data_quality_checks.py:31 | every key of the frame is kept, by a row no later than any row carrying it |
| QualityChecks.DedupCount | data_quality_checks.py:30-32 | `removed` equals the number of rows the keep-first mask flags, and the survivors number the distinct keys |
| QualityChecks.RunIdempotent | data_quality_checks.py:17-31 | re-running lines 17-31 on the output frame reports nothing missing, removes nothing and yields the same frame |
| QualityChecks.KeptIffUnflagged | data_quality_checks.py:22-31 | when every required column is a key column, a row is kept iff neither the missing nor the duplicate mask of the unfiltered table flags it |
| QualityChecks.AgreesWithIntendedReport | data_quality_checks.py:6-39 | with the shipped column lists, this script outputs exactly the index-based cleaned frame that `report.py` intends |
| RowValidator.RowErrorSound | src/data_processing/data_validator.py:30-47 | every error reported for a row is the error of one of its fields |
| RowValidator.RowErrorComplete | src/data_processing/data_validator.py:30-47 | every field's missing-value or type error is reported for its row |
| RowValidator.ValidateRowAppend | src/data_processing/data_validator.py:27-49 | errors come out in field declaration order |
| RowValidator.ValidIff | src/data_processing/data_validator.py:52-64 | the success message is printed iff no field of any row is missing or fails `int()` |
| RowValidator.AbsentColumnMissingEverywhere | src/data_processing/data_validator.py:31-35 | a required column absent from the file makes every row report that field missing |
| RowValidator.BlankIsNotMissing | src/data_processing/data_validator.py:34 | a whitespace-only string is present, since nothing is trimmed |
| RowValidator.OnlyIndexHasTypeErrors | src/data_processing/data_validator.py:5-13 | with the script's field list, only `Index` can have a type error |
| RowValidator.IndexTypeCheck | src/data_processing/data_validator.py:40-41 | a rendered non-negative integer and any numeric cell are accepted as an `Index` |
| RowValidator.WordIsNotAnIndex | src/data_processing/data_validator.py:40-47 | a string cell such as `abc`, starting with a letter and not ending in a blank, gets the `int` type error |
| ImportTool.Validate | data_import_tool.py:79-116 | an empty frame is invalid with one error and no stats; otherwise the frame is valid iff every required column is present, missing columns being the only error, and the duplicate count is the keep-first count |
| ImportTool.DuplicateWarningIff | src/data_processing/data_import_tool.py:105-110 | the duplicate warning is given iff some row repeats an earlier row, and it reports how many rows do |
| ImportTool.ValidityIgnoresCells | data_import_tool.py:108-116 | warnings never affect validity: frames with the same columns and row count get the same errors |
| ImportTool.NoNullsNoNullWarning | data_import_tool.py:112-114 | a frame without nulls never gets the null-percentage warning |
| ImportTool.ImportCsv | data_import_tool.py:126-160 | a missing file is reported before a wrong extension, and both before the configuration lookups, whose `KeyError` or `TypeError` comes before any read; a table is returned iff the file exists, ends in `.csv` in any case, the options are configured, and the read with them loads |
| ImportTool.Section | data_import_tool.py:139 | `config[name]` succeeds iff the section is present, and otherwise raises `KeyError` |
| ImportTool.Entry | data_import_tool.py:142-144 | `section[key]` yields the value the key path reaches; a dict without the key raises `KeyError` and any other value `TypeError` |
| ImportTool.CsvOptionsOf | data_import_tool.py:139-144 | the CSV options are found iff `data.encoding`, `data.max_rows` and `data.chunk_size` are all present, and are then exactly those values |
| ImportTool.SheetOptionsOf | data_import_tool.py:183-190 | the Sheets options are found iff `data.encoding`, `data.max_rows` and `google_sheets.timeout` are all present; a missing `google_sheets` section is reported before any missing `data` key |
| ImportTool.DefaultOptions | data_import_tool.py:38-46 | the defaults supply `utf-8`, no row limit, chunks of 10000 and a timeout of 30 |
| ImportTool.UserDataWithoutChunkSize | data_import_tool.py:139-144 | after the shallow merge, a user `data` section without `chunk_size` makes importing an existing `.csv` file a `KeyError` on `chunk_size` |
| ImportTool.CsvSuffixIgnoresCase | src/data_processing/data_import_tool.py:134-135 | the extension test ignores case, and appending `.csv` or `.CSV` makes any path pass it |
| ImportTool.NonCsvRefused | data_import_tool.py:134-135 | a path not ending in `v` or `V` is refused |
| ImportTool.ImportGoogleSheet | data_import_tool.py:170-198 | never returns a frame: an invalid link is refused; otherwise a missing option is a `KeyError` or `TypeError`, and failing that the `read_csv` call raises `TypeError` on its `timeout` keyword |
| ImportTool.ImportGoogleSheetIntended | src/data_processing/data_import_tool.py:174-198 | the intended import: an invalid link is refused and a missing option raises as in the program; otherwise a frame is returned iff downloading the corrected export link with the configured options loads one |
| ImportTool.SheetImportAlwaysFails | data_import_tool.py:186-198 | wherever the intended import would return a frame, the program raises the `timeout` `TypeError`; the two agree on every other error; with the defaults every valid link ends in that `TypeError` |
| ImportTool.SheetFetchIsExport | src/data_processing/data_import_tool.py:180 | the link the intended Sheets import downloads always mentions `export` |
| ImportTool.ImportData | data_import_tool.py:237-243 | a source type other than `csv` or `gsheet` is the only way to get the unsupported-type error, and a `gsheet` source never imports a frame |
| ImportTool.ImportDataIff | data_import_tool.py:233-258 | a frame is returned iff its importer produced it and validation accepted it |
| ImportTool.ImportedNotEmpty | src/data_processing/data_import_tool.py:245-254 | an imported frame is never empty, has every required column, and came from a CSV file |
| ImportTool.ChooseSource | data_import_tool.py:333-345 | exactly one of `--csv` and `--gsheet` must be given, with empty strings counting as absent; the type is `csv` iff `--csv` was given |
| ImportTool.ChosenSourceSupported | src/data_processing/data_import_tool.py:339-352 | a chosen source type is always one the importer supports, and its path is the given argument |
| ImportTool.LoadConfig | data_import_tool.py:30-58 | the defaults apply unless a named, existing file parses to an object; then top-level keys from the file replace the defaults and the other defaults remain |
| ImportTool.ShallowMerge | src/data_processing/data_import_tool.py:53 | the merge is shallow: a user `data` section without `chunk_size` removes the default `chunk_size` of 10000 |
| SheetsUrl.NetlocInUrl | data_import_tool.py:203 | the parsed host is a piece of the link |
| SheetsUrl.ValidMentionsHost | data_import_tool.py:200-206 | a valid Sheets link mentions `docs.google.com` and `spreadsheets` |
| SheetsUrl.HttpsNetloc | data_import_tool.py:203-204 | the host of `https://host/path` is `host` |
| SheetsUrl.PathDoesNotCount | src/data_processing/data_import_tool.py:204 | a link whose host lacks `docs.google.com` is refused whatever its path says |
| SheetsUrl.LeadingBlankIgnored | data_import_tool.py:203-204 | `urlparse` strips leading controls and spaces, so a blank in front of a link changes neither its host nor whether it is a Sheets link |
| SheetsUrl.ConvertMentionsExport | data_import_tool.py:208-220 | every branch of the rewrite, as written and corrected, yields a link mentioning `export` |
| SheetsUrl.AsWrittenGidDropsHost | data_import_tool.py:212-215 | as written, the `gid=` branch turns a valid `https://` Sheets link into `https:/export?format=csv`, which has no host and is not a Sheets link |
| SheetsUrl.CorrectedGidKeepsHost | src/data_processing/data_import_tool.py:212-215 | the corrected `gid=` branch keeps the host of any link that has one |
| SheetsUrl.CorrectedGidKeepsHttpsHost | data_import_tool.py:212-215 | on the same `https://` links, the corrected branch keeps the host |
| Logger.ParseSizeCaseInsensitive | src/utils/logger.py:243-245 | the parser ignores letter case |
| Logger.ParseSizeUnit | src/utils/logger.py:246-251 | `<n>KB`, `<n>MB` and `<n>GB` in any case parse to n times 1024, 1024² and 1024³ |
| Logger.ParseSizeBare | src/utils/logger.py:252-253 | a bare decimal is a byte count |
| Logger.ByteSuffixRejected | src/utils/logger.py:243-253 | a size ending in a plain `B` is rejected as `int()` would reject it |
| Logger.DefaultMaxFileSize | src/utils/logger.py:193 | the default `10MB` is 10485760 bytes |
| Logger.LogRequest | src/utils/logger.py:131-152 | one more request, counted as successful iff the status is 2xx; `total = successful + failed` is preserved |
| Logger.LogRecordsProcessed | src/utils/logger.py:154-156 | only the record total changes, by `count` |
| Logger.SessionCounts | src/utils/logger.py:131-156 | over a sequence of requests, the counters grow by the number of requests and of 2xx requests |
| Logger.SuccessRate | src/utils/logger.py:164-170 | the rate is 0 before any request, lies in [0,1], and is 1 iff no request failed |
| Logger.StartTimer | src/utils/logger.py:94-97 | `op` is bound to `now` and the other timers are unchanged |
| Logger.EndTimer | src/utils/logger.py:99-115 | an unknown operation gives no duration and changes nothing; a known one reports `now - start` and is forgotten |
| Logger.StartThenEnd | src/utils/logger.py:94-115 | start then end reports the elapsed time and leaves the other timers |
| Logger.EndTwice | src/utils/logger.py:101-103 | a second end finds nothing and changes nothing |
| ConfigTree.SetThenLookup | src/config/settings.py:117-124 | after a successful write, walking the path reaches the written value |
| ConfigTree.SetLocality | src/config/settings.py:117-124 | entries on paths that branch off the written one are unchanged |
| ConfigTree.SetCreates | src/config/settings.py:120-123 | every proper prefix of the path ends at a dict, and one that was absent is a new dict holding only the next key |
| ConfigTree.SetFailsIff | src/config/settings.py:117-124 | the write fails iff the path is empty or a proper prefix reaches a non-dict |
| ConfigTree.Get | src/config/settings.py:215-226 | `get`'s loop over the dot-separated keys returns exactly what the key path reaches, even `None`, and the default when the path reaches nothing |
| ConfigTree.WalkIsLookup | src/config/settings.py:219-226 | stepping into `value[k]` while `value` is a dict holding `k`, and returning the default at the first failed step, yields the value at the path or the default |
| ConfigTree.SetThenGet | src/config/settings.py:215-226 | `get` of the dotted path after a write returns the written value, when no key contains a dot |
| Settings.LoadConfig | src/config/settings.py:85-98 | a missing file and malformed YAML are distinct errors; otherwise the result is the parsed document with the overrides applied |
| Settings.OverrideIgnoresOtherVariables | src/config/settings.py:100-115 | only the five mapped variables matter |
| Settings.OverrideUnset | src/config/settings.py:110-113 | with none of them set, the document is unchanged |
| Settings.OverrideStoresRawString | src/config/settings.py:102-113 | each set variable is stored at its path as the raw string |
| Settings.OverrideNonDict | src/config/settings.py:117-124 | a document that is not a mapping fails as soon as one variable is set |
| Settings.DebugStaysString | src/config/settings.py:107 | `DEBUG=false` reads back as the string `"false"`, not a boolean |
| Settings.SectionField | src/config/settings.py:144-213 | an accessor field is the value at its key path, or the default |
| Settings.SectionSucceedsIff | src/config/settings.py:183 | a chained accessor fails iff a step of its path reaches a value that is present but not a dict, so it has no `.get` |
| Settings.FieldIsGet | src/config/settings.py:215-226 | a field read by an accessor equals `get` of its dotted key with the same default |
| Settings.AppReadsPaths | src/config/settings.py:144-153 | the `app` fields are read from `app.name`, `app.version`, `app.environment` and `app.debug` |
| Settings.ScrapingReadsPaths | src/config/settings.py:180-193 | the scraping fields are read under `scraping.google_maps` |
| Settings.ValidationReadsPaths | src/config/settings.py:205-213 | the validation fields are read under `validation` |
| Settings.EmptyConfigDefaults | src/config/settings.py:144-203 | the empty mapping `{}` yields every default; the default `max_size` is 10485760 bytes |
| Settings.EmptyFileAccessorsFail | src/config/settings.py:145-208 | an empty YAML file parses to `None`, on which every accessor, `logging` included, raises at its first `.get` |

## Left out

- Reading and writing files, `print` output, logging handlers and formatters,
  `sys.exit`, and `argparse` itself are not modelled. The model starts from an
  already-parsed frame, document or argument list.
- YAML and JSON parsing, and CSV parsing, are not modelled. Their outcomes are
  parameters: `ConfigFile`, `Result<Value, string>` and `ReadOutcome`.
- `main.py` and `scripts/setup_dev.py` are not part of this model. The
  `StructuredLogger`/`ColoredFormatter` message formatting and `setup_logging`
  are left out too; they only configure the `logging` library.
- What `read_csv` does with the `encoding`, `nrows` and `chunksize` options is
  not modelled. The options are looked up in the configuration as the program
  does, and their effect on the data comes in through the `Sources` parameter,
  which receives them. The `timeout` keyword affects no data: `read_csv` has no
  such parameter, so the Sheets import raises `TypeError`. This is modelled in
  `ImportTool.ImportGoogleSheet` and listed under "## Findings".
- `read_csv`'s default NA words (`n/a`, `NA`, `null`, `None`, `nan` and the
  others) are read as nulls when a file is parsed. The validator therefore sees
  them as `Null` cells, which get the missing-value error, never as strings.
  CSV parsing is a parameter of the model, so this conversion is not modelled.
- `ImportTool.Validate`: the `memory_usage` statistic is left out. The null
  percentage is compared as `10 * nulls > rows * columns` in exact arithmetic
  rather than in floating point.
- `QualityChecks.RunIdempotent`: the CSV round trip between two runs is not
  modelled. `to_csv` at line 39 followed by `read_csv` does not give the cells
  back. A required cell `"  "` is trimmed to `""`, written as an empty field and
  read back as NaN. A cell `" NA "` is trimmed to `"NA"`, a default NA word,
  and also comes back as NaN. Either way a second run on the written file
  drops that row at line 25.
- `Logger.SuccessRate`: real division stands in for Python's float division.
  `duration_seconds` and `start_time` are clock readings and are left out.
- `Logger.EndTimer`: durations are differences of caller-supplied `now`
  readings, not `datetime` values.
- `Text.Strip`: only ASCII whitespace is stripped, which is the ten characters
  `str.isspace()` accepts below U+0080: space, tab, newline, carriage return,
  vertical tab, form feed and the separators U+001C-U+001F. Non-ASCII
  whitespace such as U+0085, U+00A0 and U+2028 is kept.
- `Table.TrimMeaning` and `Table.Trim`: for the same reason, a text cell keeps
  the non-ASCII whitespace that pandas' `.str.strip()` would remove.
- `Text.Upper` and `Text.Lower`: only ASCII letters change case. This also
  applies to `file_path.lower()` in `ImportTool.IsCsvPath`.
- `Text.ParseInt`: `int()` is modelled for ASCII-digit strings with optional
  sign and surrounding whitespace of the six characters `Py_ISSPACE` accepts.
  CPython maps non-ASCII whitespace to a space before parsing, so `int()` also
  skips U+00A0 and the like. That mapping, underscore separators and non-ASCII
  digits are not modelled.
- `SheetsUrl.Netloc`: this follows current CPython `urlsplit`, which strips
  leading C0 control characters and spaces first. That covers 3.12, 3.11.4 and
  later, and the 3.8.17, 3.9.17 and 3.10.12 security releases. Older releases
  keep these characters, and then such a link has no host. Three more
  behaviours are not modelled: the removal of tab and newline characters
  anywhere in the URL, the IPv6 address checks, and `_checknetloc`'s NFKC
  `ValueError` for non-ASCII hosts. The only `ValueError` modelled is the
  one for an unmatched bracket.
- `ConfigTree.SetLocality` and `Settings.OverrideFromLocality`: a `Value` is a
  tree, so YAML documents with anchors and aliases are outside the model.
  `yaml.safe_load` hands back one shared dict for an anchor and its aliases.
  `_set_nested_value` writes in place, so a write under the anchor also changes
  the aliased path, which these lemmas prove unchanged.
- `ImportTool.LoadConfig`: a JSON document that is not an object keeps the
  defaults. `dict.update` would accept a list of key/value pairs.
- `_setup_logging` in both loaders reads `logging.level` and would raise
  `KeyError` or `AttributeError` on a bad level. This is left out with the
  logging set-up.
- Table cells are null, text or integers. Floating-point cells are not
  modelled.
- The concrete example link in the findings table is not stated as a lemma of
  its own. Its instance follows from `SheetsUrl.AsWrittenGidDropsHost`, which is
  proved for every `https://host/path` link.

## Findings

| source | as written | input that shows it | evidently intended | confidence | as-written member | corrected member |
|---|---|---|---|---|---|---|
| report.py:33,41 | the problematic rows are deduplicated by value at line 33 but removed from the table by index label at line 41 | three identical rows with no missing value: rows 1 and 2 are flagged as duplicates, only row 1's label stays problematic, and row 2 is written to the cleaned file | the cleaned frame is exactly the rows neither mask flags | not executed | Report.ThreeCopiesLeak | Report.CleanedByIndex |
| data_import_tool.py:186-191 | `import_google_sheet` passes `timeout=` to `pd.read_csv`, which has no such keyword argument | any valid Sheets link, such as `https://docs.google.com/spreadsheets/d/abc/edit`, with the default configuration: the call raises `TypeError` and the handler re-raises it | download the export link with the configured encoding, row limit and timeout, and return the frame | not executed | ImportTool.SheetImportAlwaysFails | ImportTool.ImportGoogleSheetIntended |
| data_import_tool.py:212-215 | the `gid=` branch takes `sheet_url.split("/")[0]` as the base URL | `https://docs.google.com/spreadsheets/d/abc/htmlview?gid=0` becomes `https:/export?format=csv` | keep the link up to its query and append the export path | not executed | SheetsUrl.AsWrittenGidDropsHost | SheetsUrl.CorrectedGidKeepsHost |

`Report.LeakIff` characterises when the first finding happens: exactly when two
different flagged rows are equal in every column. `Report.ByIndexPartition`
proves that the corrected frames partition the input.

`ImportTool.ImportData` models the program as written, so its Sheets branch
always fails, as the program's does. The intended Sheets import,
`ImportTool.ImportGoogleSheetIntended`, downloads the link built by the
corrected rewrite, `SheetsUrl.ConvertToCsvUrl`. The as-written rewrite is built
at line 180 but never downloaded, because the call at lines 186-191 raises
first.

=== FILE: config_tree.dfy ===
// A parsed YAML/JSON configuration document as a value tree, with the two
// operations the settings loader performs on it: writing a value at a key path
// (creating missing intermediate dictionaries) and reading a value back by a
// dotted key with a default.

module ConfigTree {
  import opened Wrappers
  import Text

  /** A parsed configuration value: what `yaml.safe_load` or `json.load` hands back. */
  datatype Value =
    | VNone
    | VBool(b: bool)
    | VInt(i: int)
    | VReal(r: real)
    | VStr(s: string)
    | VList(items: seq<Value>)
    | VDict(entries: map<string, Value>)

  /** Why writing at a key path fails. */
  datatype SetError =
    | EmptyPath          // `path[-1]` on an empty tuple: IndexError
    | NotADict(at: nat)  // the value reached after `at` keys is not a dict: TypeError

  function EmptyDict(): Value {
    VDict(map[])
  }

  /** The value reached by following `path` key by key through nested dictionaries,
      or `None` as soon as a step is not a dictionary or lacks the key. */
  function Lookup(v: Value, path: seq<string>): Option<Value>
    decreases |path|
  {
    if |path| == 0 then Some(v)
    else if v.VDict? && path[0] in v.entries then Lookup(v.entries[path[0]], path[1..])
    else None
  }

  /** The walk of `_set_nested_value` from node `v` over a non-empty path: every
      key but the last is looked up, an absent one first being bound to a fresh
      empty dictionary; the last key is then bound to `x`. `depth` is the number
      of keys already walked above `v`. */
  function Put(v: Value, path: seq<string>, x: Value, depth: nat): Result<Value, SetError>
    requires |path| > 0
    decreases |path|
  {
    if !v.VDict? then Failure(NotADict(depth))
    else if |path| == 1 then Success(VDict(v.entries[path[0] := x]))
    else
      var child := if path[0] in v.entries then v.entries[path[0]] else EmptyDict();
      match Put(child, path[1..], x, depth + 1)
      case Success(c) => Success(VDict(v.entries[path[0] := c]))
      case Failure(e) => Failure(e)
  }

  /** `_set_nested_value(config, path, value)`, returning the updated tree. */
  function SetNested(root: Value, path: seq<string>, x: Value): (r: Result<Value, SetError>)
    ensures |path| == 0 ==> r == Failure(EmptyPath)
    ensures r.Success? ==> r.value.VDict?
  {
    if |path| == 0 then Failure(EmptyPath) else Put(root, path, x, 0)
  }

  /** `get(key, default)`: split the key on dots and walk; the default stands in
      for any failed step, while a reached value is returned even when it is `None`. */
  function Get(root: Value, key: string, default: Value): (r: Value)
    ensures r == Lookup(root, Text.Split(key, '.')).GetOr(default)
  {
    WalkIsLookup(root, Text.Split(key, '.'), default);
    Walk(root, Text.Split(key, '.'), default)
  }

  /** The loop of `get`: step into `value[k]` while `value` is a dict holding
      `k`, and return `default` at the first step that fails. */
  function Walk(v: Value, keys: seq<string>, default: Value): Value
    decreases |keys|
  {
    if |keys| == 0 then v
    else if v.VDict? && keys[0] in v.entries then Walk(v.entries[keys[0]], keys[1..], default)
    else default
  }

  /** The loop returns what the path reaches, or the default where it reaches nothing. */
  lemma {:induction false} WalkIsLookup(v: Value, keys: seq<string>, default: Value)
    ensures Walk(v, keys, default) == Lookup(v, keys).GetOr(default)
    decreases |keys|
  {
    if |keys| > 0 && v.VDict? && keys[0] in v.entries {
      WalkIsLookup(v.entries[keys[0]], keys[1..], default);
    }
  }

  /** Paths `p` and `q` differ at some position both of them have. */
  predicate Diverge(p: seq<string>, q: seq<string>) {
    exists i | 0 <= i < |p| && i < |q| :: p[i] != q[i]
  }

  /** Some proper prefix of `path` (the root included) reaches a value that is not
      a dictionary: exactly the situation in which the walk raises. */
  predicate BlockedAt(root: Value, path: seq<string>, k: nat)
    requires k < |path|
  {
    Lookup(root, path[..k]).Some? && !Lookup(root, path[..k]).value.VDict?
  }

  predicate Blocked(root: Value, path: seq<string>) {
    exists k | 0 <= k < |path| :: BlockedAt(root, path, k)
  }

  lemma LookupStep(v: Value, path: seq<string>)
    requires |path| > 0 && v.VDict? && path[0] in v.entries
    ensures Lookup(v, path) == Lookup(v.entries[path[0]], path[1..])
  {
  }

  /** After a successful write, walking the path reaches the written value. */
  lemma {:induction false} PutThenLookup(v: Value, path: seq<string>, x: Value, depth: nat)
    requires |path| > 0 && Put(v, path, x, depth).Success?
    ensures Lookup(Put(v, path, x, depth).value, path) == Some(x)
    decreases |path|
  {
    var r := Put(v, path, x, depth).value;
    if |path| == 1 {
      assert r.entries[path[0]] == x;
      assert Lookup(x, path[1..]) == Some(x);
    } else {
      var child := if path[0] in v.entries then v.entries[path[0]] else EmptyDict();
      PutThenLookup(child, path[1..], x, depth + 1);
      assert r.entries[path[0]] == Put(child, path[1..], x, depth + 1).value;
    }
  }

  /** Set/get round trip on key paths. */
  lemma SetThenLookup(root: Value, path: seq<string>, x: Value)
    requires SetNested(root, path, x).Success?
    ensures Lookup(SetNested(root, path, x).value, path) == Some(x)
  {
    PutThenLookup(root, path, x, 0);
  }

  /** A write leaves every path that branches off the written one unchanged. */
  lemma {:induction false} PutLocality(v: Value, path: seq<string>, x: Value, depth: nat, q: seq<string>)
    requires |path| > 0 && Put(v, path, x, depth).Success?
    requires Diverge(path, q)
    ensures Lookup(Put(v, path, x, depth).value, q) == Lookup(v, q)
    decreases |path|
  {
    var r := Put(v, path, x, depth).value;
    var i :| 0 <= i < |path| && i < |q| && path[i] != q[i];
    if q[0] != path[0] {
      assert r.entries == v.entries[path[0] := r.entries[path[0]]];
    } else {
      assert i > 0 && |path| > 1;
      assert Diverge(path[1..], q[1..]) by {
        assert path[1..][i - 1] != q[1..][i - 1];
      }
      var child := if path[0] in v.entries then v.entries[path[0]] else EmptyDict();
      PutLocality(child, path[1..], x, depth + 1, q[1..]);
      assert r.entries[path[0]] == Put(child, path[1..], x, depth + 1).value;
      if path[0] !in v.entries {
        EmptyLookup(q[1..]);
      }
    }
  }

  lemma EmptyLookup(q: seq<string>)
    requires |q| > 0
    ensures Lookup(EmptyDict(), q) == None
  {
  }

  /** `_set_nested_value` locality: entries off the written path are unchanged. */
  lemma SetLocality(root: Value, path: seq<string>, x: Value, q: seq<string>)
    requires SetNested(root, path, x).Success? && Diverge(path, q)
    ensures Lookup(SetNested(root, path, x).value, q) == Lookup(root, q)
  {
    PutLocality(root, path, x, 0, q);
  }

  /** After a successful write, every proper prefix of the path reaches a
      dictionary; a prefix that reached nothing before now reaches a dictionary
      created for the walk, holding only the next key of the path. */
  lemma {:induction false} PutCreates(v: Value, path: seq<string>, x: Value, depth: nat, k: nat)
    requires |path| > 0 && Put(v, path, x, depth).Success? && k < |path|
    ensures Lookup(Put(v, path, x, depth).value, path[..k]).Some?
    ensures Lookup(Put(v, path, x, depth).value, path[..k]).value.VDict?
    ensures Lookup(v, path[..k]).None? ==>
              Lookup(Put(v, path, x, depth).value, path[..k]).value.entries.Keys == {path[k]}
    decreases |path|
  {
    var r := Put(v, path, x, depth).value;
    if k > 0 {
      var child := if path[0] in v.entries then v.entries[path[0]] else EmptyDict();
      PutCreates(child, path[1..], x, depth + 1, k - 1);
      assert path[..k][1..] == path[1..][..k - 1];
      assert r.entries[path[0]] == Put(child, path[1..], x, depth + 1).value;
      if path[0] !in v.entries && k > 1 {
        EmptyLookup(path[1..][..k - 1]);
      }
      if path[0] !in v.entries && k == 1 {
        FreshPut(path[1..], x, depth + 1);
      }
    }
  }

  /** Writing into a fresh empty dictionary yields a dictionary with just the first key. */
  lemma FreshPut(path: seq<string>, x: Value, depth: nat)
    requires |path| > 0
    ensures Put(EmptyDict(), path, x, depth).Success?
    ensures Put(EmptyDict(), path, x, depth).value.entries.Keys == {path[0]}
    decreases |path|
  {
    if |path| > 1 {
      FreshPut(path[1..], x, depth + 1);
    }
  }

  /** Missing intermediate keys are created as dictionaries. */
  lemma SetCreates(root: Value, path: seq<string>, x: Value, k: nat)
    requires SetNested(root, path, x).Success? && k < |path|
    ensures Lookup(SetNested(root, path, x).value, path[..k]).Some?
    ensures Lookup(SetNested(root, path, x).value, path[..k]).value.VDict?
    ensures Lookup(root, path[..k]).None? ==>
              Lookup(SetNested(root, path, x).value, path[..k]).value.entries.Keys == {path[k]}
  {
    PutCreates(root, path, x, 0, k);
  }

  /** The walk fails exactly when some proper prefix of the path reaches a
      non-dictionary, and it reports the first such prefix. */
  lemma {:induction false} PutFailsIffBlocked(v: Value, path: seq<string>, x: Value, depth: nat)
    requires |path| > 0
    ensures Put(v, path, x, depth).Failure? <==> Blocked(v, path)
    ensures Put(v, path, x, depth).Failure? ==>
              exists k | 0 <= k < |path| :: BlockedAt(v, path, k) && Put(v, path, x, depth).error == NotADict(depth + k)
    decreases |path|
  {
    assert path[..0] == [];
    if !v.VDict? {
      assert BlockedAt(v, path, 0);
    } else if |path| == 1 {
      assert !BlockedAt(v, path, 0);
    } else {
      var child := if path[0] in v.entries then v.entries[path[0]] else EmptyDict();
      PutFailsIffBlocked(child, path[1..], x, depth + 1);
      if path[0] in v.entries {
        BlockedShift(v, path);
        if Put(v, path, x, depth).Failure? {
          var j :| 0 <= j < |path| - 1 && BlockedAt(child, path[1..], j)
                   && Put(child, path[1..], x, depth + 1).error == NotADict(depth + 1 + j);
          assert BlockedAt(v, path, j + 1);
        }
      } else {
        FreshNeverBlocked(path[1..]);
        NotBlockedPastAbsent(v, path);
      }
    }
  }

  /** Below a dictionary holding the first key, blocking is blocking of the child. */
  lemma BlockedShift(v: Value, path: seq<string>)
    requires |path| > 1 && v.VDict? && path[0] in v.entries
    ensures Blocked(v, path) <==> Blocked(v.entries[path[0]], path[1..])
    ensures forall k | 1 <= k < |path| :: BlockedAt(v, path, k) <==> BlockedAt(v.entries[path[0]], path[1..], k - 1)
  {
    forall k | 1 <= k < |path|
      ensures BlockedAt(v, path, k) <==> BlockedAt(v.entries[path[0]], path[1..], k - 1)
    {
      assert path[..k][1..] == path[1..][..k - 1];
    }
    assert path[..0] == [];
    assert !BlockedAt(v, path, 0);
    if Blocked(v.entries[path[0]], path[1..]) {
      var j :| 0 <= j < |path| - 1 && BlockedAt(v.entries[path[0]], path[1..], j);
      assert BlockedAt(v, path, j + 1);
    }
  }

  lemma FreshNeverBlocked(path: seq<string>)
    requires |path| > 0
    ensures !Blocked(EmptyDict(), path)
  {
    forall k | 0 <= k < |path|
      ensures !BlockedAt(EmptyDict(), path, k)
    {
      if k > 0 {
        EmptyLookup(path[..k]);
      } else {
        assert path[..k] == [];
      }
    }
  }

  lemma NotBlockedPastAbsent(v: Value, path: seq<string>)
    requires |path| > 1 && v.VDict? && path[0] !in v.entries
    ensures !Blocked(v, path)
  {
    forall k | 0 <= k < |path|
      ensures !BlockedAt(v, path, k)
    {
      if k == 0 {
        assert path[..k] == [];
      }
    }
  }

  /** `_set_nested_value` fails iff the path is empty or a proper prefix of it
      reaches a value that is not a dictionary. */
  lemma SetFailsIff(root: Value, path: seq<string>, x: Value)
    ensures SetNested(root, path, x).Failure? <==> |path| == 0 || Blocked(root, path)
  {
    if |path| > 0 {
      PutFailsIffBlocked(root, path, x, 0);
    }
  }

  /** `get(".".join(path))` after `_set_nested_value(path, x)` returns `x`,
      provided no key of the path contains a dot. */
  lemma SetThenGet(root: Value, path: seq<string>, x: Value, default: Value)
    requires SetNested(root, path, x).Success?
    requires forall k | 0 <= k < |path| :: '.' !in path[k]
    ensures Get(SetNested(root, path, x).value, Text.Join(path, '.'), default) == x
  {
    Text.SplitJoin(path, '.');
    SetThenLookup(root, path, x);
  }
}

=== FILE: import_tool.dfy ===
// The data import tool: the verdict on an imported frame, the checks made
// before reading a CSV file or a Google Sheet, the dispatch on the source type,
// the command line's choice of source and the importer's configuration merge.
// Reading files and fetching URLs are parameters.

module ImportTool {
  import opened Wrappers
  import opened Table
  import Text
  import SheetsUrl
  import ConfigTree

  // -------------------------------------------------------------- validation

  datatype ValidationError =
    | DataFrameEmpty
    | MissingRequiredColumns(missing: set<string>)

  datatype ValidationWarning =
    | DuplicateRows(count: nat)
    | HighNullPercentage(nulls: nat, cells: nat)

  /** The statistics block; the memory usage figure is left out. */
  datatype Stats = Stats(rows: nat, columns: nat, nullCounts: seq<nat>, duplicateRows: nat)

  datatype Verdict = Verdict(
    isValid: bool, errors: seq<ValidationError>, warnings: seq<ValidationWarning>, stats: Option<Stats>)

  /** pandas `df.empty`: no rows or no columns. */
  predicate IsEmpty(t: Table) {
    |t.rows| == 0 || |t.columns| == 0
  }

  /** `set(required_columns) - set(df.columns)`. */
  function MissingColumns(t: Table, required: seq<string>): (r: set<string>)
    ensures forall n :: n in r <==> n in required && !HasColumn(t.columns, n)
  {
    set n | n in required && !HasColumn(t.columns, n)
  }

  /** `if required_columns:` — `None` and the empty list both skip the check. */
  predicate ChecksColumns(required: Option<seq<string>>) {
    required.Some? && |required.value| > 0
  }

  /** Row `i` has a null in column `j`. */
  function NullMask(rows: seq<Row>, j: nat): (m: seq<bool>)
    ensures |m| == |rows|
  {
    seq(|rows|, i requires 0 <= i < |rows| => j < |rows[i]| && rows[i][j].Null?)
  }

  /** `df.isnull().sum()`, column by column. */
  function NullCounts(t: Table): (r: seq<nat>)
    ensures |r| == |t.columns|
  {
    seq(|t.columns|, j requires 0 <= j < |t.columns| => CountTrue(NullMask(t.rows, j)))
  }

  function Sum(xs: seq<nat>): nat {
    if |xs| == 0 then 0 else Sum(xs[..|xs| - 1]) + xs[|xs| - 1]
  }

  /** `validate_dataframe`. An empty frame returns at once; otherwise missing
      required columns are the only error, and the duplicate and null warnings
      never affect validity. The null threshold `nulls / cells * 100 > 10` is
      taken in exact arithmetic. */
  function Validate(t: Table, required: Option<seq<string>>): (r: Verdict)
    ensures r.isValid <==> |r.errors| == 0
    ensures IsEmpty(t) ==> r == Verdict(false, [DataFrameEmpty], [], None)
    ensures !IsEmpty(t) ==> r.stats.Some? && r.stats.value.duplicateRows == CountTrue(Duplicated(t.rows))
    ensures !IsEmpty(t) ==>
              (r.isValid <==> !ChecksColumns(required) || forall n | n in required.value :: HasColumn(t.columns, n))
    ensures !IsEmpty(t) && !r.isValid ==> r.errors == [MissingRequiredColumns(MissingColumns(t, required.value))]
  {
    if IsEmpty(t) then Verdict(false, [DataFrameEmpty], [], None)
    else
      var errors :=
        if ChecksColumns(required) && |MissingColumns(t, required.value)| > 0
        then [MissingRequiredColumns(MissingColumns(t, required.value))]
        else [];
      var counts := NullCounts(t);
      var dups := CountTrue(Duplicated(t.rows));
      var nulls := Sum(counts);
      var cells := |t.rows| * |t.columns|;
      var warnings :=
        (if dups > 0 then [DuplicateRows(dups)] else [])
        + (if nulls * 10 > cells then [HighNullPercentage(nulls, cells)] else []);
      assert ChecksColumns(required) ==>
        (|MissingColumns(t, required.value)| > 0 <==> exists n | n in required.value :: !HasColumn(t.columns, n)) by {
        if ChecksColumns(required) {
          if exists n | n in required.value :: !HasColumn(t.columns, n) {
            var n :| n in required.value && !HasColumn(t.columns, n);
            assert n in MissingColumns(t, required.value);
          }
        }
      }
      Verdict(|errors| == 0, errors, warnings, Some(Stats(|t.rows|, |t.columns|, counts, dups)))
  }

  /** Some row equals an earlier one. */
  predicate HasRepeatedRow(rows: seq<Row>) {
    exists i, j | 0 <= j < i < |rows| :: rows[j] == rows[i]
  }

  lemma CountTruePositive(m: seq<bool>, i: nat)
    requires i < |m| && m[i]
    ensures CountTrue(m) > 0
  {
    CountTrueIsMaskSize(m);
    assert i in MaskSet(m);
  }

  /** The duplicate-row warning fires exactly when some row repeats an earlier
      row in every column, and it reports how many rows do. */
  lemma DuplicateWarningIff(t: Table, required: Option<seq<string>>)
    requires !IsEmpty(t)
    ensures (exists k | 0 <= k < |Validate(t, required).warnings| :: Validate(t, required).warnings[k].DuplicateRows?)
              <==> HasRepeatedRow(t.rows)
    ensures HasRepeatedRow(t.rows) ==>
              Validate(t, required).warnings[0] == DuplicateRows(CountTrue(Duplicated(t.rows)))
  {
    var d := Duplicated(t.rows);
    if HasRepeatedRow(t.rows) {
      var i, j :| 0 <= j < i < |t.rows| && t.rows[j] == t.rows[i];
      assert d[i];
      CountTruePositive(d, i);
      assert Validate(t, required).warnings[0].DuplicateRows?;
    } else {
      forall i | 0 <= i < |d|
        ensures !d[i]
      {
        assert !EarlierCopy(t.rows, i);
      }
      CountTrueNone(d);
    }
  }

  /** Warnings never invalidate: frames with the same columns and the same number
      of rows get the same validity whatever their cells hold. */
  lemma ValidityIgnoresCells(t1: Table, t2: Table, required: Option<seq<string>>)
    requires t1.columns == t2.columns && |t1.rows| == |t2.rows|
    ensures Validate(t1, required).isValid == Validate(t2, required).isValid
    ensures Validate(t1, required).errors == Validate(t2, required).errors
  {
    if !IsEmpty(t1) && ChecksColumns(required) {
      assert MissingColumns(t1, required.value) == MissingColumns(t2, required.value);
    }
  }

  lemma SumZero(xs: seq<nat>)
    requires forall k | 0 <= k < |xs| :: xs[k] == 0
    ensures Sum(xs) == 0
  {
  }

  /** A frame without nulls never gets the null warning. */
  lemma NoNullsNoNullWarning(t: Table, required: Option<seq<string>>)
    requires forall i, j | 0 <= i < |t.rows| && 0 <= j < |t.rows[i]| :: !t.rows[i][j].Null?
    ensures forall k | 0 <= k < |Validate(t, required).warnings| :: !Validate(t, required).warnings[k].HighNullPercentage?
  {
    if !IsEmpty(t) {
      var counts := NullCounts(t);
      forall j | 0 <= j < |t.columns|
        ensures counts[j] == 0
      {
        CountTrueNone(NullMask(t.rows, j));
      }
      SumZero(counts);
    }
  }

  // ---------------------------------------------------------------- sources

  /** The merged configuration `_load_config` returns, by top-level section. */
  type Config = map<string, ConfigTree.Value>

  /** What reading a CSV source produced. */
  datatype ReadOutcome =
    | Loaded(t: Table)
    | EmptyData                // pandas EmptyDataError
    | ParseFailure(msg: string) // pandas ParserError
    | OtherFailure(msg: string)

  /** The `read_csv` options `import_csv` takes from the `data` section. */
  datatype CsvOptions = CsvOptions(encoding: ConfigTree.Value, maxRows: ConfigTree.Value, chunkSize: ConfigTree.Value)

  /** The options `import_google_sheet` takes from the `data` and `google_sheets` sections. */
  datatype SheetOptions = SheetOptions(encoding: ConfigTree.Value, maxRows: ConfigTree.Value, timeout: ConfigTree.Value)

  /** The outside world the importers see: the file system, `read_csv` of a
      local file with the configured options (chunks already concatenated),
      and a download of a CSV link. */
  datatype Sources = Sources(
    fileExists: string -> bool,
    readCsv: (string, CsvOptions) -> ReadOutcome,
    fetchCsv: (string, SheetOptions) -> ReadOutcome)

  datatype ImportError =
    | FileNotFound(path: string)
    | NotACsvFile(path: string)
    | CsvFileEmpty
    | CsvParseError(msg: string)
    | ReadFailed(outcome: ReadOutcome)
    | MissingConfigKey(key: string)     // KeyError on a configuration lookup
    | NotSubscriptable(key: string)     // TypeError: a non-dict section indexed by `key`
    | UnexpectedKeyword(name: string)   // TypeError: `read_csv` has no such keyword argument
    | InvalidSheetsUrl
    | UnsupportedSourceType(sourceType: string)
    | ValidationFailed(errors: seq<ValidationError>)

  predicate IsConfigError(e: ImportError) {
    e.MissingConfigKey? || e.NotSubscriptable?
  }

  /** `config[name]` on the merged configuration. */
  function Section(cfg: Config, name: string): (r: Result<ConfigTree.Value, ImportError>)
    ensures r.Success? <==> name in cfg
    ensures r.Success? ==> ConfigTree.Lookup(ConfigTree.VDict(cfg), [name]) == Some(r.value)
    ensures r.Failure? ==> r.error == MissingConfigKey(name)
  {
    if name in cfg then Success(cfg[name]) else Failure(MissingConfigKey(name))
  }

  /** `section[key]`: a dict without the key raises `KeyError`; a value that is
      not a dict cannot be indexed by a string and raises `TypeError`. */
  function Entry(section: ConfigTree.Value, key: string): (r: Result<ConfigTree.Value, ImportError>)
    ensures r.Success? <==> ConfigTree.Lookup(section, [key]).Some?
    ensures r.Success? ==> ConfigTree.Lookup(section, [key]) == Some(r.value)
    ensures r == Failure(MissingConfigKey(key)) <==> section.VDict? && key !in section.entries
    ensures r.Failure? ==> IsConfigError(r.error)
  {
    if !section.VDict? then Failure(NotSubscriptable(key))
    else if key in section.entries then Success(section.entries[key])
    else Failure(MissingConfigKey(key))
  }

  /** The configuration has a value at `section.key`. */
  predicate HasSetting(cfg: Config, section: string, key: string) {
    ConfigTree.Lookup(ConfigTree.VDict(cfg), [section, key]).Some?
  }

  function Setting(cfg: Config, section: string, key: string): ConfigTree.Value
    requires HasSetting(cfg, section, key)
  {
    ConfigTree.Lookup(ConfigTree.VDict(cfg), [section, key]).value
  }

  lemma SettingLookup(cfg: Config, section: string, key: string)
    ensures HasSetting(cfg, section, key) <==> section in cfg && ConfigTree.Lookup(cfg[section], [key]).Some?
    ensures HasSetting(cfg, section, key) ==> Setting(cfg, section, key) == ConfigTree.Lookup(cfg[section], [key]).value
  {
    assert [section, key][1..] == [key];
  }

  /** Lines 139-144: `config["data"]`, then its `encoding`, `max_rows` and
      `chunk_size`, in that order; the first lookup that fails is the error. */
  function CsvOptionsOf(cfg: Config): (r: Result<CsvOptions, ImportError>)
    ensures r.Success? <==>
              HasSetting(cfg, "data", "encoding") && HasSetting(cfg, "data", "max_rows")
              && HasSetting(cfg, "data", "chunk_size")
    ensures r.Success? ==>
              r.value == CsvOptions(Setting(cfg, "data", "encoding"), Setting(cfg, "data", "max_rows"),
                                    Setting(cfg, "data", "chunk_size"))
    ensures r.Failure? ==> IsConfigError(r.error)
  {
    SettingLookup(cfg, "data", "encoding");
    SettingLookup(cfg, "data", "max_rows");
    SettingLookup(cfg, "data", "chunk_size");
    var data :- Section(cfg, "data");
    var encoding :- Entry(data, "encoding");
    var maxRows :- Entry(data, "max_rows");
    var chunkSize :- Entry(data, "chunk_size");
    Success(CsvOptions(encoding, maxRows, chunkSize))
  }

  /** Lines 182-191: `config["data"]` and `config["google_sheets"]`, then the
      `encoding`, `max_rows` and `timeout` arguments, in that order. */
  function SheetOptionsOf(cfg: Config): (r: Result<SheetOptions, ImportError>)
    ensures r.Success? <==>
              HasSetting(cfg, "data", "encoding") && HasSetting(cfg, "data", "max_rows")
              && HasSetting(cfg, "google_sheets", "timeout")
    ensures r.Success? ==>
              r.value == SheetOptions(Setting(cfg, "data", "encoding"), Setting(cfg, "data", "max_rows"),
                                      Setting(cfg, "google_sheets", "timeout"))
    ensures r.Failure? ==> IsConfigError(r.error)
    ensures "data" in cfg && "google_sheets" !in cfg ==> r == Failure(MissingConfigKey("google_sheets"))
  {
    SettingLookup(cfg, "data", "encoding");
    SettingLookup(cfg, "data", "max_rows");
    SettingLookup(cfg, "google_sheets", "timeout");
    var data :- Section(cfg, "data");
    var sheets :- Section(cfg, "google_sheets");
    var encoding :- Entry(data, "encoding");
    var maxRows :- Entry(data, "max_rows");
    var timeout :- Entry(sheets, "timeout");
    Success(SheetOptions(encoding, maxRows, timeout))
  }

  /** The defaults supply every option both importers look up. */
  lemma DefaultOptions()
    ensures CsvOptionsOf(DefaultConfig)
         == Success(CsvOptions(ConfigTree.VStr("utf-8"), ConfigTree.VNone, ConfigTree.VInt(10000)))
    ensures SheetOptionsOf(DefaultConfig)
         == Success(SheetOptions(ConfigTree.VStr("utf-8"), ConfigTree.VNone, ConfigTree.VInt(30)))
  {
    SettingLookup(DefaultConfig, "data", "encoding");
    SettingLookup(DefaultConfig, "data", "max_rows");
    SettingLookup(DefaultConfig, "data", "chunk_size");
    SettingLookup(DefaultConfig, "google_sheets", "timeout");
  }

  /** `file_path.lower().endswith('.csv')`. */
  predicate IsCsvPath(path: string) {
    Text.EndsWith(Text.Lower(path), ".csv")
  }

  /** `import_csv`: existence first, then the extension, then the configuration
      lookups, then the read; an empty file and a parse error are reported as
      such, other failures re-raised. */
  function ImportCsv(path: string, cfg: Config, src: Sources): (r: Result<Table, ImportError>)
    ensures r == Failure(FileNotFound(path)) <==> !src.fileExists(path)
    ensures r == Failure(NotACsvFile(path)) <==> src.fileExists(path) && !IsCsvPath(path)
    ensures src.fileExists(path) && IsCsvPath(path) && CsvOptionsOf(cfg).Failure? ==>
              r == Failure(CsvOptionsOf(cfg).error)
    ensures r.Success? <==>
              src.fileExists(path) && IsCsvPath(path) && CsvOptionsOf(cfg).Success?
              && src.readCsv(path, CsvOptionsOf(cfg).value).Loaded?
    ensures r.Success? ==> r.value == src.readCsv(path, CsvOptionsOf(cfg).value).t
  {
    if !src.fileExists(path) then Failure(FileNotFound(path))
    else if !IsCsvPath(path) then Failure(NotACsvFile(path))
    else
      var options :- CsvOptionsOf(cfg);
      match src.readCsv(path, options)
      case Loaded(t) => Success(t)
      case EmptyData => Failure(CsvFileEmpty)
      case ParseFailure(m) => Failure(CsvParseError(m))
      case OtherFailure(m) => Failure(ReadFailed(OtherFailure(m)))
  }

  /** Because the merge is shallow, a user `data` section without `chunk_size`
      makes every import of an existing `.csv` file a `KeyError`, raised before
      the file is read. */
  lemma UserDataWithoutChunkSize(file: Option<string>, user: map<string, ConfigTree.Value>, path: string, src: Sources)
    requires Given(file)
    requires "data" in user && user["data"].VDict?
    requires "encoding" in user["data"].entries && "max_rows" in user["data"].entries
    requires "chunk_size" !in user["data"].entries
    requires src.fileExists(path) && IsCsvPath(path)
    ensures ImportCsv(path, LoadConfig(file, true, Success(ConfigTree.VDict(user))), src)
         == Failure(MissingConfigKey("chunk_size"))
  {
    var cfg := LoadConfig(file, true, Success(ConfigTree.VDict(user)));
    assert cfg["data"] == user["data"];
    SettingLookup(cfg, "data", "chunk_size");
  }

  lemma LowerChars(s: string, t: string)
    requires |s| == |t| && forall i | 0 <= i < |s| :: Text.LowerChar(s[i]) == Text.LowerChar(t[i])
    ensures Text.Lower(s) == Text.Lower(t)
  {
  }

  /** The extension test ignores letter case, and appending `.csv` in any case
      makes a path pass it. */
  lemma CsvSuffixIgnoresCase(p: string)
    ensures IsCsvPath(Text.Upper(p)) == IsCsvPath(p)
    ensures IsCsvPath(p + ".csv") && IsCsvPath(p + ".CSV")
  {
    LowerChars(Text.Upper(p), p);
    var a := Text.Lower(p + ".csv");
    var b := Text.Lower(p + ".CSV");
    assert a[|a| - 4..] == ".csv";
    assert b[|b| - 4..] == ".csv";
  }

  /** A path whose last character is not a `v` in either case is refused. */
  lemma NonCsvRefused(p: string)
    requires |p| > 0 && p[|p| - 1] != 'v' && p[|p| - 1] != 'V'
    ensures !IsCsvPath(p)
  {
    var l := Text.Lower(p);
    assert l[|l| - 1] != 'v';
  }

  /** `import_google_sheet` as written: the URL test, the export link from the
      rewrite as written, the configuration lookups, and then a `read_csv` call
      with a `timeout=` keyword, which `read_csv` does not accept. That call
      raises `TypeError` before anything is downloaded, and the handler re-raises
      it, so no frame ever comes back. */
  function ImportGoogleSheet(url: string, cfg: Config): (r: Result<Table, ImportError>)
    ensures r.Failure?
    ensures r == Failure(InvalidSheetsUrl) <==> !SheetsUrl.IsValidSheetsUrl(url)
    ensures SheetsUrl.IsValidSheetsUrl(url) && SheetOptionsOf(cfg).Failure? ==>
              r == Failure(SheetOptionsOf(cfg).error)
    ensures SheetsUrl.IsValidSheetsUrl(url) && SheetOptionsOf(cfg).Success? ==>
              r == Failure(UnexpectedKeyword("timeout"))
  {
    if !SheetsUrl.IsValidSheetsUrl(url) then Failure(InvalidSheetsUrl)
    else
      match SheetOptionsOf(cfg)
      case Failure(e) => Failure(e)
      case Success(_) => Failure(UnexpectedKeyword("timeout"))
  }

  /** What `import_google_sheet` evidently means to do: download the corrected
      export link with the configured encoding, row limit and timeout, and
      re-raise any failure of the download. */
  function ImportGoogleSheetIntended(url: string, cfg: Config, src: Sources): (r: Result<Table, ImportError>)
    ensures r == Failure(InvalidSheetsUrl) <==> !SheetsUrl.IsValidSheetsUrl(url)
    ensures SheetsUrl.IsValidSheetsUrl(url) && SheetOptionsOf(cfg).Failure? ==>
              r == Failure(SheetOptionsOf(cfg).error)
    ensures r.Success? <==>
              SheetsUrl.IsValidSheetsUrl(url) && SheetOptionsOf(cfg).Success?
              && src.fetchCsv(SheetsUrl.ConvertToCsvUrl(url), SheetOptionsOf(cfg).value).Loaded?
    ensures r.Success? ==> r.value == src.fetchCsv(SheetsUrl.ConvertToCsvUrl(url), SheetOptionsOf(cfg).value).t
  {
    if !SheetsUrl.IsValidSheetsUrl(url) then Failure(InvalidSheetsUrl)
    else
      var options :- SheetOptionsOf(cfg);
      match src.fetchCsv(SheetsUrl.ConvertToCsvUrl(url), options)
      case Loaded(t) => Success(t)
      case other => Failure(ReadFailed(other))
  }

  /** The program and the intended import agree up to the read; where the
      intended one would download a frame, the program stops at the `timeout`
      keyword. With the defaults, every valid link ends there. */
  lemma SheetImportAlwaysFails(url: string, cfg: Config, src: Sources)
    ensures ImportGoogleSheetIntended(url, cfg, src).Success? ==>
              ImportGoogleSheet(url, cfg) == Failure(UnexpectedKeyword("timeout"))
    ensures ImportGoogleSheetIntended(url, cfg, src).Failure?
            && !ImportGoogleSheetIntended(url, cfg, src).error.ReadFailed? ==>
              ImportGoogleSheet(url, cfg) == ImportGoogleSheetIntended(url, cfg, src)
    ensures SheetsUrl.IsValidSheetsUrl(url) ==>
              ImportGoogleSheet(url, DefaultConfig) == Failure(UnexpectedKeyword("timeout"))
  {
    DefaultOptions();
  }

  /** The address the intended Sheets import downloads always asks for an export. */
  lemma SheetFetchIsExport(url: string)
    ensures Text.Contains(SheetsUrl.ConvertToCsvUrl(url), "export")
  {
    SheetsUrl.ConvertMentionsExport(url);
  }

  /** The frame a source type yields, before validation. */
  function Fetch(source: string, sourceType: string, cfg: Config, src: Sources): Result<Table, ImportError> {
    if sourceType == "csv" then ImportCsv(source, cfg, src)
    else if sourceType == "gsheet" then ImportGoogleSheet(source, cfg)
    else Failure(UnsupportedSourceType(sourceType))
  }

  /** `import_data`: dispatch on the source type, then validate; an invalid frame
      is an error, a valid one is returned unchanged. `cfg` is the configuration
      the tool loaded. */
  function ImportData(source: string, sourceType: string, required: Option<seq<string>>, cfg: Config, src: Sources)
    : (r: Result<Table, ImportError>)
    ensures r == Failure(UnsupportedSourceType(sourceType)) <==> sourceType != "csv" && sourceType != "gsheet"
    ensures sourceType == "gsheet" ==> r.Failure?
  {
    var t :- Fetch(source, sourceType, cfg, src);
    var v := Validate(t, required);
    if !v.isValid then Failure(ValidationFailed(v.errors)) else Success(t)
  }

  /** `import_data` returns exactly the frames its importer produced and the
      validator accepted. */
  lemma ImportDataIff(source: string, sourceType: string, required: Option<seq<string>>, cfg: Config, src: Sources, t: Table)
    ensures (ImportData(source, sourceType, required, cfg, src) == Success(t))
        <==> (Fetch(source, sourceType, cfg, src) == Success(t) && Validate(t, required).isValid)
  {
  }

  /** An imported frame is never empty, has every required column, and came
      from a CSV file. */
  lemma ImportedNotEmpty(source: string, sourceType: string, required: Option<seq<string>>, cfg: Config, src: Sources)
    requires ImportData(source, sourceType, required, cfg, src).Success?
    ensures !IsEmpty(ImportData(source, sourceType, required, cfg, src).value)
    ensures ChecksColumns(required) ==>
              forall n | n in required.value :: HasColumn(ImportData(source, sourceType, required, cfg, src).value.columns, n)
    ensures sourceType == "csv"
  {
  }

  // ------------------------------------------------------------ command line

  datatype ArgError = NoSource | BothSources

  /** Python truthiness of an optional string argument. */
  predicate Given(arg: Option<string>) {
    arg.Some? && |arg.value| > 0
  }

  /** `main`'s source check: exactly one of `--csv` / `--gsheet`; the source type
      is `csv` when `--csv` is given, and the path is `args.csv or args.gsheet`. */
  function ChooseSource(csv: Option<string>, gsheet: Option<string>): (r: Result<(string, string), ArgError>)
    ensures r == Failure(NoSource) <==> !Given(csv) && !Given(gsheet)
    ensures r == Failure(BothSources) <==> Given(csv) && Given(gsheet)
    ensures r.Success? ==> (r.value.0 == "csv" <==> Given(csv))
  {
    if !Given(csv) && !Given(gsheet) then Failure(NoSource)
    else if Given(csv) && Given(gsheet) then Failure(BothSources)
    else if Given(csv) then Success(("csv", csv.value))
    else Success(("gsheet", gsheet.value))
  }

  /** A source chosen on the command line is always one `import_data` supports,
      and its path is the argument that was given. */
  lemma ChosenSourceSupported(csv: Option<string>, gsheet: Option<string>, required: Option<seq<string>>, cfg: Config, src: Sources)
    requires ChooseSource(csv, gsheet).Success?
    ensures var (ty, path) := ChooseSource(csv, gsheet).value;
      && (ty == "csv" || ty == "gsheet")
      && (path == if Given(csv) then csv.value else gsheet.value)
      && ImportData(path, ty, required, cfg, src) != Failure(UnsupportedSourceType(ty))
  {
  }

  // ----------------------------------------------------------- configuration

  const DefaultConfig: Config := map[
    "logging" := ConfigTree.VDict(map[
      "level" := ConfigTree.VStr("INFO"),
      "format" := ConfigTree.VStr("%(asctime)s - %(name)s - %(levelname)s - %(message)s"),
      "file" := ConfigTree.VStr("data_import.log")]),
    "data" := ConfigTree.VDict(map[
      "encoding" := ConfigTree.VStr("utf-8"),
      "chunk_size" := ConfigTree.VInt(10000),
      "max_rows" := ConfigTree.VNone]),
    "google_sheets" := ConfigTree.VDict(map[
      "timeout" := ConfigTree.VInt(30),
      "retry_attempts" := ConfigTree.VInt(3)])
  ]

  /** `_load_config`: the defaults, updated key by key from the user's JSON object
      when a config file is named, exists and parses to an object; any failure
      keeps the defaults. */
  function LoadConfig(file: Option<string>, fileExists: bool, parsed: Result<ConfigTree.Value, string>)
    : (r: Config)
    ensures !(Given(file) && fileExists && parsed.Success? && parsed.value.VDict?) ==> r == DefaultConfig
    ensures Given(file) && fileExists && parsed.Success? && parsed.value.VDict? ==>
              && r.Keys == DefaultConfig.Keys + parsed.value.entries.Keys
              && (forall k | k in parsed.value.entries :: r[k] == parsed.value.entries[k])
              && (forall k | k in DefaultConfig && k !in parsed.value.entries :: r[k] == DefaultConfig[k])
  {
    if Given(file) && fileExists && parsed.Success? && parsed.value.VDict? then DefaultConfig + parsed.value.entries
    else DefaultConfig
  }

  /** The merge is shallow: a user `data` section without `chunk_size` leaves
      the merged configuration without one, although the defaults have it. */
  lemma ShallowMerge(file: Option<string>, user: map<string, ConfigTree.Value>)
    requires Given(file)
    requires "data" in user && user["data"].VDict? && "chunk_size" !in user["data"].entries
    ensures ConfigTree.Lookup(ConfigTree.VDict(DefaultConfig), ["data", "chunk_size"]) == Some(ConfigTree.VInt(10000))
    ensures ConfigTree.Lookup(ConfigTree.VDict(LoadConfig(file, true, Success(ConfigTree.VDict(user)))), ["data", "chunk_size"]) == None
  {
    var r := LoadConfig(file, true, Success(ConfigTree.VDict(user)));
    assert r["data"] == user["data"];
  }
}

=== FILE: logger.dfy ===
// The pure parts of the logging utilities: the size-string parser used for the
// rotating file handler, the request/record counters of the scraping logger and
// the start-time map of the performance logger. Clocks are parameters.

module Logger {
  import opened Wrappers
  import opened Text

  const KiB: int := 1024
  const MiB: int := 1024 * 1024
  const GiB: int := 1024 * 1024 * 1024

  /** `parse_size`: upper-case the text; a `KB`, `MB` or `GB` suffix scales the
      integer before it by 1024, 1024² or 1024³; without one the whole text is
      parsed as a byte count. `None` stands for the `ValueError` of `int()`. */
  function ParseSize(s: string): (r: Option<int>)
    ensures var u := Upper(s);
      && (HasUnit(u) ==> (r.Some? <==> ParseInt(u[..|u| - 2]).Some?))
      && (HasUnit(u) && r.Some? ==> r.value % KiB == 0)
      && (!HasUnit(u) ==> (r.Some? <==> ParseInt(u).Some?))
  {
    var u := Upper(s);
    if EndsWith(u, "KB") then Scale(ParseInt(u[..|u| - 2]), KiB)
    else if EndsWith(u, "MB") then Scale(ParseInt(u[..|u| - 2]), MiB)
    else if EndsWith(u, "GB") then Scale(ParseInt(u[..|u| - 2]), GiB)
    else ParseInt(u)
  }

  /** The text ends in one of the three units `parse_size` knows. */
  predicate HasUnit(u: string) {
    EndsWith(u, "KB") || EndsWith(u, "MB") || EndsWith(u, "GB")
  }

  /** A number of whole units, in bytes: always a multiple of 1024. */
  function Scale(n: Option<int>, unit: int): (r: Option<int>)
    requires unit == KiB || unit == MiB || unit == GiB
    ensures r.Some? <==> n.Some?
    ensures r.Some? ==> r.value % KiB == 0
  {
    match n
    case Some(v) =>
      MultipleOfKiB(v, unit);
      Some(v * unit)
    case None => None
  }

  lemma MultipleOfKiB(v: int, unit: int)
    requires unit == KiB || unit == MiB || unit == GiB
    ensures (v * unit) % KiB == 0
  {
    var k := unit / KiB;
    assert unit == k * KiB;
    assert v * unit == (v * k) * KiB;
  }

  lemma UpperChars(s: string, t: string)
    requires |s| == |t| && forall i | 0 <= i < |s| :: UpperChar(s[i]) == UpperChar(t[i])
    ensures Upper(s) == Upper(t)
  {
  }

  /** Upper-casing first makes the parser case-insensitive: lower-casing the
      input, or upper-casing it, changes nothing. */
  lemma ParseSizeCaseInsensitive(s: string)
    ensures ParseSize(Lower(s)) == ParseSize(s)
    ensures ParseSize(Upper(s)) == ParseSize(s)
  {
    UpperChars(Lower(s), s);
    UpperChars(Upper(s), s);
  }

  lemma StripDigits(d: string)
    requires |d| > 0 && AllDigits(d)
    ensures StripBy(d, IntSpace) == d
  {
    assert !IsSpace(d[0]) && !IsSpace(d[|d| - 1]);
    StripByKeeps(d, IntSpace);
  }

  lemma UpperDigits(d: string)
    requires AllDigits(d)
    ensures Upper(d) == d
  {
  }

  function UnitFactor(u: string): int {
    if u == "KB" then KiB else if u == "MB" then MiB else GiB
  }

  lemma UpperAppend(a: string, b: string)
    ensures Upper(a + b) == Upper(a) + Upper(b)
  {
  }

  /** `"<n>KB"`, `"<n>MB"` and `"<n>GB"`, in any letter case, give `n` times the unit. */
  lemma ParseSizeUnit(n: nat, unit: string)
    requires |unit| == 2 && (Upper(unit) == "KB" || Upper(unit) == "MB" || Upper(unit) == "GB")
    ensures ParseSize(Render(n) + unit) == Some(n * UnitFactor(Upper(unit)))
  {
    var d := Render(n);
    var u := Upper(d + unit);
    UpperDigits(d);
    UpperAppend(d, unit);
    assert u == d + Upper(unit);
    assert u[..|u| - 2] == d;
    assert EndsWith(u, Upper(unit));
    ParseIntRender(n);
    if Upper(unit) != "KB" {
      assert u[|u| - 2..] == Upper(unit);
      assert !EndsWith(u, "KB");
    }
    if Upper(unit) == "GB" {
      assert u[|u| - 2..] == Upper(unit);
      assert !EndsWith(u, "MB");
    }
  }

  /** Without a unit the text is a byte count. */
  lemma ParseSizeBare(n: nat)
    ensures ParseSize(Render(n)) == Some(n)
  {
    var d := Render(n);
    UpperDigits(d);
    NoUnitAfterDigits(d, "KB");
    NoUnitAfterDigits(d, "MB");
    NoUnitAfterDigits(d, "GB");
    ParseIntRender(n);
  }

  lemma NoUnitAfterDigits(d: string, unit: string)
    requires |d| > 0 && AllDigits(d) && |unit| > 0 && !IsDigit(unit[|unit| - 1])
    ensures !EndsWith(d, unit)
  {
    assert IsDigit(d[|d| - 1]);
  }

  /** The rotating handler's default `"10MB"` is 10485760 bytes. */
  lemma DefaultMaxFileSize()
    ensures ParseSize("10MB") == Some(10485760)
  {
    var d := Render(10);
    assert d == "10" by {
      assert Render(1) == "1";
    }
    UpperMegabytes();
    ParseSizeUnit(10, "MB");
    assert d + "MB" == "10MB";
  }

  lemma UpperMegabytes()
    ensures Upper("MB") == "MB" && UnitFactor("MB") == 1048576
  {
    assert Upper("MB")[0] == 'M' && Upper("MB")[1] == 'B';
  }

  /** A bare `B` suffix is not a unit: such a size string never parses. */
  lemma ByteSuffixRejected(s: string)
    requires |s| > 0 && UpperChar(s[|s| - 1]) == 'B'
    requires var u := Upper(s); !EndsWith(u, "KB") && !EndsWith(u, "MB") && !EndsWith(u, "GB")
    ensures ParseSize(s) == None
  {
    var u := Upper(s);
    var t := StripBy(u, IntSpace);
    assert u[|u| - 1] == 'B' && !IsSpace(u[|u| - 1]);
    assert |t| > 0 && t[|t| - 1] == 'B' by {
      StripEndsAtNonSpace(u);
    }
    assert !IsDigit(t[|t| - 1]);
  }

  lemma StripEndsAtNonSpace(u: string)
    requires |u| > 0 && !IsSpace(u[|u| - 1])
    ensures var t := StripBy(u, IntSpace); |t| > 0 && t[|t| - 1] == u[|u| - 1]
  {
    var l := StripLeft(u, IntSpace);
    StripLeftKeepsLast(u, IntSpace);
    assert StripRight(l, IntSpace) == l;
  }

  /** `"10B"` is rejected. */
  lemma TenBytesRejected()
    ensures ParseSize("10B") == None
  {
    assert Upper("10B") == "10B";
    ByteSuffixRejected("10B");
  }

  // ---------------------------------------------------------------- counters

  /** The scraping logger's counters (`start_time` is a clock reading and left out). */
  datatype Stats = Stats(total: nat, successful: nat, failed: nat, records: int)

  const InitialStats: Stats := Stats(0, 0, 0, 0)

  predicate Consistent(s: Stats) {
    s.total == s.successful + s.failed
  }

  predicate IsSuccess(status: int) {
    200 <= status < 300
  }

  /** `log_request`: one more request, counted as successful for a 2xx status
      and as failed otherwise. */
  function LogRequest(s: Stats, status: int): (r: Stats)
    ensures r.total == s.total + 1
    ensures r.successful + r.failed == s.successful + s.failed + 1
    ensures r.successful == s.successful + 1 <==> IsSuccess(status)
    ensures r.failed == s.failed + 1 <==> !IsSuccess(status)
    ensures r.records == s.records
    ensures Consistent(s) ==> Consistent(r)
  {
    if IsSuccess(status) then s.(total := s.total + 1, successful := s.successful + 1)
    else s.(total := s.total + 1, failed := s.failed + 1)
  }

  /** `log_records_processed`: adds `count` to the record total only. */
  function LogRecordsProcessed(s: Stats, count: int): (r: Stats)
    ensures r.records == s.records + count
    ensures r.total == s.total && r.successful == s.successful && r.failed == s.failed
  {
    s.(records := s.records + count)
  }

  /** A session: requests logged one after another, in order. */
  function LogRequests(s: Stats, statuses: seq<int>): (r: Stats)
    decreases |statuses|
  {
    if |statuses| == 0 then s
    else LogRequests(LogRequest(s, statuses[0]), statuses[1..])
  }

  function CountSuccess(statuses: seq<int>): (n: nat)
    ensures n <= |statuses|
  {
    if |statuses| == 0 then 0
    else (if IsSuccess(statuses[0]) then 1 else 0) + CountSuccess(statuses[1..])
  }

  /** From fresh counters, a session of requests counts every request once,
      its 2xx requests as successful and the rest as failed. */
  lemma {:induction false} SessionCounts(s: Stats, statuses: seq<int>)
    requires Consistent(s)
    ensures var r := LogRequests(s, statuses);
      && r.total == s.total + |statuses|
      && r.successful == s.successful + CountSuccess(statuses)
      && r.failed == s.failed + |statuses| - CountSuccess(statuses)
      && Consistent(r)
      && r.records == s.records
    decreases |statuses|
  {
    if |statuses| > 0 {
      SessionCounts(LogRequest(s, statuses[0]), statuses[1..]);
    }
  }

  /** `get_stats()["success_rate"]`: successful over total, or 0 before any request. */
  function SuccessRate(s: Stats): (r: real)
    ensures s.total == 0 ==> r == 0.0
    ensures Consistent(s) ==> 0.0 <= r <= 1.0
    ensures Consistent(s) && s.total > 0 ==> (r == 1.0 <==> s.failed == 0)
  {
    if s.total > 0 then s.successful as real / s.total as real else 0.0
  }

  lemma FullRate(s: Stats)
    requires Consistent(s) && s.total > 0 && s.failed == 0
    ensures SuccessRate(s) == 1.0
  {
  }

  /** A session in which every request succeeded has rate 1. */
  lemma AllSuccessfulRate(statuses: seq<int>)
    requires |statuses| > 0 && CountSuccess(statuses) == |statuses|
    ensures SuccessRate(LogRequests(InitialStats, statuses)) == 1.0
  {
    var r := LogRequests(InitialStats, statuses);
    SessionCounts(InitialStats, statuses);
    FullRate(r);
  }

  // ------------------------------------------------------------------ timers

  /** The performance logger's start times, by operation name; `now` readings
      are seconds from an arbitrary origin supplied by the caller. */
  type Timers = map<string, real>

  datatype EndResult = EndResult(timers: Timers, duration: Option<real>)

  /** `start_timer`: records (or re-records) the start of `op`. */
  function StartTimer(m: Timers, op: string, now: real): (r: Timers)
    ensures op in r && r[op] == now
    ensures forall o | o in m && o != op :: o in r && r[o] == m[o]
    ensures r.Keys == m.Keys + {op}
  {
    m[op := now]
  }

  /** `end_timer`: an unknown operation only warns; a known one reports its
      duration and forgets its start time. */
  function EndTimer(m: Timers, op: string, now: real): (r: EndResult)
    ensures op !in m ==> r == EndResult(m, None)
    ensures op in m ==> r.duration == Some(now - m[op])
    ensures op !in r.timers && r.timers.Keys == m.Keys - {op}
    ensures forall o | o in r.timers :: r.timers[o] == m[o]
  {
    if op !in m then EndResult(m, None)
    else EndResult(m - {op}, Some(now - m[op]))
  }

  /** Starting then ending an operation reports the elapsed time and leaves the
      other timers as they were. */
  lemma StartThenEnd(m: Timers, op: string, t0: real, t1: real)
    ensures EndTimer(StartTimer(m, op, t0), op, t1).duration == Some(t1 - t0)
    ensures EndTimer(StartTimer(m, op, t0), op, t1).timers == m - {op}
  {
    var r := EndTimer(StartTimer(m, op, t0), op, t1).timers;
    assert r.Keys == (m - {op}).Keys;
  }

  /** Ending an operation twice: the second call finds nothing and changes nothing. */
  lemma EndTwice(m: Timers, op: string, t1: real, t2: real)
    ensures var once := EndTimer(m, op, t1).timers;
      EndTimer(once, op, t2) == EndResult(once, None)
  {
  }
}

=== FILE: quality.dfy ===
/**
 The `data_quality_checks.py` cleaning script: trim text columns, drop the rows
 missing a required value, then drop keep-first duplicates on a key among the rows
 that are left, and write what remains. Unlike `report.py` it filters in sequence,
 so no flagged row can survive.
 */
module QualityChecks {
  import opened Wrappers
  import opened Table
  import Report

  /** Everything one run produces: the count reported at line 24, the count reported
      at line 34, the surviving rows with their labels and the file written at line 39. */
  datatype Outcome = Outcome(missingCount: nat, removed: nat, rows: seq<IndexedRow>, file: Table)

  /** Lines 22-25: `df[~missing_rows]`. When nothing is missing the frame is kept as
      it is, which is the same selection. */
  function DropMissing(rows: seq<Row>, req: seq<nat>): seq<IndexedRow> {
    Where(rows, Not(MissingMask(rows, req)))
  }

  /** Line 31: `drop_duplicates(subset=key, keep="first")` on an already filtered frame. */
  function DropDuplicateKeys(xs: seq<IndexedRow>, key: seq<nat>): (r: seq<IndexedRow>)
    ensures |r| <= |xs|
  {
    var keep := Not(Duplicated(Keys(Cells(xs), key)));
    var p := Positions(keep);
    PositionsCount(keep);
    seq(|p|, k requires 0 <= k < |p| => xs[p[k]])
  }

  /** Lines 22-31: the missing filter, then keep-first dedup among the rows left. */
  function Pipeline(rows: seq<Row>, req: seq<nat>, key: seq<nat>): seq<IndexedRow> {
    DropDuplicateKeys(DropMissing(rows, req), key)
  }

  /** The whole script on an already-loaded table. */
  function Run(t: Table, cfg: CleaningConfig): (r: Result<Outcome, PipelineError>)
    requires WellFormed(t)
    ensures r.Failure? <==>
              (exists k | 0 <= k < |cfg.required| :: !HasColumn(t.columns, cfg.required[k]))
              || (exists k | 0 <= k < |cfg.key| :: !HasColumn(t.columns, cfg.key[k]))
    ensures r.Success? ==> r.value.file == Table(t.columns, Cells(r.value.rows))
    ensures r.Success? ==> SourceOrdered(r.value.rows) && FaithfulTo(r.value.rows, Trim(t).rows)
    ensures r.Success? ==> r.value.missingCount + r.value.removed + |r.value.rows| == |t.rows|
  {
    var d := Trim(t);
    match Resolve(d.columns, cfg.required)
    case None => Failure(KeyError(Absent(d.columns, cfg.required)))
    case Some(req) =>
      var kept := DropMissing(d.rows, req);
      match Resolve(d.columns, cfg.key)
      case None => Failure(KeyError(Absent(d.columns, cfg.key)))
      case Some(key) =>
        var out := Pipeline(d.rows, req, key);
        WhereCount(d.rows, Not(MissingMask(d.rows, req)));
        CountTrueNot(MissingMask(d.rows, req));
        DedupSubsequence(kept, key);
        InheritFaithful(kept, out, d.rows);
        Success(Outcome(CountTrue(MissingMask(d.rows, req)), |kept| - |out|, out,
                        Table(d.columns, Cells(out))))
  }

  // ------------------------------------------------------------- the missing filter

  /** Lines 22-25: no surviving row has a null required cell, and a row is removed
      exactly when it has one. */
  lemma DropMissingMeaning(rows: seq<Row>, req: seq<nat>)
    ensures var r := DropMissing(rows, req);
      && SourceOrdered(r) && FaithfulTo(r, rows)
      && (forall k | 0 <= k < |r| :: !MissingAt(r[k].cells, req))
      && (forall i | 0 <= i < |rows| :: i in IndexSet(r) <==> !MissingAt(rows[i], req))
  {
    var m := Not(MissingMask(rows, req));
    var r := DropMissing(rows, req);
    forall i | 0 <= i < |rows|
      ensures i in IndexSet(r) <==> !MissingAt(rows[i], req)
    {
      if m[i] {
        var k :| 0 <= k < |r| && r[k].index == i;
      }
    }
  }

  // ------------------------------------------------------------- keep-first dedup

  /** The survivors of line 31 are taken from the frame, in its order. */
  lemma DedupSubsequence(xs: seq<IndexedRow>, key: seq<nat>)
    ensures var r := DropDuplicateKeys(xs, key);
      && (forall k | 0 <= k < |r| :: r[k] in xs)
      && (SourceOrdered(xs) ==> SourceOrdered(r))
  {
    var p := Positions(Not(Duplicated(Keys(Cells(xs), key))));
    var r := DropDuplicateKeys(xs, key);
    assert forall k | 0 <= k < |r| :: r[k] == xs[p[k]];
  }

  /** Elements drawn from a faithful selection are faithful too. */
  lemma InheritFaithful(xs: seq<IndexedRow>, ys: seq<IndexedRow>, rows: seq<Row>)
    requires FaithfulTo(xs, rows) && forall k | 0 <= k < |ys| :: ys[k] in xs
    ensures FaithfulTo(ys, rows)
  {
    forall k | 0 <= k < |ys|
      ensures ys[k].index < |rows| && ys[k].cells == rows[ys[k].index]
    {
      var q :| 0 <= q < |xs| && xs[q] == ys[k];
    }
  }

  /** Line 31: no two survivors share a key. */
  lemma DedupDistinctKeys(xs: seq<IndexedRow>, key: seq<nat>)
    ensures var r := DropDuplicateKeys(xs, key);
      forall k, l | 0 <= k < l < |r| :: Key(r[k].cells, key) != Key(r[l].cells, key)
  {
    var ks := Keys(Cells(xs), key);
    var keep := Not(Duplicated(ks));
    var p := Positions(keep);
    var r := DropDuplicateKeys(xs, key);
    forall k, l | 0 <= k < l < |r|
      ensures Key(r[k].cells, key) != Key(r[l].cells, key)
    {
      assert p[k] < p[l] && keep[p[l]];
      assert !EarlierCopy(ks, p[l]);
      assert ks[p[k]] != ks[p[l]];
      assert r[k] == xs[p[k]] && r[l] == xs[p[l]];
    }
  }

  /** Line 31, keep-first: every survivor is the earliest row of the frame with its key. */
  lemma DedupEarliest(xs: seq<IndexedRow>, key: seq<nat>)
    requires SourceOrdered(xs)
    ensures var r := DropDuplicateKeys(xs, key);
      forall k, q | 0 <= k < |r| && 0 <= q < |xs| && xs[q].index < r[k].index ::
        Key(xs[q].cells, key) != Key(r[k].cells, key)
  {
    var ks := Keys(Cells(xs), key);
    var keep := Not(Duplicated(ks));
    var p := Positions(keep);
    var r := DropDuplicateKeys(xs, key);
    forall k, q | 0 <= k < |r| && 0 <= q < |xs| && xs[q].index < r[k].index
      ensures Key(xs[q].cells, key) != Key(r[k].cells, key)
    {
      assert r[k] == xs[p[k]] && keep[p[k]];
      assert q < p[k];
      assert !EarlierCopy(ks, p[k]);
      assert ks[q] != ks[p[k]];
    }
  }

  /** The first row with a key survives line 31. */
  lemma DedupKeepsFirst(xs: seq<IndexedRow>, key: seq<nat>, j: nat)
    requires j < |xs| && !Duplicated(Keys(Cells(xs), key))[j]
    ensures exists k | 0 <= k < |DropDuplicateKeys(xs, key)| :: DropDuplicateKeys(xs, key)[k] == xs[j]
  {
    var keep := Not(Duplicated(Keys(Cells(xs), key)));
    var p := Positions(keep);
    assert keep[j];
    assert j in p;
    var k :| 0 <= k < |p| && p[k] == j;
    assert DropDuplicateKeys(xs, key)[k] == xs[j];
  }

  /** Line 31: the key of any row of the frame is kept, by a row no later than it. */
  lemma DedupCovers(xs: seq<IndexedRow>, key: seq<nat>, q: nat)
    requires SourceOrdered(xs) && q < |xs|
    ensures exists k | 0 <= k < |DropDuplicateKeys(xs, key)| ::
              && Key(DropDuplicateKeys(xs, key)[k].cells, key) == Key(xs[q].cells, key)
              && DropDuplicateKeys(xs, key)[k].index <= xs[q].index
  {
    var ks := Keys(Cells(xs), key);
    var r := DropDuplicateKeys(xs, key);
    FirstOccurrenceUnflagged(ks, q);
    var j :| 0 <= j <= q && !Duplicated(ks)[j] && ks[j] == ks[q];
    DedupKeepsFirst(xs, key, j);
    var k :| 0 <= k < |r| && r[k] == xs[j];
    assert ks[j] == Key(xs[j].cells, key) && ks[q] == Key(xs[q].cells, key);
    if j < q {
      assert xs[j].index < xs[q].index;
    }
    assert Key(r[k].cells, key) == Key(xs[q].cells, key) && r[k].index <= xs[q].index;
  }

  /** Lines 30-32: `removed` counts exactly the rows the duplicate mask flags on the
      filtered frame, and the survivors number its distinct keys. */
  lemma DedupCount(xs: seq<IndexedRow>, key: seq<nat>)
    ensures var ks := Keys(Cells(xs), key);
      && |xs| - |DropDuplicateKeys(xs, key)| == CountTrue(Duplicated(ks))
      && |DropDuplicateKeys(xs, key)| == |ValueSet(ks)|
  {
    var ks := Keys(Cells(xs), key);
    PositionsCount(Not(Duplicated(ks)));
    CountTrueNot(Duplicated(ks));
    UnflaggedCountIsDistinctCount(ks);
  }

  /** On a frame whose keys are already distinct, line 31 removes nothing. */
  lemma DedupDistinctIsIdentity(xs: seq<IndexedRow>, key: seq<nat>)
    requires forall k, l | 0 <= k < l < |xs| :: Key(xs[k].cells, key) != Key(xs[l].cells, key)
    ensures DropDuplicateKeys(xs, key) == xs
  {
    var ks := Keys(Cells(xs), key);
    var keep := Not(Duplicated(ks));
    forall i | 0 <= i < |keep| ensures keep[i] {
      assert forall j | 0 <= j < i :: ks[j] != ks[i];
    }
    PositionsFromAll(keep, 0);
  }

  // ------------------------------------------------------------- idempotence

  /** Lines 22-31 leave only rows with no missing required cell and pairwise
      distinct keys, each with its label and cells. */
  lemma PipelineRows(rows: seq<Row>, req: seq<nat>, key: seq<nat>)
    ensures var out := Pipeline(rows, req, key);
      && (forall k | 0 <= k < |out| :: !MissingAt(out[k].cells, req))
      && (forall k, l | 0 <= k < l < |out| :: Key(out[k].cells, key) != Key(out[l].cells, key))
      && FaithfulTo(out, rows)
  {
    var kept := DropMissing(rows, req);
    var out := DropDuplicateKeys(kept, key);
    DropMissingMeaning(rows, req);
    DedupSubsequence(kept, key);
    DedupDistinctKeys(kept, key);
    InheritFaithful(kept, out, rows);
    forall k | 0 <= k < |out|
      ensures !MissingAt(out[k].cells, req)
    {
      var q :| 0 <= q < |kept| && kept[q] == out[k];
    }
  }

  /** A run's surviving rows are trimmed rows with no missing required cell and
      pairwise distinct keys. */
  lemma RunOutputRows(t: Table, cfg: CleaningConfig)
    requires WellFormed(t) && Run(t, cfg).Success?
    ensures var o := Run(t, cfg).value;
      var req := Resolve(t.columns, cfg.required).value;
      var key := Resolve(t.columns, cfg.key).value;
      && (forall k | 0 <= k < |o.rows| :: !MissingAt(o.rows[k].cells, req))
      && (forall k, l | 0 <= k < l < |o.rows| :: Key(o.rows[k].cells, key) != Key(o.rows[l].cells, key))
      && (forall k | 0 <= k < |o.rows| :: o.rows[k].index < |t.rows| &&
            o.rows[k].cells == TrimRow(t.columns, t.rows[o.rows[k].index]))
  {
    var d := Trim(t);
    var req := Resolve(t.columns, cfg.required).value;
    var key := Resolve(t.columns, cfg.key).value;
    var out := Pipeline(d.rows, req, key);
    assert Run(t, cfg).value.rows == out;
    PipelineRows(d.rows, req, key);
    forall k | 0 <= k < |out|
      ensures out[k].index < |t.rows| && out[k].cells == TrimRow(t.columns, t.rows[out[k].index])
    {
      assert out[k].cells == d.rows[out[k].index];
    }
  }

  /** Rows with no missing required cell and pairwise distinct keys pass lines
      22-31 untouched. */
  lemma CleanRowsAreFixed(rows: seq<Row>, req: seq<nat>, key: seq<nat>)
    requires forall i | 0 <= i < |rows| :: !MissingAt(rows[i], req)
    requires forall i, j | 0 <= i < j < |rows| :: Key(rows[i], key) != Key(rows[j], key)
    ensures CountTrue(MissingMask(rows, req)) == 0
    ensures Cells(Pipeline(rows, req, key)) == rows
    ensures |DropMissing(rows, req)| == |Pipeline(rows, req, key)|
  {
    var mm := MissingMask(rows, req);
    CountTrueNone(mm);
    WhereAll(rows, Not(mm));
    var kept := DropMissing(rows, req);
    assert kept == Labelled(rows);
    DedupDistinctIsIdentity(kept, key);
  }

  /** The file a run writes is already trimmed. */
  lemma OutputFileTrimmed(t: Table, cfg: CleaningConfig)
    requires WellFormed(t) && Run(t, cfg).Success?
    ensures WellFormed(Run(t, cfg).value.file)
    ensures Trim(Run(t, cfg).value.file) == Run(t, cfg).value.file
  {
    var o := Run(t, cfg).value;
    var rows := Cells(o.rows);
    RunOutputRows(t, cfg);
    forall k | 0 <= k < |rows| ensures TrimRow(t.columns, rows[k]) == rows[k] {
      TrimRowIdempotent(t.columns, t.rows[o.rows[k].index]);
    }
  }

  /** Lines 17-31 are idempotent on their own output: re-running them on the
      output frame reports nothing missing, removes nothing and yields the same
      frame again. The CSV write and re-read between two runs are not part of this. */
  lemma RunIdempotent(t: Table, cfg: CleaningConfig)
    requires WellFormed(t) && Run(t, cfg).Success?
    ensures var o := Run(t, cfg).value;
      && WellFormed(o.file) && Run(o.file, cfg).Success?
      && Run(o.file, cfg).value.missingCount == 0
      && Run(o.file, cfg).value.removed == 0
      && Run(o.file, cfg).value.file == o.file
  {
    var o := Run(t, cfg).value;
    var req := Resolve(t.columns, cfg.required).value;
    var key := Resolve(t.columns, cfg.key).value;
    var rows := Cells(o.rows);
    RunOutputRows(t, cfg);
    OutputFileTrimmed(t, cfg);
    CleanRowsAreFixed(rows, req, key);
  }

  // ------------------------------------------------------------- against report.py

  /** Every required column is also a key column (true of the shipped lists). */
  predicate KeyCoversRequired(key: seq<nat>, req: seq<nat>) {
    forall k | 0 <= k < |req| :: req[k] in key
  }

  /** With the key covering the required columns, a row missing a required value and
      a row that is not have different keys. */
  lemma MissingChangesKey(t: Table, req: seq<nat>, key: seq<nat>, j: nat, i: nat)
    requires WellFormed(t) && j < |t.rows| && i < |t.rows| && KeyCoversRequired(key, req)
    requires forall k | 0 <= k < |req| :: req[k] < |t.columns|
    requires MissingAt(t.rows[j], req) && !MissingAt(t.rows[i], req)
    ensures Key(t.rows[j], key) != Key(t.rows[i], key)
  {
    var k :| 0 <= k < |req| && req[k] < |t.rows[j]| && t.rows[j][req[k]] == Null;
    var m :| 0 <= m < |key| && key[m] == req[k];
    assert Key(t.rows[j], key)[m] == Null;
    assert t.rows[i][req[k]] != Null;
    assert Key(t.rows[i], key)[m] != Null;
  }

  /** An earlier row that survives the missing filter has a key different from a
      kept row's. */
  lemma EarlierSurvivorKeyDiffers(kept: seq<IndexedRow>, key: seq<nat>, k: nat, j: nat)
    requires SourceOrdered(kept)
    requires k < |DropDuplicateKeys(kept, key)|
    requires j in IndexSet(kept) && j < DropDuplicateKeys(kept, key)[k].index
    ensures exists q | 0 <= q < |kept| :: kept[q].index == j &&
              Key(kept[q].cells, key) != Key(DropDuplicateKeys(kept, key)[k].cells, key)
  {
    var q :| 0 <= q < |kept| && kept[q].index == j;
    DedupEarliest(kept, key);
  }

  /** A kept row is flagged by neither of `report.py`'s masks. */
  lemma KeptIsUnflagged(t: Table, req: seq<nat>, key: seq<nat>, i: nat)
    requires WellFormed(t) && i < |t.rows| && KeyCoversRequired(key, req)
    requires forall k | 0 <= k < |req| :: req[k] < |t.columns|
    requires i in IndexSet(DropDuplicateKeys(DropMissing(t.rows, req), key))
    ensures !MissingAt(t.rows[i], req) && !Duplicated(Keys(t.rows, key))[i]
  {
    var rows := t.rows;
    var kept := DropMissing(rows, req);
    var out := DropDuplicateKeys(kept, key);
    var ks := Keys(rows, key);
    DropMissingMeaning(rows, req);
    DedupSubsequence(kept, key);
    InheritFaithful(kept, out, rows);
    var k :| 0 <= k < |out| && out[k].index == i;
    assert out[k] in kept;
    assert !MissingAt(rows[i], req);
    EarlierKeysDiffer(t, req, key, i, k);
    assert !EarlierCopy(ks, i);
  }

  /** No row before a kept row has its key. */
  lemma EarlierKeysDiffer(t: Table, req: seq<nat>, key: seq<nat>, i: nat, k: nat)
    requires WellFormed(t) && i < |t.rows| && KeyCoversRequired(key, req)
    requires forall k | 0 <= k < |req| :: req[k] < |t.columns|
    requires !MissingAt(t.rows[i], req)
    requires k < |DropDuplicateKeys(DropMissing(t.rows, req), key)|
    requires DropDuplicateKeys(DropMissing(t.rows, req), key)[k].index == i
    ensures forall j | 0 <= j < i :: Keys(t.rows, key)[j] != Keys(t.rows, key)[i]
  {
    var rows := t.rows;
    var kept := DropMissing(rows, req);
    var out := DropDuplicateKeys(kept, key);
    var ks := Keys(rows, key);
    DropMissingMeaning(rows, req);
    DedupSubsequence(kept, key);
    InheritFaithful(kept, out, rows);
    forall j | 0 <= j < i ensures ks[j] != ks[i] {
      if MissingAt(rows[j], req) {
        MissingChangesKey(t, req, key, j, i);
      } else {
        EarlierSurvivorKeyDiffers(kept, key, k, j);
      }
    }
  }

  /** A row of a filtered frame whose key occurs in no earlier row of the whole
      table survives line 31. */
  lemma FirstInTableIsKept(xs: seq<IndexedRow>, rows: seq<Row>, key: seq<nat>, q: nat)
    requires SourceOrdered(xs) && FaithfulTo(xs, rows) && q < |xs|
    requires !Duplicated(Keys(rows, key))[xs[q].index]
    ensures xs[q].index in IndexSet(DropDuplicateKeys(xs, key))
  {
    var out := DropDuplicateKeys(xs, key);
    var ks := Keys(rows, key);
    var i := xs[q].index;
    DedupSubsequence(xs, key);
    InheritFaithful(xs, out, rows);
    DedupCovers(xs, key, q);
    var k :| 0 <= k < |out| &&
      Key(out[k].cells, key) == Key(xs[q].cells, key) && out[k].index <= i;
    var j := out[k].index;
    assert ks[j] == ks[i];
    assert !EarlierCopy(ks, i);
    assert j == i;
  }

  /** A row flagged by neither of `report.py`'s masks is kept. */
  lemma UnflaggedIsKept(t: Table, req: seq<nat>, key: seq<nat>, i: nat)
    requires i < |t.rows|
    requires !MissingAt(t.rows[i], req) && !Duplicated(Keys(t.rows, key))[i]
    ensures i in IndexSet(DropDuplicateKeys(DropMissing(t.rows, req), key))
  {
    var kept := DropMissing(t.rows, req);
    DropMissingMeaning(t.rows, req);
    var q :| 0 <= q < |kept| && kept[q].index == i;
    FirstInTableIsKept(kept, t.rows, key, q);
  }

  /** With the key covering the required columns, filtering then deduplicating keeps
      row `i` iff neither of `report.py`'s masks (lines 23 and 28, on the whole table)
      flags it. */
  lemma KeptIffUnflagged(t: Table, req: seq<nat>, key: seq<nat>, i: nat)
    requires WellFormed(t) && i < |t.rows| && KeyCoversRequired(key, req)
    requires forall k | 0 <= k < |req| :: req[k] < |t.columns|
    ensures var out := DropDuplicateKeys(DropMissing(t.rows, req), key);
      i in IndexSet(out) <==>
        !Report.Flagged(MissingMask(t.rows, req), Duplicated(Keys(t.rows, key)), i)
  {
    if i in IndexSet(DropDuplicateKeys(DropMissing(t.rows, req), key)) {
      KeptIsUnflagged(t, req, key, i);
    }
    if !MissingAt(t.rows[i], req) && !Duplicated(Keys(t.rows, key))[i] {
      UnflaggedIsKept(t, req, key, i);
    }
  }

  /** Required names that are all key names resolve to key positions. */
  lemma ResolvedKeyCovers(cols: seq<Column>, cfg: CleaningConfig)
    requires Resolve(cols, cfg.required).Some? && Resolve(cols, cfg.key).Some?
    requires forall n | n in cfg.required :: n in cfg.key
    ensures KeyCoversRequired(Resolve(cols, cfg.key).value, Resolve(cols, cfg.required).value)
  {
    var req := Resolve(cols, cfg.required).value;
    var key := Resolve(cols, cfg.key).value;
    forall k | 0 <= k < |req| ensures req[k] in key {
      ResolveFirst(cols, cfg.required, k);
      assert cfg.required[k] in cfg.key;
      var m :| 0 <= m < |cfg.key| && cfg.key[m] == cfg.required[k];
      ResolveFirst(cols, cfg.key, m);
      assert key[m] == req[k];
    }
  }

  /** With the key covering the required columns, lines 22-31 keep exactly the rows
      neither of `report.py`'s masks flags, in source order. */
  lemma PipelineIsCleanedByIndex(t: Table, req: seq<nat>, key: seq<nat>)
    requires WellFormed(t) && KeyCoversRequired(key, req)
    requires forall k | 0 <= k < |req| :: req[k] < |t.columns|
    ensures Pipeline(t.rows, req, key) ==
              Report.CleanedByIndex(t.rows, MissingMask(t.rows, req), Duplicated(Keys(t.rows, key)))
  {
    var mm := MissingMask(t.rows, req);
    var dm := Duplicated(Keys(t.rows, key));
    var kept := DropMissing(t.rows, req);
    var out := Pipeline(t.rows, req, key);
    var want := Report.CleanedByIndex(t.rows, mm, dm);
    DropMissingMeaning(t.rows, req);
    DedupSubsequence(kept, key);
    InheritFaithful(kept, out, t.rows);
    SameLabels(t, req, key);
    OrderedEqual(out, want, t.rows);
  }

  lemma SameLabels(t: Table, req: seq<nat>, key: seq<nat>)
    requires WellFormed(t) && KeyCoversRequired(key, req)
    requires forall k | 0 <= k < |req| :: req[k] < |t.columns|
    ensures IndexSet(Pipeline(t.rows, req, key))
         == IndexSet(Report.CleanedByIndex(t.rows, MissingMask(t.rows, req), Duplicated(Keys(t.rows, key))))
  {
    var out := Pipeline(t.rows, req, key);
    var want := Report.CleanedByIndex(t.rows, MissingMask(t.rows, req), Duplicated(Keys(t.rows, key)));
    forall i | i in IndexSet(out) ensures i in IndexSet(want) {
      var k :| 0 <= k < |out| && out[k].index == i;
      KeptIffUnflagged(t, req, key, i);
    }
    forall i | i in IndexSet(want) ensures i in IndexSet(out) {
      var k :| 0 <= k < |want| && want[k].index == i;
      KeptIffUnflagged(t, req, key, i);
    }
  }

  /** Lines 6-7 and 22-31: when every required column is a key column (as in the
      shipped lists), this script's output is exactly the index-based cleaned output
      `report.py` intends: the rows neither of its masks flags. */
  lemma AgreesWithIntendedReport(t: Table, cfg: CleaningConfig)
    requires WellFormed(t) && Run(t, cfg).Success?
    requires forall n | n in cfg.required :: n in cfg.key
    ensures var d := Trim(t);
      var mm := MissingMask(d.rows, Resolve(t.columns, cfg.required).value);
      var dm := Duplicated(Keys(d.rows, Resolve(t.columns, cfg.key).value));
      Run(t, cfg).value.rows == Report.CleanedByIndex(d.rows, mm, dm)
  {
    var d := Trim(t);
    var req := Resolve(t.columns, cfg.required).value;
    var key := Resolve(t.columns, cfg.key).value;
    ResolvedKeyCovers(t.columns, cfg);
    PipelineIsCleanedByIndex(d, req, key);
  }
}

=== FILE: report.dfy ===
/**
 The `report.py` cleaning script (identical at `src/data_processing/report.py`):
 trim text columns, flag rows missing a required value, flag keep-first duplicates
 on a key, gather the flagged rows into a "problematic" frame, and drop those rows
 from the table to get the "cleaned" frame.

 The script gathers the problematic rows by concatenating the two flagged frames
 and then dropping duplicates BY VALUE (every column equal), but it removes them
 from the table BY INDEX LABEL. When two flagged rows are equal in every column,
 only one label reaches the problematic frame and the others stay in the cleaned
 output. `Problematic`/`Cleaned` model the script as written; `LeakIff` and
 `ThreeCopiesLeak` exhibit the discrepancy; `FlaggedByIndex`/`CleanedByIndex`
 are the index-based partition the script evidently intends.
 */
module Report {
  import opened Wrappers
  import opened Table
  import Text

  /** Everything one run produces. */
  datatype Outcome = Outcome(
    missingRows: seq<IndexedRow>,
    duplicateRows: seq<IndexedRow>,
    problematic: seq<IndexedRow>,
    problematicFile: Option<Table>,
    cleaned: seq<IndexedRow>,
    cleanedFile: Table)

  /** Row `i` is flagged by the missing mask `mm` or by the duplicate mask `dm`. */
  predicate Flagged(mm: seq<bool>, dm: seq<bool>, i: nat)
    requires i < |mm| && i < |dm|
  {
    mm[i] || dm[i]
  }

  /** Both masks have one entry per row. */
  predicate Masks(rows: seq<Row>, mm: seq<bool>, dm: seq<bool>) {
    |mm| == |rows| && |dm| == |rows|
  }

  /** `pd.concat(frames).drop_duplicates()`: keeps the first of every group of rows
      equal in every column, each with its index label. */
  function DropDuplicates(xs: seq<IndexedRow>): (r: seq<IndexedRow>)
    ensures forall k | 0 <= k < |r| :: r[k] in xs
    ensures forall k, l | 0 <= k < l < |r| :: r[k].cells != r[l].cells
    ensures forall x | x in xs :: exists k | 0 <= k < |r| :: r[k].cells == x.cells
  {
    var cs := Cells(xs);
    var p := Positions(Not(Duplicated(cs)));
    var r := seq(|p|, k requires 0 <= k < |p| => xs[p[k]]);
    FirstCopies(xs, p, r);
    r
  }

  /** The rows of `xs` at the increasing positions `p` of first occurrences. */
  lemma FirstCopies(xs: seq<IndexedRow>, p: seq<nat>, r: seq<IndexedRow>)
    requires forall k | 0 <= k < |p| :: p[k] < |xs| && !Duplicated(Cells(xs))[p[k]]
    requires forall k, l | 0 <= k < l < |p| :: p[k] < p[l]
    requires forall i | 0 <= i < |xs| && !Duplicated(Cells(xs))[i] :: i in p
    requires |r| == |p| && forall k | 0 <= k < |r| :: r[k] == xs[p[k]]
    ensures forall k | 0 <= k < |r| :: r[k] in xs
    ensures forall k, l | 0 <= k < l < |r| :: r[k].cells != r[l].cells
    ensures forall x | x in xs :: exists k | 0 <= k < |r| :: r[k].cells == x.cells
  {
    var cs := Cells(xs);
    forall k, l | 0 <= k < l < |r|
      ensures r[k].cells != r[l].cells
    {
      assert !EarlierCopy(cs, p[l]);
      assert cs[p[k]] != cs[p[l]];
    }
    forall x | x in xs
      ensures exists k | 0 <= k < |r| :: r[k].cells == x.cells
    {
      var i :| 0 <= i < |xs| && xs[i] == x;
      FirstOccurrenceUnflagged(cs, i);
      var j :| 0 <= j <= i && !Duplicated(cs)[j] && cs[j] == cs[i];
      var k :| 0 <= k < |p| && p[k] == j;
      assert r[k].cells == x.cells;
    }
  }

  /** Line 33, first half: `pd.concat([missing_rows, duplicate_rows])`. */
  function Gathered(rows: seq<Row>, mm: seq<bool>, dm: seq<bool>): seq<IndexedRow>
    requires Masks(rows, mm, dm)
  {
    Where(rows, mm) + Where(rows, dm)
  }

  /** Line 33: the problematic frame built from the two flagged frames. */
  function Problematic(rows: seq<Row>, mm: seq<bool>, dm: seq<bool>): seq<IndexedRow>
    requires Masks(rows, mm, dm)
  {
    DropDuplicates(Gathered(rows, mm, dm))
  }

  /** Line 41: `df.drop(index=problematic.index)`, the rows whose label is not a
      problematic label, in source order. */
  function Cleaned(rows: seq<Row>, problematic: seq<IndexedRow>): (r: seq<IndexedRow>)
    ensures SourceOrdered(r) && FaithfulTo(r, rows)
    ensures forall k | 0 <= k < |r| :: r[k].index !in IndexSet(problematic)
    ensures forall i | 0 <= i < |rows| && i !in IndexSet(problematic) ::
              exists k | 0 <= k < |r| :: r[k].index == i
  {
    var keep := seq(|rows|, i requires 0 <= i < |rows| => i !in IndexSet(problematic));
    assert forall i | 0 <= i < |rows| && i !in IndexSet(problematic) :: keep[i];
    Where(rows, keep)
  }

  /** The whole script on an already-loaded table. */
  function Run(t: Table, cfg: CleaningConfig): (r: Result<Outcome, PipelineError>)
    requires WellFormed(t)
    ensures r.Failure? <==>
              (exists k | 0 <= k < |cfg.required| :: !HasColumn(t.columns, cfg.required[k]))
              || (exists k | 0 <= k < |cfg.key| :: !HasColumn(t.columns, cfg.key[k]))
    ensures r.Success? ==> (r.value.problematicFile.Some? <==> |r.value.problematic| > 0)
    ensures r.Success? && r.value.problematicFile.Some? ==>
              r.value.problematicFile.value == Table(t.columns, Cells(r.value.problematic))
    ensures r.Success? ==> r.value.cleanedFile == Table(t.columns, Cells(r.value.cleaned))
    ensures r.Success? ==> |r.value.cleaned| + |r.value.problematic| == |t.rows|
    ensures r.Success? ==> IndexSet(r.value.cleaned) !! IndexSet(r.value.problematic)
  {
    var d := Trim(t);
    match (Resolve(d.columns, cfg.required), Resolve(d.columns, cfg.key))
    case (None, _) => Failure(KeyError(Absent(d.columns, cfg.required)))
    case (_, None) => Failure(KeyError(Absent(d.columns, cfg.key)))
    case (Some(req), Some(key)) =>
      var mm := MissingMask(d.rows, req);
      var dm := Duplicated(Keys(d.rows, key));
      var problematic := Problematic(d.rows, mm, dm);
      var cleaned := Cleaned(d.rows, problematic);
      ProblematicContents(d.rows, mm, dm);
      PartitionSizes(d.rows, problematic);
      var file := if |problematic| > 0 then Some(Table(d.columns, Cells(problematic))) else None;
      Success(Outcome(Where(d.rows, mm), Where(d.rows, dm), problematic, file, cleaned,
                      Table(d.columns, Cells(cleaned))))
  }

  /** Line 23 after trimming: a row is flagged iff some required cell was null, or
      was a non-string in a text column (which `.str.strip()` turns into NaN).
      A whitespace-only string becomes "" and is not flagged. */
  lemma MissingMaskMeaning(t: Table, req: seq<nat>, i: nat)
    requires WellFormed(t) && i < |t.rows|
    requires forall k | 0 <= k < |req| :: req[k] < |t.columns|
    ensures MissingMask(Trim(t).rows, req)[i] <==>
              exists k | 0 <= k < |req| ::
                t.rows[i][req[k]] == Null || (t.columns[req[k]].isText && t.rows[i][req[k]].Num?)
  {
    var d := Trim(t);
    forall k | 0 <= k < |req|
      ensures d.rows[i][req[k]] == Null <==>
                (t.rows[i][req[k]] == Null || (t.columns[req[k]].isText && t.rows[i][req[k]].Num?))
    {
      TrimMeaning(t, i, req[k]);
    }
  }

  /** Line 28: a row is flagged iff some earlier row agrees with it on every key
      column (null agreeing with null). */
  lemma DuplicateMaskMeaning(rows: seq<Row>, key: seq<nat>, i: nat)
    requires i < |rows|
    requires forall r, k | r in rows && 0 <= k < |key| :: key[k] < |r|
    ensures Duplicated(Keys(rows, key))[i] <==>
              exists j | 0 <= j < i :: forall k | 0 <= k < |key| :: rows[j][key[k]] == rows[i][key[k]]
  {
    var ks := Keys(rows, key);
    if Duplicated(ks)[i] {
      var j :| 0 <= j < i && ks[j] == ks[i];
      forall k | 0 <= k < |key| ensures rows[j][key[k]] == rows[i][key[k]] {
        assert ks[j][k] == ks[i][k];
      }
    }
    if exists j | 0 <= j < i :: forall k | 0 <= k < |key| :: rows[j][key[k]] == rows[i][key[k]] {
      var j :| 0 <= j < i && forall k | 0 <= k < |key| :: rows[j][key[k]] == rows[i][key[k]];
      assert ks[j] == ks[i];
    }
  }

  /** Line 28, keep-first: the first row with a given key is never flagged, so the
      unflagged rows number exactly the distinct keys. */
  lemma KeepFirst(rows: seq<Row>, key: seq<nat>)
    ensures forall i | 0 <= i < |rows| :: exists j | 0 <= j <= i ::
              !Duplicated(Keys(rows, key))[j] && Key(rows[j], key) == Key(rows[i], key)
    ensures |rows| - CountTrue(Duplicated(Keys(rows, key))) == |ValueSet(Keys(rows, key))|
  {
    var ks := Keys(rows, key);
    forall i | 0 <= i < |rows|
      ensures exists j | 0 <= j <= i :: !Duplicated(ks)[j] && Key(rows[j], key) == Key(rows[i], key)
    {
      FirstOccurrenceUnflagged(ks, i);
    }
    UnflaggedCountIsDistinctCount(ks);
  }

  /** Every gathered row is a flagged row with its own label and cells. */
  lemma GatheredRow(rows: seq<Row>, mm: seq<bool>, dm: seq<bool>, q: nat)
    requires Masks(rows, mm, dm) && q < |Gathered(rows, mm, dm)|
    ensures var x := Gathered(rows, mm, dm)[q];
      x.index < |rows| && x.cells == rows[x.index] && Flagged(mm, dm, x.index)
    ensures q < |Where(rows, mm)| ==> mm[Gathered(rows, mm, dm)[q].index]
  {
    var m := Where(rows, mm);
    var d := Where(rows, dm);
    if q < |m| {
      assert Gathered(rows, mm, dm)[q] == m[q];
    } else {
      assert Gathered(rows, mm, dm)[q] == d[q - |m|];
    }
  }

  /** Every flagged row is gathered. */
  lemma FlaggedIsGathered(rows: seq<Row>, mm: seq<bool>, dm: seq<bool>, i: nat)
    requires Masks(rows, mm, dm) && i < |rows| && Flagged(mm, dm, i)
    ensures IndexedRow(i, rows[i]) in Gathered(rows, mm, dm)
  {
    var m := Where(rows, mm);
    var d := Where(rows, dm);
    var c := Gathered(rows, mm, dm);
    if mm[i] {
      var q :| 0 <= q < |m| && m[q].index == i;
      assert c[q] == m[q];
    } else {
      var q :| 0 <= q < |d| && d[q].index == i;
      assert c[|m| + q] == d[q];
    }
  }

  /** One problematic row: a flagged row with its own label and cells. */
  lemma ProblematicRow(rows: seq<Row>, mm: seq<bool>, dm: seq<bool>, k: nat)
    requires Masks(rows, mm, dm) && k < |Problematic(rows, mm, dm)|
    ensures var x := Problematic(rows, mm, dm)[k];
      x.index < |rows| && x.cells == rows[x.index] && Flagged(mm, dm, x.index)
  {
    var c := Gathered(rows, mm, dm);
    var q :| 0 <= q < |c| && c[q] == Problematic(rows, mm, dm)[k];
    GatheredRow(rows, mm, dm, q);
  }

  /** Line 33: the problematic frame holds only flagged rows with their own labels
      and cells, and no two of them are equal in every column; so a row flagged by
      both masks is there once and no label repeats. */
  lemma ProblematicContents(rows: seq<Row>, mm: seq<bool>, dm: seq<bool>)
    requires Masks(rows, mm, dm)
    ensures var p := Problematic(rows, mm, dm);
      && FaithfulTo(p, rows)
      && (forall k | 0 <= k < |p| :: Flagged(mm, dm, p[k].index))
      && (forall k, l | 0 <= k < l < |p| :: p[k].cells != p[l].cells)
      && DistinctIndices(p)
  {
    var c := Gathered(rows, mm, dm);
    var p := Problematic(rows, mm, dm);
    forall k | 0 <= k < |p|
      ensures p[k].index < |rows| && p[k].cells == rows[p[k].index] && Flagged(mm, dm, p[k].index)
    {
      var q :| 0 <= q < |c| && c[q] == p[k];
      GatheredRow(rows, mm, dm, q);
    }
  }

  /** Line 33: every flagged row is represented in the problematic frame by a row
      with the same contents (itself, or an earlier-gathered copy). */
  lemma ProblematicCovers(rows: seq<Row>, mm: seq<bool>, dm: seq<bool>, i: nat)
    requires Masks(rows, mm, dm) && i < |rows| && Flagged(mm, dm, i)
    ensures exists k | 0 <= k < |Problematic(rows, mm, dm)| ::
              Problematic(rows, mm, dm)[k].cells == rows[i]
  {
    var c := Gathered(rows, mm, dm);
    var p := DropDuplicates(c);
    FlaggedIsGathered(rows, mm, dm, i);
    var x := IndexedRow(i, rows[i]);
    assert x in c;
    assert p == Problematic(rows, mm, dm);
    var k :| 0 <= k < |p| && p[k].cells == x.cells;
  }

  /** Position of a problematic row in the order line 33 produces: all rows with a
      missing value first, then the remaining duplicates, each group by label. */
  function Rank(mm: seq<bool>, x: IndexedRow): int {
    if x.index < |mm| && mm[x.index] then x.index else |mm| + x.index
  }

  /** A row from the duplicate frame that has a missing value has an equal copy
      earlier, in the missing frame, so value-based dropping removes it. */
  lemma LateMissingIsDropped(rows: seq<Row>, mm: seq<bool>, dm: seq<bool>, q: nat)
    requires Masks(rows, mm, dm)
    requires |Where(rows, mm)| <= q < |Gathered(rows, mm, dm)|
    ensures var c := Gathered(rows, mm, dm);
      c[q].index < |mm| && mm[c[q].index] ==> Duplicated(Cells(c))[q]
  {
    var m := Where(rows, mm);
    var c := Gathered(rows, mm, dm);
    var cs := Cells(c);
    GatheredRow(rows, mm, dm, q);
    var x := c[q];
    if mm[x.index] {
      var j :| 0 <= j < |m| && m[j].index == x.index;
      assert c[j] == m[j];
      assert cs[j] == cs[q];
      assert EarlierCopy(cs, q);
    }
  }

  /** The problematic rows are the gathered rows at the positions the value-based
      duplicate mask leaves unflagged, in gathered order. */
  lemma ProblematicAt(rows: seq<Row>, mm: seq<bool>, dm: seq<bool>, k: nat)
    requires Masks(rows, mm, dm) && k < |Problematic(rows, mm, dm)|
    ensures var c := Gathered(rows, mm, dm);
      var pos := Positions(Not(Duplicated(Cells(c))));
      && |Problematic(rows, mm, dm)| == |pos|
      && pos[k] < |c| && !Duplicated(Cells(c))[pos[k]]
      && Problematic(rows, mm, dm)[k] == c[pos[k]]
  {
  }

  /** Two gathered rows that both survive value-based dropping keep their gathered
      order under `Rank`. */
  lemma GatheredRankOrder(rows: seq<Row>, mm: seq<bool>, dm: seq<bool>, a: nat, b: nat)
    requires Masks(rows, mm, dm) && a < b < |Gathered(rows, mm, dm)|
    requires !Duplicated(Cells(Gathered(rows, mm, dm)))[a]
    requires !Duplicated(Cells(Gathered(rows, mm, dm)))[b]
    ensures Rank(mm, Gathered(rows, mm, dm)[a]) < Rank(mm, Gathered(rows, mm, dm)[b])
  {
    var m := Where(rows, mm);
    var d := Where(rows, dm);
    var c := Gathered(rows, mm, dm);
    GatheredRow(rows, mm, dm, a);
    GatheredRow(rows, mm, dm, b);
    if b < |m| {
      assert c[a] == m[a] && c[b] == m[b];
    } else if a < |m| {
      LateMissingIsDropped(rows, mm, dm, b);
    } else {
      assert c[a] == d[a - |m|] && c[b] == d[b - |m|];
      LateMissingIsDropped(rows, mm, dm, a);
      LateMissingIsDropped(rows, mm, dm, b);
    }
  }

  /** Line 33, order: the missing rows in source order, then the duplicate rows that
      are not missing in source order (a row that is both keeps its place among the
      missing ones). */
  lemma ProblematicOrder(rows: seq<Row>, mm: seq<bool>, dm: seq<bool>)
    requires Masks(rows, mm, dm)
    ensures var p := Problematic(rows, mm, dm);
      forall k, l | 0 <= k < l < |p| :: Rank(mm, p[k]) < Rank(mm, p[l])
  {
    var c := Gathered(rows, mm, dm);
    var pos := Positions(Not(Duplicated(Cells(c))));
    var p := Problematic(rows, mm, dm);
    forall k, l | 0 <= k < l < |p|
      ensures Rank(mm, p[k]) < Rank(mm, p[l])
    {
      ProblematicAt(rows, mm, dm, k);
      ProblematicAt(rows, mm, dm, l);
      GatheredRankOrder(rows, mm, dm, pos[k], pos[l]);
    }
  }

  /** Lines 41-42: the cleaned rows are the other labels, so cleaned and problematic
      share no label and together number the input rows. */
  lemma PartitionSizes(rows: seq<Row>, problematic: seq<IndexedRow>)
    requires FaithfulTo(problematic, rows) && DistinctIndices(problematic)
    ensures IndexSet(Cleaned(rows, problematic)) !! IndexSet(problematic)
    ensures |Cleaned(rows, problematic)| + |problematic| == |rows|
  {
    var c := Cleaned(rows, problematic);
    var keep := seq(|rows|, i requires 0 <= i < |rows| => i !in IndexSet(problematic));
    DistinctIndexCount(c);
    DistinctIndexCount(problematic);
    WhereIndexSet(rows, keep);
    assert IndexSet(problematic) == MaskSet(Not(keep));
    MaskSplitCount(keep);
  }

  /** A flagged row left in the cleaned output has a different flagged row equal to it. */
  lemma LeakNeedsEqualFlaggedRows(rows: seq<Row>, mm: seq<bool>, dm: seq<bool>, i: nat)
    requires Masks(rows, mm, dm) && i < |rows| && Flagged(mm, dm, i)
    requires i !in IndexSet(Problematic(rows, mm, dm))
    ensures exists j | 0 <= j < |rows| :: j != i && Flagged(mm, dm, j) && rows[j] == rows[i]
  {
    var p := Problematic(rows, mm, dm);
    ProblematicCovers(rows, mm, dm, i);
    var l :| 0 <= l < |p| && p[l].cells == rows[i];
    ProblematicRow(rows, mm, dm, l);
    var j := p[l].index;
    assert j in IndexSet(p);
    assert j != i && Flagged(mm, dm, j) && rows[j] == rows[i];
  }

  /** Of two different flagged rows equal in every column, one label is not problematic. */
  lemma EqualFlaggedRowsLeak(rows: seq<Row>, mm: seq<bool>, dm: seq<bool>, i: nat, j: nat)
    requires Masks(rows, mm, dm) && i < j < |rows|
    requires Flagged(mm, dm, i) && Flagged(mm, dm, j) && rows[i] == rows[j]
    ensures i !in IndexSet(Problematic(rows, mm, dm)) || j !in IndexSet(Problematic(rows, mm, dm))
  {
    ProblematicContents(rows, mm, dm);
  }

  /** Two different flagged rows are equal in every column. */
  predicate EqualFlaggedPair(rows: seq<Row>, mm: seq<bool>, dm: seq<bool>)
    requires Masks(rows, mm, dm)
  {
    exists i, j | 0 <= i < j < |rows| ::
      Flagged(mm, dm, i) && Flagged(mm, dm, j) && rows[i] == rows[j]
  }

  /** Some flagged row reaches the cleaned output of lines 33 and 41. */
  predicate Leaks(rows: seq<Row>, mm: seq<bool>, dm: seq<bool>)
    requires Masks(rows, mm, dm)
  {
    var c := Cleaned(rows, Problematic(rows, mm, dm));
    exists k | 0 <= k < |c| :: c[k].index < |rows| && Flagged(mm, dm, c[k].index)
  }

  lemma LeakHasEqualPair(rows: seq<Row>, mm: seq<bool>, dm: seq<bool>)
    requires Masks(rows, mm, dm) && Leaks(rows, mm, dm)
    ensures EqualFlaggedPair(rows, mm, dm)
  {
    var c := Cleaned(rows, Problematic(rows, mm, dm));
    var k :| 0 <= k < |c| && c[k].index < |rows| && Flagged(mm, dm, c[k].index);
    var i := c[k].index;
    LeakNeedsEqualFlaggedRows(rows, mm, dm, i);
    var j :| 0 <= j < |rows| && j != i && Flagged(mm, dm, j) && rows[j] == rows[i];
    if i < j {
      assert Flagged(mm, dm, i) && Flagged(mm, dm, j) && rows[i] == rows[j];
    } else {
      assert Flagged(mm, dm, j) && Flagged(mm, dm, i) && rows[j] == rows[i];
    }
  }

  /** A flagged row whose label is not problematic is a leak. */
  lemma UnproblematicFlaggedLeaks(rows: seq<Row>, mm: seq<bool>, dm: seq<bool>, i: nat)
    requires Masks(rows, mm, dm) && i < |rows| && Flagged(mm, dm, i)
    requires i !in IndexSet(Problematic(rows, mm, dm))
    ensures Leaks(rows, mm, dm)
  {
    var c := Cleaned(rows, Problematic(rows, mm, dm));
    var k :| 0 <= k < |c| && c[k].index == i;
    assert c[k].index < |rows| && Flagged(mm, dm, c[k].index);
  }

  lemma EqualPairLeaks(rows: seq<Row>, mm: seq<bool>, dm: seq<bool>)
    requires Masks(rows, mm, dm) && EqualFlaggedPair(rows, mm, dm)
    ensures Leaks(rows, mm, dm)
  {
    var i, j :| 0 <= i < j < |rows| &&
      Flagged(mm, dm, i) && Flagged(mm, dm, j) && rows[i] == rows[j];
    EqualFlaggedRowsLeak(rows, mm, dm, i, j);
    if i !in IndexSet(Problematic(rows, mm, dm)) {
      UnproblematicFlaggedLeaks(rows, mm, dm, i);
    } else {
      UnproblematicFlaggedLeaks(rows, mm, dm, j);
    }
  }

  /** Lines 33 and 41 together: some flagged row reaches the cleaned output iff two
      different flagged rows are equal in every column. */
  lemma LeakIff(rows: seq<Row>, mm: seq<bool>, dm: seq<bool>)
    requires Masks(rows, mm, dm)
    ensures Leaks(rows, mm, dm) <==> EqualFlaggedPair(rows, mm, dm)
  {
    if Leaks(rows, mm, dm) {
      LeakHasEqualPair(rows, mm, dm);
    }
    if EqualFlaggedPair(rows, mm, dm) {
      EqualPairLeaks(rows, mm, dm);
    }
  }

  /** The masks of lines 23 and 28 on three rows equal in every column with no
      missing value: only the second and third are flagged, as duplicates. */
  lemma ThreeCopiesMasks(r: Row, req: seq<nat>, key: seq<nat>)
    requires !MissingAt(r, req)
    ensures MissingMask([r, r, r], req) == [false, false, false]
    ensures Duplicated(Keys([r, r, r], key)) == [false, true, true]
  {
    var ks := Keys([r, r, r], key);
    assert ks[0] == ks[1] == ks[2];
    assert !EarlierCopy(ks, 0);
    assert EarlierCopy(ks, 1) && EarlierCopy(ks, 2);
  }

  /** Selecting the second and third of three rows. */
  lemma WhereLastTwo(rows: seq<Row>)
    requires |rows| == 3
    ensures Where(rows, [false, true, true]) == [IndexedRow(1, rows[1]), IndexedRow(2, rows[2])]
  {
    var mask := [false, true, true];
    assert Positions(mask) == [1, 2] by {
      assert PositionsFrom(mask, 3) == [];
      assert PositionsFrom(mask, 2) == [2];
      assert PositionsFrom(mask, 1) == [1, 2];
    }
    var w := Where(rows, mask);
    assert |w| == 2 && w[0] == IndexedRow(1, rows[1]) && w[1] == IndexedRow(2, rows[2]);
  }

  /** Selecting none of three rows. */
  lemma WhereNone(rows: seq<Row>)
    requires |rows| == 3
    ensures Where(rows, [false, false, false]) == []
  {
    var mask := [false, false, false];
    assert PositionsFrom(mask, 3) == [];
    assert PositionsFrom(mask, 2) == [];
    assert PositionsFrom(mask, 1) == [];
  }

  /** Selecting the first and third of three rows. */
  lemma WhereOuterTwo(rows: seq<Row>)
    requires |rows| == 3
    ensures Where(rows, [true, false, true]) == [IndexedRow(0, rows[0]), IndexedRow(2, rows[2])]
  {
    var mask := [true, false, true];
    assert Positions(mask) == [0, 2] by {
      assert PositionsFrom(mask, 3) == [];
      assert PositionsFrom(mask, 2) == [2] + PositionsFrom(mask, 3) == [2];
      assert PositionsFrom(mask, 1) == PositionsFrom(mask, 2);
      assert PositionsFrom(mask, 0) == [0] + PositionsFrom(mask, 1) == [0, 2];
    }
    var w := Where(rows, mask);
    assert |w| == 2 && w[0] == IndexedRow(0, rows[0]) && w[1] == IndexedRow(2, rows[2]);
  }

  /** Dropping the second of two rows equal in every column. */
  lemma DropSecondCopy(x: IndexedRow, y: IndexedRow)
    requires x.cells == y.cells
    ensures DropDuplicates([x, y]) == [x]
  {
    var cs := Cells([x, y]);
    assert cs == [x.cells, x.cells];
    assert cs[0] == cs[1];
    assert !EarlierCopy(cs, 0) && EarlierCopy(cs, 1);
    assert Not(Duplicated(cs)) == [true, false];
    assert PositionsFrom([true, false], 2) == [];
    assert PositionsFrom([true, false], 1) == [];
    assert PositionsFrom([true, false], 0) == [0];
  }

  /** Three rows equal in every column, the second and third flagged as duplicates:
      value-based dropping keeps only the second's label, and the third, although
      flagged, survives into the cleaned output. */
  lemma ThreeCopiesLeak(r: Row)
    ensures var rows, mm, dm := [r, r, r], [false, false, false], [false, true, true];
      && Problematic(rows, mm, dm) == [IndexedRow(1, r)]
      && Cleaned(rows, Problematic(rows, mm, dm)) == [IndexedRow(0, r), IndexedRow(2, r)]
      && Flagged(mm, dm, 2)
  {
    var rows, mm, dm := [r, r, r], [false, false, false], [false, true, true];
    WhereNone(rows);
    WhereLastTwo(rows);
    assert Gathered(rows, mm, dm) == [IndexedRow(1, r), IndexedRow(2, r)];
    DropSecondCopy(IndexedRow(1, r), IndexedRow(2, r));
    var p := Problematic(rows, mm, dm);
    assert p == [IndexedRow(1, r)];
    assert IndexSet(p) == {1};
    var keep := seq(3, i requires 0 <= i < 3 => i !in IndexSet(p));
    assert keep == [true, false, true];
    WhereOuterTwo(rows);
  }

  // ------------------------------------------------ the intended, index-based partition

  function FlagMask(mm: seq<bool>, dm: seq<bool>): (m: seq<bool>)
    requires |mm| == |dm|
    ensures |m| == |mm|
  {
    seq(|mm|, i requires 0 <= i < |mm| => Flagged(mm, dm, i))
  }

  /** The problematic rows taken by label: every flagged row exactly once, in source order. */
  function FlaggedByIndex(rows: seq<Row>, mm: seq<bool>, dm: seq<bool>): seq<IndexedRow>
    requires Masks(rows, mm, dm)
  {
    Where(rows, FlagMask(mm, dm))
  }

  /** The cleaned rows as the script intends them: exactly the unflagged rows, in
      source order. */
  function CleanedByIndex(rows: seq<Row>, mm: seq<bool>, dm: seq<bool>): (r: seq<IndexedRow>)
    requires Masks(rows, mm, dm)
    ensures SourceOrdered(r) && FaithfulTo(r, rows)
    ensures forall k | 0 <= k < |r| :: !Flagged(mm, dm, r[k].index)
    ensures forall i | 0 <= i < |rows| && !Flagged(mm, dm, i) ::
              exists k | 0 <= k < |r| :: r[k].index == i
  {
    var keep := Not(FlagMask(mm, dm));
    assert forall i | 0 <= i < |rows| && !Flagged(mm, dm, i) :: keep[i];
    Where(rows, keep)
  }

  /** The intended outputs partition the input by label. */
  lemma ByIndexPartition(rows: seq<Row>, mm: seq<bool>, dm: seq<bool>)
    requires Masks(rows, mm, dm)
    ensures IndexSet(CleanedByIndex(rows, mm, dm)) !! IndexSet(FlaggedByIndex(rows, mm, dm))
    ensures |CleanedByIndex(rows, mm, dm)| + |FlaggedByIndex(rows, mm, dm)| == |rows|
  {
    var fm := FlagMask(mm, dm);
    DistinctIndexCount(CleanedByIndex(rows, mm, dm));
    DistinctIndexCount(FlaggedByIndex(rows, mm, dm));
    WhereIndexSet(rows, fm);
    WhereIndexSet(rows, Not(fm));
    MaskSplitCount(fm);
  }

  /** A problematic label is a flagged row, and a flagged row whose label is not
      problematic has an equal flagged partner. */
  lemma ProblematicLabel(rows: seq<Row>, mm: seq<bool>, dm: seq<bool>, i: nat)
    requires Masks(rows, mm, dm) && i < |rows|
    ensures i in IndexSet(Problematic(rows, mm, dm)) ==> Flagged(mm, dm, i)
    ensures Flagged(mm, dm, i) && i !in IndexSet(Problematic(rows, mm, dm)) ==>
              EqualFlaggedPair(rows, mm, dm)
  {
    var p := Problematic(rows, mm, dm);
    if Flagged(mm, dm, i) && i !in IndexSet(p) {
      LeakNeedsEqualFlaggedRows(rows, mm, dm, i);
      var j :| 0 <= j < |rows| && j != i && Flagged(mm, dm, j) && rows[j] == rows[i];
      if j < i {
        assert Flagged(mm, dm, j) && Flagged(mm, dm, i) && rows[j] == rows[i];
      } else {
        assert Flagged(mm, dm, i) && Flagged(mm, dm, j) && rows[i] == rows[j];
      }
    }
    if i in IndexSet(p) {
      var k :| 0 <= k < |p| && p[k].index == i;
      ProblematicRow(rows, mm, dm, k);
    }
  }

  /** When no two different flagged rows are equal in every column, the script's
      cleaned output is the intended one. */
  lemma CleanedAgreesWithoutEqualFlaggedRows(rows: seq<Row>, mm: seq<bool>, dm: seq<bool>)
    requires Masks(rows, mm, dm) && !EqualFlaggedPair(rows, mm, dm)
    ensures Cleaned(rows, Problematic(rows, mm, dm)) == CleanedByIndex(rows, mm, dm)
  {
    var p := Problematic(rows, mm, dm);
    var keep := seq(|rows|, i requires 0 <= i < |rows| => i !in IndexSet(p));
    var fm := FlagMask(mm, dm);
    forall i | 0 <= i < |rows|
      ensures keep[i] == Not(fm)[i]
    {
      ProblematicLabel(rows, mm, dm, i);
    }
    assert keep == Not(fm);
  }
}

=== FILE: row_validator.dfy ===
/**
 The per-row field validator of `src/data_processing/data_validator.py`: for each
 row, and each required field in declaration order, report a missing value or, for
 the integer field, a value `int()` rejects. Cells are checked as loaded: this script
 does not trim.
 */
module RowValidator {
  import opened Wrappers
  import opened Table
  import Text

  /** The expected Python type of a required field. */
  datatype FieldType = IntField | StrField

  datatype Field = Field(name: string, ty: FieldType)

  /** Lines 5-13, in declaration order. */
  const RequiredFields: seq<Field> := [
    Field("Index", IntField),
    Field("Practitioner Name", StrField),
    Field("Email", StrField),
    Field("Address", StrField),
    Field("Phone", StrField),
    Field("Website", StrField),
    Field("Google Maps URL", StrField)
  ]

  datatype ErrorKind = MissingValue | InvalidType(expected: string)

  /** One reported line: `Row <row>: ...` about `field`. */
  datatype FieldError = FieldError(row: nat, field: string, kind: ErrorKind)

  /** What the script reports at the end (lines 59-64). */
  datatype Verdict = AllRowsValid | ValidationErrors(errors: seq<FieldError>)

  /** Line 31: `row.get(field)`; an absent column gives `None`. */
  function Lookup(cols: seq<Column>, row: Row, name: string): (r: Option<Cell>)
    ensures !HasColumn(cols, name) ==> r == None
    ensures HasColumn(cols, name) && |row| == |cols| ==> r.Some?
  {
    match ColumnIndex(cols, name)
    case None => None
    case Some(j) => if j < |row| then Some(row[j]) else None
  }

  /** Line 34: `pd.isna(value) or value == ''`. */
  predicate IsMissing(v: Option<Cell>) {
    v == None || v == Some(Null) || v == Some(Str(""))
  }

  /** Lines 40-41: `int(value)` succeeds on a number and on a string Python reads as
      an integer. */
  predicate IntParses(c: Cell) {
    match c
    case Num(_) => true
    case Str(s) => Text.ParseInt(s).Some?
    case Null => false
  }

  /** Lines 33-47 for one field: at most one error, missing first. */
  function CheckField(v: Option<Cell>, ty: FieldType): (r: Option<ErrorKind>)
    ensures r == Some(MissingValue) <==> IsMissing(v)
    ensures r.Some? && r.value.InvalidType? <==> !IsMissing(v) && ty == IntField && !IntParses(v.value)
    ensures r.Some? && r.value.InvalidType? ==> r.value.expected == "int"
  {
    if IsMissing(v) then Some(MissingValue)
    else if ty == IntField && !IntParses(v.value) then Some(InvalidType("int"))
    else None
  }

  /** The error `CheckField` reports for `fields[k]` on `row`, if any. */
  function FieldErrorAt(cols: seq<Column>, row: Row, rowNum: nat, f: Field): Option<FieldError> {
    match CheckField(Lookup(cols, row, f.name), f.ty)
    case None => None
    case Some(kind) => Some(FieldError(rowNum, f.name, kind))
  }

  /** Lines 27-49: `validate_row`. */
  function ValidateRow(cols: seq<Column>, row: Row, rowNum: nat, fields: seq<Field>): (r: seq<FieldError>)
    ensures |r| <= |fields|
    ensures forall a | 0 <= a < |r| :: r[a].row == rowNum
  {
    if |fields| == 0 then []
    else
      var head := match FieldErrorAt(cols, row, rowNum, fields[0])
                  case None => []
                  case Some(e) => [e];
      head + ValidateRow(cols, row, rowNum, fields[1..])
  }

  /** Lines 30-47: every error of a row is the error of one of its fields. */
  lemma {:induction false} RowErrorSound(cols: seq<Column>, row: Row, rowNum: nat, fields: seq<Field>,
                                         x: FieldError)
    requires x in ValidateRow(cols, row, rowNum, fields)
    ensures exists k | 0 <= k < |fields| :: FieldErrorAt(cols, row, rowNum, fields[k]) == Some(x)
  {
    if |fields| > 0 {
      if FieldErrorAt(cols, row, rowNum, fields[0]) != Some(x) {
        assert x in ValidateRow(cols, row, rowNum, fields[1..]);
        RowErrorSound(cols, row, rowNum, fields[1..], x);
        var k :| 0 <= k < |fields[1..]| && FieldErrorAt(cols, row, rowNum, fields[1..][k]) == Some(x);
        assert fields[1..][k] == fields[k + 1];
      }
    }
  }

  /** Lines 30-47: every field's error is reported for its row. */
  lemma {:induction false} RowErrorComplete(cols: seq<Column>, row: Row, rowNum: nat, fields: seq<Field>,
                                            k: nat)
    requires k < |fields| && FieldErrorAt(cols, row, rowNum, fields[k]).Some?
    ensures FieldErrorAt(cols, row, rowNum, fields[k]).value in ValidateRow(cols, row, rowNum, fields)
  {
    if k > 0 {
      assert fields[1..][k - 1] == fields[k];
      RowErrorComplete(cols, row, rowNum, fields[1..], k - 1);
    }
  }

  /** Lines 30-47, order: validating against two lists of fields in turn gives the
      first list's errors followed by the second's, so a row's errors follow the
      declaration order of the fields. */
  lemma {:induction false} ValidateRowAppend(cols: seq<Column>, row: Row, rowNum: nat,
                                             fs: seq<Field>, gs: seq<Field>)
    ensures ValidateRow(cols, row, rowNum, fs + gs) ==
            ValidateRow(cols, row, rowNum, fs) + ValidateRow(cols, row, rowNum, gs)
  {
    if |fs| > 0 {
      assert (fs + gs)[1..] == fs[1..] + gs;
      ValidateRowAppend(cols, row, rowNum, fs[1..], gs);
    } else {
      assert fs + gs == gs;
    }
  }

  /** One field gives at most one error. */
  lemma ValidateOneField(cols: seq<Column>, row: Row, rowNum: nat, f: Field)
    ensures ValidateRow(cols, row, rowNum, [f]) ==
            (if FieldErrorAt(cols, row, rowNum, f).Some? then [FieldErrorAt(cols, row, rowNum, f).value] else [])
  {
    assert [f][1..] == [];
  }

  /** Lines 52-56: the errors of the first `n` rows, row `i` numbered `i + 1`. */
  function ErrorsOf(t: Table, fields: seq<Field>, n: nat): (r: seq<FieldError>)
    requires n <= |t.rows|
    ensures forall a | 0 <= a < |r| :: 1 <= r[a].row <= n
    ensures forall a, b | 0 <= a < b < |r| :: r[a].row <= r[b].row
  {
    if n == 0 then []
    else ErrorsOf(t, fields, n - 1) + ValidateRow(t.columns, t.rows[n - 1], n, fields)
  }

  /** Lines 52-56: `all_errors`. */
  function AllErrors(t: Table): seq<FieldError> {
    ErrorsOf(t, RequiredFields, |t.rows|)
  }

  /** Lines 59-64: the success message is printed iff no error was collected. */
  function Validate(t: Table): (r: Verdict)
    ensures r == AllRowsValid <==> AllErrors(t) == []
    ensures r.ValidationErrors? ==> r.errors == AllErrors(t)
  {
    if AllErrors(t) == [] then AllRowsValid else ValidationErrors(AllErrors(t))
  }

  /** Lines 54-56: every error of row `i` (numbered `i + 1`) is collected. */
  lemma {:induction false} RowErrorsCollected(t: Table, fields: seq<Field>, n: nat, i: nat, x: FieldError)
    requires i < n <= |t.rows| && x in ValidateRow(t.columns, t.rows[i], i + 1, fields)
    ensures x in ErrorsOf(t, fields, n)
    decreases n
  {
    var before := ErrorsOf(t, fields, n - 1);
    var these := ValidateRow(t.columns, t.rows[n - 1], n, fields);
    assert ErrorsOf(t, fields, n) == before + these;
    if i < n - 1 {
      RowErrorsCollected(t, fields, n - 1, i, x);
      assert x in before;
    } else {
      assert x in these;
    }
  }

  /** Every collected error comes from the list of the row it names. */
  lemma {:induction false} CollectedFromRow(t: Table, fields: seq<Field>, n: nat, x: FieldError)
    requires n <= |t.rows| && x in ErrorsOf(t, fields, n)
    ensures 1 <= x.row <= n
    ensures x in ValidateRow(t.columns, t.rows[x.row - 1], x.row, fields)
    decreases n
  {
    if n > 0 {
      var before := ErrorsOf(t, fields, n - 1);
      var these := ValidateRow(t.columns, t.rows[n - 1], n, fields);
      assert ErrorsOf(t, fields, n) == before + these;
      if x in these {
        var a :| 0 <= a < |these| && these[a] == x;
        assert x.row == n;
      } else {
        assert x in before;
        CollectedFromRow(t, fields, n - 1, x);
      }
    }
  }


  /** Lines 59-64: the table validates iff no field of any row is missing or fails
      its type check. */
  lemma ValidIffFields(t: Table, fields: seq<Field>)
    ensures ErrorsOf(t, fields, |t.rows|) == [] <==>
              forall i, k | 0 <= i < |t.rows| && 0 <= k < |fields| ::
                CheckField(Lookup(t.columns, t.rows[i], fields[k].name), fields[k].ty) == None
  {
    var e := ErrorsOf(t, fields, |t.rows|);
    if e == [] {
      forall i, k | 0 <= i < |t.rows| && 0 <= k < |fields|
        ensures CheckField(Lookup(t.columns, t.rows[i], fields[k].name), fields[k].ty) == None
      {
        var row := ValidateRow(t.columns, t.rows[i], i + 1, fields);
        if FieldErrorAt(t.columns, t.rows[i], i + 1, fields[k]).Some? {
          RowErrorComplete(t.columns, t.rows[i], i + 1, fields, k);
          RowErrorsCollected(t, fields, |t.rows|, i, FieldErrorAt(t.columns, t.rows[i], i + 1, fields[k]).value);
        }
      }
    } else {
      var x := e[0];
      CollectedFromRow(t, fields, |t.rows|, x);
      var i := x.row - 1;
      RowErrorSound(t.columns, t.rows[i], x.row, fields, x);
      var k :| 0 <= k < |fields| &&
        FieldErrorAt(t.columns, t.rows[i], x.row, fields[k]) == Some(x);
      assert CheckField(Lookup(t.columns, t.rows[i], fields[k].name), fields[k].ty) != None;
    }
  }

  /** The same for the script's own field list. */
  lemma ValidIff(t: Table)
    ensures Validate(t) == AllRowsValid <==>
              forall i, k | 0 <= i < |t.rows| && 0 <= k < |RequiredFields| ::
                CheckField(Lookup(t.columns, t.rows[i], RequiredFields[k].name), RequiredFields[k].ty) == None
  {
    ValidIffFields(t, RequiredFields);
  }

  /** Lines 31 and 34: a required column absent from the file gives every row a
      missing-value error for it. */
  lemma AbsentColumnMissingEverywhere(t: Table, fields: seq<Field>, k: nat, i: nat)
    requires k < |fields| && i < |t.rows|
    requires !HasColumn(t.columns, fields[k].name)
    ensures FieldError(i + 1, fields[k].name, MissingValue) in ErrorsOf(t, fields, |t.rows|)
  {
    var x := FieldError(i + 1, fields[k].name, MissingValue);
    assert FieldErrorAt(t.columns, t.rows[i], i + 1, fields[k]) == Some(x);
    RowErrorComplete(t.columns, t.rows[i], i + 1, fields, k);
    RowErrorsCollected(t, fields, |t.rows|, i, x);
  }

  /** Line 34: no trimming happens here, so a string of blanks is present; as a text
      field it raises no error at all, and as the integer field a type error. */
  lemma BlankIsNotMissing(s: string)
    requires |s| > 0 && Text.AllIn(s, Text.StrSpace)
    ensures !IsMissing(Some(Str(s)))
    ensures CheckField(Some(Str(s)), StrField) == None
    ensures CheckField(Some(Str(s)), IntField) == Some(InvalidType("int"))
  {
    assert Str(s) != Str("");
    Text.ParseIntNeedsDigit(s);
    assert !IntParses(Str(s));
  }

  /** Lines 39-47: within a row, a type error is only reported for an `int` field. */
  lemma RowTypeErrorIsIntField(cols: seq<Column>, row: Row, rowNum: nat, fields: seq<Field>,
                               x: FieldError)
    requires x in ValidateRow(cols, row, rowNum, fields) && x.kind.InvalidType?
    ensures exists k | 0 <= k < |fields| :: fields[k].name == x.field && fields[k].ty == IntField
  {
    RowErrorSound(cols, row, rowNum, fields, x);
    var k :| 0 <= k < |fields| && FieldErrorAt(cols, row, rowNum, fields[k]) == Some(x);
    assert fields[k].ty == IntField;
  }

  /** Lines 39-47: a type error is only ever reported for an `int` field. */
  lemma TypeErrorsOnlyForIntFields(t: Table, fields: seq<Field>, x: FieldError)
    requires x in ErrorsOf(t, fields, |t.rows|) && x.kind.InvalidType?
    ensures exists k | 0 <= k < |fields| :: fields[k].name == x.field && fields[k].ty == IntField
  {
    CollectedFromRow(t, fields, |t.rows|, x);
    RowTypeErrorIsIntField(t.columns, t.rows[x.row - 1], x.row, fields, x);
  }

  /** Lines 5-13 and 39-47: with the script's fields, only `Index` can have a type error. */
  lemma OnlyIndexHasTypeErrors(t: Table, x: FieldError)
    requires x in AllErrors(t) && x.kind.InvalidType?
    ensures x.field == "Index"
  {
    TypeErrorsOnlyForIntFields(t, RequiredFields, x);
  }

  /** Lines 40-41: a rendered non-negative integer is accepted as an `Index`, and
      a number always is. */
  lemma IndexTypeCheck(n: nat, m: int)
    ensures CheckField(Some(Str(Text.Render(n))), IntField) == None
    ensures CheckField(Some(Num(m)), IntField) == None
  {
    Text.ParseIntRender(n);
  }

  /** Lines 40-47: a string such as `abc` (a letter first, no trailing blank) is
      not an `Index`: `int()` rejects it and a type error is reported. */
  lemma WordIsNotAnIndex(s: string)
    requires |s| > 0 && ('a' <= s[0] <= 'z' || 'A' <= s[0] <= 'Z') && !Text.IsSpace(s[|s| - 1])
    ensures CheckField(Some(Str(s)), IntField) == Some(InvalidType("int"))
  {
    Text.ParseIntRejectsNonDigit(s);
  }
}

=== FILE: settings.dfy ===
// The settings loader of the scraping project: environment-variable overrides
// written into the parsed configuration tree, and the section accessors that
// read it with per-field defaults. Reading the YAML file and the process
// environment are replaced by parameters.

module Settings {
  import opened Wrappers
  import opened ConfigTree
  import Text
  import Logger

  /** An environment variable and the key path it overrides. */
  datatype EnvMapping = EnvMapping(variable: string, path: seq<string>)

  /** The five overrides, in the order the loader applies them. */
  const EnvMappings: seq<EnvMapping> := [
    EnvMapping("GOOGLE_MAPS_API_KEY", ["security", "api_keys", "google_maps"]),
    EnvMapping("PROXY_SERVICE_KEY", ["security", "api_keys", "proxy_service"]),
    EnvMapping("LOG_LEVEL", ["logging", "level"]),
    EnvMapping("ENVIRONMENT", ["app", "environment"]),
    EnvMapping("DEBUG", ["app", "debug"])
  ]

  /** The process environment: variable name to raw value. */
  type Env = map<string, string>

  /** Applies the mappings `ms` in order: a variable that is set is written, as
      the raw string, at its path; an unset one is skipped. */
  function OverrideFrom(config: Value, env: Env, ms: seq<EnvMapping>): Result<Value, SetError>
    decreases |ms|
  {
    if |ms| == 0 then Success(config)
    else if ms[0].variable in env then
      match SetNested(config, ms[0].path, VStr(env[ms[0].variable]))
      case Success(c) => OverrideFrom(c, env, ms[1..])
      case Failure(e) => Failure(e)
    else OverrideFrom(config, env, ms[1..])
  }

  /** `_override_with_env_vars`. */
  function OverrideWithEnv(config: Value, env: Env): Result<Value, SetError> {
    OverrideFrom(config, env, EnvMappings)
  }

  /** What reading the configuration file produced. */
  datatype ConfigFile = Missing | Malformed | Parsed(v: Value)

  datatype LoadError =
    | ConfigNotFound          // FileNotFoundError
    | InvalidYaml             // yaml.YAMLError, re-raised as ValueError
    | OverrideFailed(e: SetError)

  /** `_load_config`: parse, then apply the environment overrides. */
  function LoadConfig(file: ConfigFile, env: Env): (r: Result<Value, LoadError>)
    ensures file.Missing? <==> r == Failure(ConfigNotFound)
    ensures file.Malformed? <==> r == Failure(InvalidYaml)
    ensures file.Parsed? ==>
              (r.Success? <==> OverrideWithEnv(file.v, env).Success?)
              && (r.Success? ==> r.value == OverrideWithEnv(file.v, env).value)
  {
    match file
    case Missing => Failure(ConfigNotFound)
    case Malformed => Failure(InvalidYaml)
    case Parsed(v) =>
      match OverrideWithEnv(v, env)
      case Success(c) => Success(c)
      case Failure(e) => Failure(OverrideFailed(e))
  }

  predicate AgreeOn(env1: Env, env2: Env, ms: seq<EnvMapping>) {
    forall k | 0 <= k < |ms| ::
      (ms[k].variable in env1 <==> ms[k].variable in env2)
      && (ms[k].variable in env1 ==> env1[ms[k].variable] == env2[ms[k].variable])
  }

  /** Only the mapped variables matter: environments that agree on them give the
      same configuration. */
  lemma {:induction false} OverrideFromIgnoresOthers(config: Value, env1: Env, env2: Env, ms: seq<EnvMapping>)
    requires AgreeOn(env1, env2, ms)
    ensures OverrideFrom(config, env1, ms) == OverrideFrom(config, env2, ms)
    decreases |ms|
  {
    if |ms| > 0 {
      assert AgreeOn(env1, env2, ms[1..]) by {
        forall k | 0 <= k < |ms| - 1
          ensures ms[1..][k] == ms[k + 1]
        {
        }
      }
      assert 0 < |ms|;
      if ms[0].variable in env1 {
        var s := SetNested(config, ms[0].path, VStr(env1[ms[0].variable]));
        if s.Success? {
          OverrideFromIgnoresOthers(s.value, env1, env2, ms[1..]);
        }
      } else {
        OverrideFromIgnoresOthers(config, env1, env2, ms[1..]);
      }
    }
  }

  lemma OverrideIgnoresOtherVariables(config: Value, env1: Env, env2: Env)
    requires AgreeOn(env1, env2, EnvMappings)
    ensures OverrideWithEnv(config, env1) == OverrideWithEnv(config, env2)
  {
    OverrideFromIgnoresOthers(config, env1, env2, EnvMappings);
  }

  /** With none of the variables set, the configuration is returned as parsed. */
  lemma {:induction false} OverrideFromUnset(config: Value, env: Env, ms: seq<EnvMapping>)
    requires forall k | 0 <= k < |ms| :: ms[k].variable !in env
    ensures OverrideFrom(config, env, ms) == Success(config)
    decreases |ms|
  {
    if |ms| > 0 {
      assert ms[0].variable !in env;
      OverrideFromUnset(config, env, ms[1..]);
    }
  }

  lemma OverrideUnset(config: Value, env: Env)
    requires forall k | 0 <= k < |EnvMappings| :: EnvMappings[k].variable !in env
    ensures OverrideWithEnv(config, env) == Success(config)
  {
    OverrideFromUnset(config, env, EnvMappings);
  }

  predicate OffAll(q: seq<string>, ms: seq<EnvMapping>) {
    forall k | 0 <= k < |ms| :: Diverge(ms[k].path, q)
  }

  /** Entries off every mapped path are left as parsed. */
  lemma {:induction false} OverrideFromLocality(config: Value, env: Env, ms: seq<EnvMapping>, q: seq<string>)
    requires OverrideFrom(config, env, ms).Success? && OffAll(q, ms)
    ensures Lookup(OverrideFrom(config, env, ms).value, q) == Lookup(config, q)
    decreases |ms|
  {
    if |ms| > 0 {
      assert Diverge(ms[0].path, q);
      assert OffAll(q, ms[1..]) by {
        forall k | 0 <= k < |ms| - 1
          ensures ms[1..][k] == ms[k + 1]
        {
        }
      }
      if ms[0].variable in env {
        var c := SetNested(config, ms[0].path, VStr(env[ms[0].variable])).value;
        OverrideFromLocality(c, env, ms[1..], q);
        SetLocality(config, ms[0].path, VStr(env[ms[0].variable]), q);
      } else {
        OverrideFromLocality(config, env, ms[1..], q);
      }
    }
  }

  /** A set variable ends up at its path as the raw string, provided every later
      mapping writes elsewhere. */
  lemma {:induction false} OverrideFromStores(config: Value, env: Env, ms: seq<EnvMapping>, j: nat)
    requires OverrideFrom(config, env, ms).Success?
    requires j < |ms| && ms[j].variable in env
    requires forall l | j < l < |ms| :: Diverge(ms[l].path, ms[j].path)
    ensures Lookup(OverrideFrom(config, env, ms).value, ms[j].path) == Some(VStr(env[ms[j].variable]))
    decreases |ms|
  {
    if j == 0 {
      var c := SetNested(config, ms[0].path, VStr(env[ms[0].variable])).value;
      SetThenLookup(config, ms[0].path, VStr(env[ms[0].variable]));
      assert OffAll(ms[0].path, ms[1..]) by {
        forall k | 0 <= k < |ms| - 1
          ensures ms[1..][k] == ms[k + 1]
        {
        }
      }
      OverrideFromLocality(c, env, ms[1..], ms[0].path);
    } else {
      assert ms[1..][j - 1] == ms[j];
      forall l | j - 1 < l < |ms| - 1
        ensures Diverge(ms[1..][l].path, ms[1..][j - 1].path)
      {
        assert ms[1..][l] == ms[l + 1];
      }
      if ms[0].variable in env {
        var c := SetNested(config, ms[0].path, VStr(env[ms[0].variable])).value;
        OverrideFromStores(c, env, ms[1..], j - 1);
      } else {
        OverrideFromStores(config, env, ms[1..], j - 1);
      }
    }
  }

  lemma PathsDiverge(j: nat, l: nat)
    requires j < l < |EnvMappings|
    ensures Diverge(EnvMappings[l].path, EnvMappings[j].path)
  {
    var p := EnvMappings[l].path;
    var q := EnvMappings[j].path;
    if p[0] != q[0] {
      assert Diverge(p, q);
    } else if p[1] != q[1] {
      assert Diverge(p, q);
    } else {
      assert p[2] != q[2];
      assert Diverge(p, q);
    }
  }

  /** Each set variable is stored at its path as the raw string: no type
      coercion happens, so `DEBUG=false` is the string `"false"`. */
  lemma OverrideStoresRawString(config: Value, env: Env, j: nat)
    requires OverrideWithEnv(config, env).Success?
    requires j < |EnvMappings| && EnvMappings[j].variable in env
    ensures Lookup(OverrideWithEnv(config, env).value, EnvMappings[j].path) == Some(VStr(env[EnvMappings[j].variable]))
  {
    forall l | j < l < |EnvMappings|
      ensures Diverge(EnvMappings[l].path, EnvMappings[j].path)
    {
      PathsDiverge(j, l);
    }
    OverrideFromStores(config, env, EnvMappings, j);
  }

  /** The overrides write into dictionaries: a document that parsed to something
      other than a mapping (an empty file parses to `None`) fails as soon as one
      variable is set. */
  lemma {:induction false} OverrideFromNonDict(config: Value, env: Env, ms: seq<EnvMapping>)
    requires !config.VDict?
    requires forall k | 0 <= k < |ms| :: |ms[k].path| > 0
    requires exists k | 0 <= k < |ms| :: ms[k].variable in env
    ensures OverrideFrom(config, env, ms) == Failure(NotADict(0))
    decreases |ms|
  {
    assert |ms[0].path| > 0;
    if ms[0].variable !in env {
      var k :| 0 <= k < |ms| && ms[k].variable in env;
      assert ms[1..][k - 1] == ms[k];
      forall k | 0 <= k < |ms| - 1
        ensures |ms[1..][k].path| > 0
      {
        assert ms[1..][k] == ms[k + 1];
      }
      OverrideFromNonDict(config, env, ms[1..]);
    }
  }

  lemma OverrideNonDict(config: Value, env: Env)
    requires !config.VDict?
    requires exists k | 0 <= k < |EnvMappings| :: EnvMappings[k].variable in env
    ensures OverrideWithEnv(config, env) == Failure(NotADict(0))
  {
    OverrideFromNonDict(config, env, EnvMappings);
  }

  // --------------------------------------------------------------- accessors

  /** An accessor reached a value without a `.get` method (a list, a string,
      `None`): AttributeError. */
  datatype AccessError = NoGet(depth: nat)

  /** The section dictionary an accessor reads: `config.get(k1, {}).get(k2, {})...`,
      an absent key standing for an empty dictionary. */
  function Section(v: Value, path: seq<string>, depth: nat): Result<map<string, Value>, AccessError>
    decreases |path|
  {
    if !v.VDict? then Failure(NoGet(depth))
    else if |path| == 0 then Success(v.entries)
    else Section(if path[0] in v.entries then v.entries[path[0]] else EmptyDict(), path[1..], depth + 1)
  }

  /** `section.get(key, default)`. */
  function Field(m: map<string, Value>, key: string, default: Value): Value {
    if key in m then m[key] else default
  }

  /** No prefix of `path` (including all of it) reaches a value without `.get`. */
  predicate Readable(v: Value, path: seq<string>) {
    forall k | 0 <= k <= |path| :: Lookup(v, path[..k]).Some? ==> Lookup(v, path[..k]).value.VDict?
  }

  /** Reading a field through its section agrees with walking the full key path,
      the default standing in for a missing step. */
  lemma {:induction false} SectionField(v: Value, path: seq<string>, depth: nat, key: string, default: Value)
    requires Section(v, path, depth).Success?
    ensures Field(Section(v, path, depth).value, key, default) == Lookup(v, path + [key]).GetOr(default)
    decreases |path|
  {
    if |path| == 0 {
      assert path + [key] == [key];
    } else {
      assert (path + [key])[1..] == path[1..] + [key];
      if path[0] in v.entries {
        SectionField(v.entries[path[0]], path[1..], depth + 1, key, default);
      } else {
        SectionField(EmptyDict(), path[1..], depth + 1, key, default);
        EmptySection(path[1..], depth + 1, key);
      }
    }
  }

  lemma EmptySection(path: seq<string>, depth: nat, key: string)
    ensures Section(EmptyDict(), path, depth) == Success(map[])
    ensures Lookup(EmptyDict(), path + [key]) == None
    decreases |path|
  {
    if |path| > 0 {
      EmptySection(path[1..], depth + 1, key);
    }
  }

  /** An accessor fails exactly when some step of its section path reaches a
      value that is present but not a dictionary. */
  lemma {:induction false} SectionSucceedsIff(v: Value, path: seq<string>, depth: nat)
    ensures Section(v, path, depth).Success? <==> Readable(v, path)
    decreases |path|
  {
    assert path[..0] == [];
    if v.VDict? && |path| > 0 {
      if path[0] in v.entries {
        SectionSucceedsIff(v.entries[path[0]], path[1..], depth + 1);
        ReadableShift(v, path);
      } else {
        EmptySection(path[1..], depth + 1, "");
        ReadablePastAbsent(v, path);
      }
    }
  }

  lemma ReadableShift(v: Value, path: seq<string>)
    requires |path| > 0 && v.VDict? && path[0] in v.entries
    ensures Readable(v, path) <==> Readable(v.entries[path[0]], path[1..])
  {
    forall k | 1 <= k <= |path|
      ensures Lookup(v, path[..k]) == Lookup(v.entries[path[0]], path[1..][..k - 1])
    {
      assert path[..k][1..] == path[1..][..k - 1];
    }
    assert path[..0] == [];
    if Readable(v.entries[path[0]], path[1..]) {
      forall k | 0 <= k <= |path|
        ensures Lookup(v, path[..k]).Some? ==> Lookup(v, path[..k]).value.VDict?
      {
        if k > 0 {
          assert Lookup(v, path[..k]) == Lookup(v.entries[path[0]], path[1..][..k - 1]);
        }
      }
    }
    if Readable(v, path) {
      forall k | 0 <= k <= |path| - 1
        ensures Lookup(v.entries[path[0]], path[1..][..k]).Some? ==> Lookup(v.entries[path[0]], path[1..][..k]).value.VDict?
      {
        assert Lookup(v, path[..k + 1]) == Lookup(v.entries[path[0]], path[1..][..k]);
      }
    }
  }

  lemma ReadablePastAbsent(v: Value, path: seq<string>)
    requires |path| > 0 && v.VDict? && path[0] !in v.entries
    ensures Readable(v, path)
  {
    forall k | 0 <= k <= |path|
      ensures Lookup(v, path[..k]).Some? ==> Lookup(v, path[..k]).value.VDict?
    {
      if k == 0 {
        assert path[..k] == [];
      }
    }
  }

  /** A field read by an accessor equals `get` on its dotted key with the same default. */
  lemma FieldIsGet(v: Value, path: seq<string>, key: string, default: Value)
    requires Section(v, path, 0).Success?
    requires forall k | 0 <= k < |path| :: '.' !in path[k]
    requires '.' !in key
    ensures Field(Section(v, path, 0).value, key, default) == Get(v, Text.Join(path + [key], '.'), default)
  {
    SectionField(v, path, 0, key, default);
    var p := path + [key];
    assert forall k | 0 <= k < |p| :: '.' !in p[k] by {
      forall k | 0 <= k < |p|
        ensures '.' !in p[k]
      {
        if k < |path| {
          assert p[k] == path[k];
        }
      }
    }
    Text.SplitJoin(p, '.');
  }

  datatype AppConfig = AppConfig(name: Value, version: Value, environment: Value, debug: Value)

  datatype LoggingConfig = LoggingConfig(
    level: Value, format: Value, file: Value, maxSize: Value, backupCount: Value, consoleOutput: Value)

  datatype DataConfig = DataConfig(
    encoding: Value, chunkSize: Value, maxRows: Value, backupOriginal: Value, compression: Value)

  datatype ScrapingConfig = ScrapingConfig(
    baseUrl: Value, searchDelay: Value, maxRetries: Value, timeout: Value,
    userAgent: Value, headless: Value, proxyEnabled: Value, proxyList: Value)

  datatype RateLimitingConfig = RateLimitingConfig(requestsPerMinute: Value, requestsPerHour: Value, cooldownPeriod: Value)

  datatype ValidationConfig = ValidationConfig(requiredFields: Value, optionalFields: Value, dataTypes: Value)

  const LogFormat: string := "%(asctime)s - %(name)s - %(levelname)s - %(message)s"

  /** The `app` property. Field values are passed through untyped, as the source does. */
  function App(c: Value): (r: Result<AppConfig, AccessError>)
    ensures r.Success? <==> Section(c, ["app"], 0).Success?
  {
    var s :- Section(c, ["app"], 0);
    Success(AppConfig(
      Field(s, "name", VStr("Google Maps Scraping")),
      Field(s, "version", VStr("1.0.0")),
      Field(s, "environment", VStr("development")),
      Field(s, "debug", VBool(false))))
  }

  /** The `logging` property. */
  function Logging(c: Value): (r: Result<LoggingConfig, AccessError>)
    ensures r.Success? <==> Section(c, ["logging"], 0).Success?
  {
    var s :- Section(c, ["logging"], 0);
    Success(LoggingConfig(
      Field(s, "level", VStr("INFO")),
      Field(s, "format", VStr(LogFormat)),
      Field(s, "file", VStr("logs/app.log")),
      Field(s, "max_size", VStr("10MB")),
      Field(s, "backup_count", VInt(5)),
      Field(s, "console_output", VBool(true))))
  }

  /** The `data` property; `max_rows` and `compression` default to `None`. */
  function Data(c: Value): (r: Result<DataConfig, AccessError>)
    ensures r.Success? <==> Section(c, ["data"], 0).Success?
  {
    var s :- Section(c, ["data"], 0);
    Success(DataConfig(
      Field(s, "encoding", VStr("utf-8")),
      Field(s, "chunk_size", VInt(10000)),
      Field(s, "max_rows", VNone),
      Field(s, "backup_original", VBool(true)),
      Field(s, "compression", VNone)))
  }

  /** The `scraping` property, read from the nested `scraping.google_maps` section. */
  function Scraping(c: Value): (r: Result<ScrapingConfig, AccessError>)
    ensures r.Success? <==> Section(c, ["scraping", "google_maps"], 0).Success?
  {
    var s :- Section(c, ["scraping", "google_maps"], 0);
    Success(ScrapingConfig(
      Field(s, "base_url", VStr("https://www.google.com/maps")),
      Field(s, "search_delay", VReal(2.0)),
      Field(s, "max_retries", VInt(3)),
      Field(s, "timeout", VInt(30)),
      Field(s, "user_agent", VStr("Mozilla/5.0")),
      Field(s, "headless", VBool(true)),
      Field(s, "proxy_enabled", VBool(false)),
      Field(s, "proxy_list", VList([]))))
  }

  /** The `rate_limiting` property, read from `scraping.rate_limiting`. */
  function RateLimiting(c: Value): (r: Result<RateLimitingConfig, AccessError>)
    ensures r.Success? <==> Section(c, ["scraping", "rate_limiting"], 0).Success?
  {
    var s :- Section(c, ["scraping", "rate_limiting"], 0);
    Success(RateLimitingConfig(
      Field(s, "requests_per_minute", VInt(30)),
      Field(s, "requests_per_hour", VInt(1000)),
      Field(s, "cooldown_period", VInt(60))))
  }

  /** The `validation` property. */
  function Validation(c: Value): (r: Result<ValidationConfig, AccessError>)
    ensures r.Success? <==> Section(c, ["validation"], 0).Success?
  {
    var s :- Section(c, ["validation"], 0);
    Success(ValidationConfig(
      Field(s, "required_fields", VList([])),
      Field(s, "optional_fields", VList([])),
      Field(s, "data_types", EmptyDict())))
  }

  /** The accessors read the same values as walking the full key path, with the
      accessor's defaults; by `FieldIsGet` this is `get` on the dotted key. */
  lemma AppReadsPaths(c: Value)
    requires App(c).Success?
    ensures App(c).value.name == Lookup(c, ["app", "name"]).GetOr(VStr("Google Maps Scraping"))
    ensures App(c).value.version == Lookup(c, ["app", "version"]).GetOr(VStr("1.0.0"))
    ensures App(c).value.environment == Lookup(c, ["app", "environment"]).GetOr(VStr("development"))
    ensures App(c).value.debug == Lookup(c, ["app", "debug"]).GetOr(VBool(false))
  {
    var sec := ["app"];
    SectionField(c, sec, 0, "name", VStr("Google Maps Scraping"));
    assert sec + ["name"] == ["app", "name"];
    SectionField(c, sec, 0, "version", VStr("1.0.0"));
    assert sec + ["version"] == ["app", "version"];
    SectionField(c, sec, 0, "environment", VStr("development"));
    assert sec + ["environment"] == ["app", "environment"];
    SectionField(c, sec, 0, "debug", VBool(false));
    assert sec + ["debug"] == ["app", "debug"];
  }

  lemma ScrapingReadsPaths(c: Value)
    requires Scraping(c).Success?
    ensures Scraping(c).value.baseUrl ==
              Lookup(c, ["scraping", "google_maps", "base_url"]).GetOr(VStr("https://www.google.com/maps"))
    ensures Scraping(c).value.timeout == Lookup(c, ["scraping", "google_maps", "timeout"]).GetOr(VInt(30))
    ensures Scraping(c).value.proxyList == Lookup(c, ["scraping", "google_maps", "proxy_list"]).GetOr(VList([]))
  {
    var sec := ["scraping", "google_maps"];
    SectionField(c, sec, 0, "base_url", VStr("https://www.google.com/maps"));
    assert sec + ["base_url"] == ["scraping", "google_maps", "base_url"];
    SectionField(c, sec, 0, "timeout", VInt(30));
    assert sec + ["timeout"] == ["scraping", "google_maps", "timeout"];
    SectionField(c, sec, 0, "proxy_list", VList([]));
    assert sec + ["proxy_list"] == ["scraping", "google_maps", "proxy_list"];
  }

  lemma ValidationReadsPaths(c: Value)
    requires Validation(c).Success?
    ensures Validation(c).value.requiredFields == Lookup(c, ["validation", "required_fields"]).GetOr(VList([]))
    ensures Validation(c).value.optionalFields == Lookup(c, ["validation", "optional_fields"]).GetOr(VList([]))
    ensures Validation(c).value.dataTypes == Lookup(c, ["validation", "data_types"]).GetOr(EmptyDict())
  {
    var sec := ["validation"];
    SectionField(c, sec, 0, "required_fields", VList([]));
    assert sec + ["required_fields"] == ["validation", "required_fields"];
    SectionField(c, sec, 0, "optional_fields", VList([]));
    assert sec + ["optional_fields"] == ["validation", "optional_fields"];
    SectionField(c, sec, 0, "data_types", EmptyDict());
    assert sec + ["data_types"] == ["validation", "data_types"];
  }

  /** The empty mapping `{}` yields every default; in particular no field is
      required and the log file rotates at 10485760 bytes. */
  lemma EmptyConfigDefaults()
    ensures App(EmptyDict()) == Success(AppConfig(VStr("Google Maps Scraping"), VStr("1.0.0"), VStr("development"), VBool(false)))
    ensures Validation(EmptyDict()) == Success(ValidationConfig(VList([]), VList([]), EmptyDict()))
    ensures Scraping(EmptyDict()).Success? && Scraping(EmptyDict()).value.timeout == VInt(30)
    ensures RateLimiting(EmptyDict()) == Success(RateLimitingConfig(VInt(30), VInt(1000), VInt(60)))
    ensures Data(EmptyDict()).Success? && Data(EmptyDict()).value.maxRows == VNone
    ensures Logging(EmptyDict()).Success? && Logging(EmptyDict()).value.maxSize == VStr("10MB")
    ensures Logger.ParseSize(Logging(EmptyDict()).value.maxSize.s) == Some(10485760)
  {
    EmptySection(["scraping"], 0, "");
    Logger.DefaultMaxFileSize();
  }

  /** An empty YAML file parses to `None`, not to `{}`: every accessor then
      calls `.get` on `None` and raises at the first step, `logging` included,
      which `_setup_logging` reads while the settings are built. */
  lemma EmptyFileAccessorsFail()
    ensures App(VNone) == Failure(NoGet(0)) && Logging(VNone) == Failure(NoGet(0))
    ensures Data(VNone) == Failure(NoGet(0)) && Scraping(VNone) == Failure(NoGet(0))
    ensures RateLimiting(VNone) == Failure(NoGet(0)) && Validation(VNone) == Failure(NoGet(0))
  {
  }

  /** With `DEBUG=false` in the environment, `app.debug` reads back as the string
      `"false"`, not as a boolean. */
  lemma DebugStaysString(config: Value, env: Env)
    requires OverrideWithEnv(config, env).Success?
    requires "DEBUG" in env && env["DEBUG"] == "false"
    ensures Lookup(OverrideWithEnv(config, env).value, ["app", "debug"]) == Some(VStr("false"))
  {
    OverrideStoresRawString(config, env, 4);
  }
}

=== FILE: sheets_url.dfy ===
// Google Sheets links: the host part of a URL as Python's `urlsplit` finds it,
// the "is this a Sheets link" predicate, and the rewrite of a sharing link into
// its CSV export link.

module SheetsUrl {
  import opened Text

  /** Index of the first `c` in `s`, or `|s|` when there is none (Python's
      `find`, with `|s|` in place of -1). */
  function IndexOf(s: string, c: char): (r: nat)
    ensures r <= |s|
    ensures forall k | 0 <= k < r :: s[k] != c
    ensures r < |s| ==> s[r] == c
  {
    if |s| == 0 then 0
    else if s[0] == c then 0
    else 1 + IndexOf(s[1..], c)
  }

  /** The first index is determined by its two defining facts. */
  lemma IndexOfIs(s: string, c: char, i: nat)
    requires i <= |s| && (forall k | 0 <= k < i :: s[k] != c) && (i < |s| ==> s[i] == c)
    ensures IndexOf(s, c) == i
  {
  }

  predicate IsAsciiAlpha(c: char) {
    'a' <= c <= 'z' || 'A' <= c <= 'Z'
  }

  /** Characters allowed in a URL scheme: ASCII letters, digits, `+`, `-`, `.`. */
  predicate IsSchemeChar(c: char) {
    IsAsciiAlpha(c) || IsDigit(c) || c == '+' || c == '-' || c == '.'
  }

  /** A netloc ends at the first `/`, `?` or `#`. */
  predicate IsNetlocDelim(c: char) {
    c == '/' || c == '?' || c == '#'
  }

  /** A query or fragment starts at the first `?` or `#`. */
  predicate IsQueryStart(c: char) {
    c == '?' || c == '#'
  }

  function FirstNetlocDelim(s: string): (r: nat)
    ensures r <= |s|
    ensures forall k | 0 <= k < r :: !IsNetlocDelim(s[k])
    ensures r < |s| ==> IsNetlocDelim(s[r])
  {
    if |s| == 0 then 0
    else if IsNetlocDelim(s[0]) then 0
    else 1 + FirstNetlocDelim(s[1..])
  }

  function FirstQueryStart(s: string): (r: nat)
    ensures r <= |s|
    ensures forall k | 0 <= k < r :: !IsQueryStart(s[k])
    ensures r < |s| ==> IsQueryStart(s[r])
  {
    if |s| == 0 then 0
    else if IsQueryStart(s[0]) then 0
    else 1 + FirstQueryStart(s[1..])
  }

  lemma FirstNetlocDelimIs(s: string, i: nat)
    requires i <= |s| && (forall k | 0 <= k < i :: !IsNetlocDelim(s[k])) && (i < |s| ==> IsNetlocDelim(s[i]))
    ensures FirstNetlocDelim(s) == i
  {
  }

  lemma FirstQueryStartIs(s: string, i: nat)
    requires i <= |s| && (forall k | 0 <= k < i :: !IsQueryStart(s[k])) && (i < |s| ==> IsQueryStart(s[i]))
    ensures FirstQueryStart(s) == i
  {
  }

  /** The text `urlsplit` goes on with after taking off a scheme: a scheme is the
      text before the first `:` when it starts with an ASCII letter and consists
      of scheme characters only. */
  function AfterScheme(u: string): (r: string)
    ensures |r| <= |u| && r == u[|u| - |r|..]
  {
    var i := IndexOf(u, ':');
    if HasScheme(u, i) then u[i + 1..] else u
  }

  /** The text before index `i` is a scheme. */
  predicate HasScheme(u: string, i: nat) {
    0 < i < |u| && IsAsciiAlpha(u[0]) && (forall k | 0 <= k < i :: IsSchemeChar(u[k]))
  }

  /** The authority part of what follows the scheme: after a leading `//`, up to
      the first `/`, `?` or `#`; empty when there is no leading `//`. */
  function HostOf(rest: string): (r: string)
    ensures |r| > 0 ==> |rest| >= 2 + |r| && rest[..2] == "//" && r == rest[2..2 + |r|]
  {
    if |rest| >= 2 && rest[..2] == "//" then
      var t := rest[2..];
      t[..FirstNetlocDelim(t)]
    else ""
  }

  /** The WHATWG "C0 control or space" characters, which `urlsplit` strips
      from the front of a URL before parsing it. */
  predicate IsC0OrSpace(c: char) {
    c <= ' '
  }

  /** The number of C0 controls and spaces a URL starts with. */
  function Lead(u: string): (r: nat)
    ensures r <= |u|
    ensures forall k | 0 <= k < r :: IsC0OrSpace(u[k])
    ensures r < |u| ==> !IsC0OrSpace(u[r])
  {
    if |u| == 0 || !IsC0OrSpace(u[0]) then 0 else 1 + Lead(u[1..])
  }

  lemma LeadIs(u: string, i: nat)
    requires i <= |u| && (forall k | 0 <= k < i :: IsC0OrSpace(u[k])) && (i < |u| ==> !IsC0OrSpace(u[i]))
    ensures Lead(u) == i
  {
    if 0 < i {
      LeadIs(u[1..], i - 1);
    }
  }

  /** `urlparse(url).netloc`: the leading controls and spaces are stripped, the
      scheme taken off, and the authority after `//` read. */
  function Netloc(u: string): string {
    HostOf(AfterScheme(u[Lead(u)..]))
  }

  /** `_is_valid_google_sheets_url`: the host mentions `docs.google.com` and the
      whole URL mentions `spreadsheets`. A host with an unmatched `[` or `]` makes
      `urlparse` raise, which the predicate turns into `false`. */
  predicate IsValidSheetsUrl(u: string) {
    var n := Netloc(u);
    ('[' in n <==> ']' in n) && Contains(n, "docs.google.com") && Contains(u, "spreadsheets")
  }

  /** The host is a piece of the URL. */
  lemma NetlocInUrl(u: string)
    ensures Contains(u, Netloc(u))
  {
    var v := u[Lead(u)..];
    var rest := AfterScheme(v);
    assert rest == v[|v| - |rest|..];
    assert rest == u[|u| - |rest|..];
    HostInSuffix(u, rest);
  }

  /** The host read from a tail of `u` is a piece of `u`. */
  lemma HostInSuffix(u: string, rest: string)
    requires |rest| <= |u| && rest == u[|u| - |rest|..]
    ensures Contains(u, HostOf(rest))
  {
    var n := HostOf(rest);
    var a := |u| - |rest|;
    if |n| > 0 {
      assert u[a + 2..a + 2 + |n|] == rest[2..2 + |n|];
      assert OccursAt(u, n, a + 2);
    } else {
      assert OccursAt(u, n, 0);
    }
  }

  /** A valid Sheets link mentions `docs.google.com` somewhere in its text. */
  lemma ValidMentionsHost(u: string)
    requires IsValidSheetsUrl(u)
    ensures Contains(u, "docs.google.com") && Contains(u, "spreadsheets")
  {
    NetlocInUrl(u);
    ContainsTransitive(u, Netloc(u), "docs.google.com");
  }

  /** For an `https://host/path` link the host alone decides the host test: the
      text of the path does not count. */
  lemma HttpsNetloc(h: string, p: string)
    requires forall k | 0 <= k < |h| :: !IsNetlocDelim(h[k]) && h[k] != ':'
    requires |p| > 0 && p[0] == '/'
    ensures Netloc("https://" + h + p) == h
  {
    var u := "https://" + h + p;
    LeadIs(u, 0);
    IndexOfIs(u, ':', 5);
    assert AfterScheme(u) == "//" + h + p;
    var t := ("//" + h + p)[2..];
    assert t == h + p;
    FirstNetlocDelimIs(t, |h|);
  }

  /** Whatever the path says, an `https://` link whose host does not mention
      `docs.google.com` is not a Sheets link; e.g.
      `https://example.com/docs.google.com/spreadsheets`. */
  lemma PathDoesNotCount(h: string, p: string)
    requires forall k | 0 <= k < |h| :: !IsNetlocDelim(h[k]) && h[k] != ':'
    requires |p| > 0 && p[0] == '/'
    requires !Contains(h, "docs.google.com")
    ensures !IsValidSheetsUrl("https://" + h + p)
  {
    HttpsNetloc(h, p);
  }

  // ------------------------------------------------------------ CSV export

  const ExportSuffix: string := "/export?format=csv"

  /** The part of a URL before its query or fragment. */
  function Base(u: string): (r: string)
    ensures |r| <= |u| && r == u[..|r|]
  {
    u[..FirstQueryStart(u)]
  }

  /** `_convert_to_csv_url` as the source writes it. In the `gid=` branch the
      "base URL" is the text before the first `/`, which for any `https://` link
      is just `https:`. */
  function ConvertToCsvUrlAsWritten(u: string): string {
    if Contains(u, "/edit") then ReplaceAll(u, "/edit", ExportSuffix)
    else if Contains(u, "gid=") then Split(u, '/')[0] + ExportSuffix
    else if !Contains(u, "export") then u + ExportSuffix
    else u
  }

  /** `_convert_to_csv_url` with the `gid=` branch keeping the link up to its
      query or fragment, which is what the branch's comment describes. */
  function ConvertToCsvUrl(u: string): string {
    if Contains(u, "/edit") then ReplaceAll(u, "/edit", ExportSuffix)
    else if Contains(u, "gid=") then Base(u) + ExportSuffix
    else if !Contains(u, "export") then u + ExportSuffix
    else u
  }

  lemma SuffixMentionsExport(x: string)
    ensures Contains(x + ExportSuffix, "export")
  {
    assert (x + ExportSuffix)[|x| + 1..|x| + 7] == "export";
    assert OccursAt(x + ExportSuffix, "export", |x| + 1);
  }

  /** Every branch yields a link that mentions `export`. */
  lemma ConvertMentionsExport(u: string)
    ensures Contains(ConvertToCsvUrl(u), "export")
    ensures Contains(ConvertToCsvUrlAsWritten(u), "export")
  {
    if Contains(u, "/edit") {
      ReplaceAllIntroduces(u, "/edit", ExportSuffix);
      SuffixMentionsExport("");
      assert "" + ExportSuffix == ExportSuffix;
      ContainsTransitive(ReplaceAll(u, "/edit", ExportSuffix), ExportSuffix, "export");
    } else if Contains(u, "gid=") {
      SuffixMentionsExport(Base(u));
      SuffixMentionsExport(Split(u, '/')[0]);
    } else if !Contains(u, "export") {
      SuffixMentionsExport(u);
    }
  }

  /** The corrected `gid=` branch keeps everything before the query. */
  lemma GidBranchKeepsBase(u: string)
    requires !Contains(u, "/edit") && Contains(u, "gid=")
    ensures ConvertToCsvUrl(u) == Base(u) + ExportSuffix
  {
  }

  /** Cutting the text after the scheme at its query and appending a path keeps
      its host. */
  lemma HostOfCut(rest: string, tail: string)
    requires |HostOf(rest)| > 0
    requires |tail| > 0 && tail[0] == '/'
    ensures HostOf(rest[..FirstQueryStart(rest)] + tail) == HostOf(rest)
  {
    var q := FirstQueryStart(rest);
    var t := rest[2..];
    var d := FirstNetlocDelim(t);
    forall k | 0 <= k < 2 + d
      ensures !IsQueryStart(rest[k])
    {
      if k >= 2 {
        assert rest[k] == t[k - 2];
      } else {
        assert rest[k] == rest[..2][k];
      }
    }
    assert 2 + d <= q;
    var s := rest[..q] + tail;
    assert s[..2] == rest[..2];
    var t2 := s[2..];
    assert t2[..d] == t[..d];
    assert d < |t2|;
    if 2 + d < q {
      assert t2[d] == t[d];
    } else {
      assert t2[d] == tail[0];
    }
    FirstNetlocDelimIs(t2, d);
  }

  /** Taking off the scheme commutes with cutting at the query, when the appended
      tail has no `:`. */
  lemma AfterSchemeCut(u: string, tail: string)
    requires forall k | 0 <= k < |tail| :: tail[k] != ':'
    ensures var rest := AfterScheme(u);
      AfterScheme(Base(u) + tail) == rest[..FirstQueryStart(rest)] + tail
  {
    var i := IndexOf(u, ':');
    if i < |Base(u)| {
      if HasScheme(u, i) {
        CutWithScheme(u, tail, i);
      } else {
        CutNoSchemeBefore(u, tail, i);
      }
    } else {
      CutColonAfter(u, tail, i);
    }
  }

  lemma CutWithScheme(u: string, tail: string, i: nat)
    requires forall k | 0 <= k < |tail| :: tail[k] != ':'
    requires i == IndexOf(u, ':') && i < |Base(u)| && HasScheme(u, i)
    ensures var rest := AfterScheme(u);
      AfterScheme(Base(u) + tail) == rest[..FirstQueryStart(rest)] + tail
  {
    var q := |Base(u)|;
    var s := Base(u) + tail;
    CutKeepsScheme(u, tail, i);
    var rest := u[i + 1..];
    RestQueryStart(u, i);
    SliceOfCut(u, i + 1, q, tail);
    assert rest[..q - (i + 1)] == u[i + 1..q];
  }

  /** The cut link has the same scheme as the link. */
  lemma CutKeepsScheme(u: string, tail: string, i: nat)
    requires i == IndexOf(u, ':') && i < |Base(u)| && HasScheme(u, i)
    ensures AfterScheme(Base(u) + tail) == (Base(u) + tail)[i + 1..]
  {
    var b := Base(u);
    var s := b + tail;
    forall k | 0 <= k <= i
      ensures s[k] == u[k]
    {
      assert s[k] == b[k];
    }
    IndexOfIs(s, ':', i);
    assert HasScheme(s, i);
  }

  /** After the scheme, the query starts where it did in the whole link. */
  lemma RestQueryStart(u: string, i: nat)
    requires i < |Base(u)| && HasScheme(u, i) && i == IndexOf(u, ':')
    ensures AfterScheme(u) == u[i + 1..]
    ensures FirstQueryStart(u[i + 1..]) == |Base(u)| - (i + 1)
  {
    var q := |Base(u)|;
    var rest := u[i + 1..];
    forall k | 0 <= k < q - (i + 1)
      ensures !IsQueryStart(rest[k])
    {
      assert rest[k] == u[i + 1 + k];
    }
    if q < |u| {
      assert rest[q - (i + 1)] == u[q];
    }
    FirstQueryStartIs(rest, q - (i + 1));
  }

  lemma CutNoSchemeBefore(u: string, tail: string, i: nat)
    requires forall k | 0 <= k < |tail| :: tail[k] != ':'
    requires i == IndexOf(u, ':') && i < |Base(u)| && !HasScheme(u, i)
    ensures var rest := AfterScheme(u);
      AfterScheme(Base(u) + tail) == rest[..FirstQueryStart(rest)] + tail
  {
    var b := Base(u);
    var s := b + tail;
    forall k | 0 <= k <= i
      ensures s[k] == u[k]
    {
      assert s[k] == b[k];
    }
    IndexOfIs(s, ':', i);
    assert !HasScheme(s, i) by {
      if 0 < i && IsAsciiAlpha(s[0]) {
        var k :| 0 <= k < i && !IsSchemeChar(u[k]);
        assert !IsSchemeChar(s[k]);
      }
    }
    assert AfterScheme(s) == s;
    assert AfterScheme(u) == u;
    FirstQueryStartIs(u, |b|);
  }

  lemma CutColonAfter(u: string, tail: string, i: nat)
    requires forall k | 0 <= k < |tail| :: tail[k] != ':'
    requires i == IndexOf(u, ':') && i >= |Base(u)|
    ensures var rest := AfterScheme(u);
      AfterScheme(Base(u) + tail) == rest[..FirstQueryStart(rest)] + tail
  {
    var b := Base(u);
    var q := |b|;
    var s := b + tail;
    forall k | 0 <= k < |s|
      ensures s[k] != ':'
    {
      if k < q {
        assert s[k] == u[k];
      } else {
        assert s[k] == tail[k - q];
      }
    }
    IndexOfIs(s, ':', |s|);
    assert AfterScheme(s) == s;
    if i < |u| {
      assert q < i;
      assert !IsSchemeChar(u[q]);
      assert !HasScheme(u, i);
    }
    assert AfterScheme(u) == u;
  }

  /** The corrected rewrite keeps the host of any link that has one. */
  lemma CorrectedGidKeepsHost(u: string)
    requires !Contains(u, "/edit") && Contains(u, "gid=")
    requires |Netloc(u)| > 0
    ensures Netloc(ConvertToCsvUrl(u)) == Netloc(u)
  {
    var v := u[Lead(u)..];
    var rest := AfterScheme(v);
    var w := Base(u) + ExportSuffix;
    GidBranchKeepsBase(u);
    CutAfterLead(u, ExportSuffix);
    ExportSuffixShape();
    AfterSchemeCut(v, ExportSuffix);
    HostOfCut(rest, ExportSuffix);
    assert Netloc(w) == HostOf(AfterScheme(Base(v) + ExportSuffix));
  }

  /** A link with a host has no query or fragment before its stripped start. */
  lemma LeadBeforeQuery(u: string)
    requires |Netloc(u)| > 0
    ensures Lead(u) < FirstQueryStart(u)
  {
    QueryNotInLead(u);
    QueryFirstNoHost(u);
  }

  /** The stripped characters are no query or fragment start. */
  lemma QueryNotInLead(u: string)
    ensures Lead(u) <= FirstQueryStart(u)
  {
    forall k | 0 <= k < Lead(u)
      ensures !IsQueryStart(u[k])
    {
      assert IsC0OrSpace(u[k]);
    }
  }

  /** A link that is blank up to its query has no host. */
  lemma QueryFirstNoHost(u: string)
    ensures Lead(u) == FirstQueryStart(u) ==> Netloc(u) == ""
  {
    var v := u[Lead(u)..];
    if |v| > 0 && IsQueryStart(v[0]) {
      assert !IsAsciiAlpha(v[0]);
      assert AfterScheme(v) == v;
      if |v| >= 2 {
        assert v[..2][0] == v[0] != '/';
      }
    }
  }

  /** A link with a host starts its host part before its query, so cutting at
      the query and appending a path strips the same leading characters. */
  lemma CutAfterLead(u: string, tail: string)
    requires |Netloc(u)| > 0
    ensures Lead(Base(u) + tail) == Lead(u)
    ensures (Base(u) + tail)[Lead(u)..] == Base(u[Lead(u)..]) + tail
  {
    var l := Lead(u);
    var q := FirstQueryStart(u);
    LeadBeforeQuery(u);
    LeadOfCut(u, l, q, tail);
    BaseAfterLead(u, l, q);
    SliceOfCut(u, l, q, tail);
  }

  lemma SliceOfCut(u: string, l: nat, q: nat, tail: string)
    requires l <= q <= |u|
    ensures (u[..q] + tail)[l..] == u[l..q] + tail
  {
  }

  lemma LeadOfCut(u: string, l: nat, q: nat, tail: string)
    requires l < q <= |u| && l == Lead(u)
    ensures Lead(u[..q] + tail) == l
  {
    var w := u[..q] + tail;
    forall k | 0 <= k <= l
      ensures w[k] == u[k]
    {
    }
    LeadIs(w, l);
  }

  lemma BaseAfterLead(u: string, l: nat, q: nat)
    requires l < q && q == FirstQueryStart(u)
    ensures Base(u[l..]) == u[l..q]
  {
    var v := u[l..];
    assert forall k | 0 <= k < q - l :: v[k] == u[l + k];
    assert q < |u| ==> v[q - l] == u[q];
    FirstQueryStartIs(v, q - l);
  }

  /** Current `urlsplit` ignores leading spaces, so a Sheets link with a blank in
      front, such as `" https://docs.google.com/spreadsheets/d/x/edit"`, is
      still a Sheets link, and with the same host. */
  lemma LeadingBlankIgnored(u: string)
    ensures Netloc([' '] + u) == Netloc(u)
    ensures IsValidSheetsUrl([' '] + u) <==> IsValidSheetsUrl(u)
  {
    var s := [' '] + u;
    assert s[1..] == u;
    LeadIs(s, 1 + Lead(u));
    assert s[Lead(s)..] == u[Lead(u)..];
    BlankPrefixContains(u, "spreadsheets");
  }

  /** A blank in front neither adds nor removes an occurrence of a text that
      starts with a letter. */
  lemma BlankPrefixContains(u: string, t: string)
    requires |t| > 0 && t[0] != ' '
    ensures Contains([' '] + u, t) <==> Contains(u, t)
  {
    var s := [' '] + u;
    if Contains(s, t) {
      var i :| 0 <= i <= |s| - |t| && OccursAt(s, t, i);
      assert s[i] == t[0];
      assert i != 0;
      assert u[i - 1..i - 1 + |t|] == s[i..i + |t|];
      assert OccursAt(u, t, i - 1);
    }
    if Contains(u, t) {
      var i :| 0 <= i <= |u| - |t| && OccursAt(u, t, i);
      assert s[i + 1..i + 1 + |t|] == u[i..i + |t|];
      assert OccursAt(s, t, i + 1);
    }
  }

  /** The as-written `gid=` branch applied to `https://<host><path>`. */
  lemma AsWrittenGidResult(h: string, p: string)
    requires forall k | 0 <= k < |h| :: !IsNetlocDelim(h[k]) && h[k] != ':'
    requires |p| > 0 && p[0] == '/'
    requires !Contains("https://" + h + p, "/edit") && Contains("https://" + h + p, "gid=")
    ensures ConvertToCsvUrlAsWritten("https://" + h + p) == "https:" + ExportSuffix
  {
    var u := "https://" + h + p;
    assert u == "https:" + ['/'] + ("/" + h + p);
    SplitPeel("https:", '/', "/" + h + p);
  }

  lemma ExportSuffixShape()
    ensures forall k | 0 <= k < |ExportSuffix| :: ExportSuffix[k] != ':'
    ensures |ExportSuffix| >= 2 && ExportSuffix[0] == '/' && ExportSuffix[1] != '/'
  {
  }

  /** A scheme followed by a single `/` leaves no host. */
  lemma SchemeOnlyHasNoHost(x: string)
    requires forall k | 0 <= k < |x| :: x[k] != ':'
    requires |x| >= 2 && x[0] == '/' && x[1] != '/'
    ensures Netloc("https:" + x) == ""
  {
    var r := "https:" + x;
    LeadIs(r, 0);
    forall k | 0 <= k < 5
      ensures r[k] != ':'
    {
      assert r[k] == "https"[k];
    }
    IndexOfIs(r, ':', 5);
    assert HasScheme(r, 5);
    assert r[6..] == x;
  }

  /** As written, the `gid=` branch turns every `https://` Sheets link that has
      no `/edit`, e.g. `https://docs.google.com/spreadsheets/d/abc/htmlview?gid=0`,
      into `https:/export?format=csv`: the host is gone and the result is no
      longer a Sheets link. */
  lemma AsWrittenGidDropsHost(h: string, p: string)
    requires forall k | 0 <= k < |h| :: !IsNetlocDelim(h[k]) && h[k] != ':'
    requires |p| > 0 && p[0] == '/'
    requires !Contains("https://" + h + p, "/edit") && Contains("https://" + h + p, "gid=")
    requires IsValidSheetsUrl("https://" + h + p)
    ensures Netloc("https://" + h + p) == h && |h| > 0
    ensures ConvertToCsvUrlAsWritten("https://" + h + p) == "https:" + ExportSuffix
    ensures Netloc(ConvertToCsvUrlAsWritten("https://" + h + p)) == ""
    ensures !IsValidSheetsUrl(ConvertToCsvUrlAsWritten("https://" + h + p))
  {
    HttpsNetloc(h, p);
    AsWrittenGidResult(h, p);
    ExportSuffixShape();
    SchemeOnlyHasNoHost(ExportSuffix);
    var r := ConvertToCsvUrlAsWritten("https://" + h + p);
    assert !Contains(Netloc(r), "docs.google.com");
  }

  /** On the same links the corrected branch keeps the host. */
  lemma CorrectedGidKeepsHttpsHost(h: string, p: string)
    requires forall k | 0 <= k < |h| :: !IsNetlocDelim(h[k]) && h[k] != ':'
    requires |p| > 0 && p[0] == '/'
    requires !Contains("https://" + h + p, "/edit") && Contains("https://" + h + p, "gid=")
    requires IsValidSheetsUrl("https://" + h + p)
    ensures Netloc(ConvertToCsvUrl("https://" + h + p)) == h
  {
    HttpsNetloc(h, p);
    CorrectedGidKeepsHost("https://" + h + p);
  }

  /** `t` does not occur in `s` when no character of `s` equal to `t[0]` is
      followed by `t[1]`. */
  lemma NoStartChar(s: string, t: string, c: char)
    requires |t| >= 2 && t[1] == c
    requires forall k | 0 <= k < |s| - 1 :: !(s[k] == t[0] && s[k + 1] == c)
    ensures !Contains(s, t)
  {
    forall i | 0 <= i <= |s| - |t|
      ensures !OccursAt(s, t, i)
    {
      assert s[i..i + |t|][0] == s[i] && s[i..i + |t|][1] == s[i + 1];
    }
  }
}

=== FILE: table.dfy ===
/**
 The parsed table the cleaning scripts work on, and the whole-table operations
 they share: whitespace trimming of text columns, the missing-required mask
 (`isnull().any(axis=1)`), the keep-first duplicate mask (`duplicated`), and
 boolean-mask selection that keeps each row's original index label.

 A table is a sequence of rows; a row's identity is its position, which pandas
 keeps as the index label through every selection. A cell is `Null` (NaN/None),
 a string, or a number. A column's `isText` flag stands for pandas `object` dtype.
 */
module Table {
  import opened Wrappers
  import Text

  datatype Cell = Null | Str(s: string) | Num(n: int)

  datatype Column = Column(name: string, isText: bool)

  type Row = seq<Cell>

  datatype Table = Table(columns: seq<Column>, rows: seq<Row>)

  /** A row together with its index label in the table it was selected from. */
  datatype IndexedRow = IndexedRow(index: nat, cells: Row)

  /** The column lists a cleaning script is configured with. */
  datatype CleaningConfig = CleaningConfig(required: seq<string>, key: seq<string>)

  /** The lists both cleaning scripts ship with: required and key columns coincide. */
  const ShippedFields: seq<string> :=
    ["Index", "Email", "Phone", "Practitioner Name", "Website", "Google Maps URL"]

  const Shipped: CleaningConfig := CleaningConfig(ShippedFields, ShippedFields)

  /** pandas raises `KeyError` when a selected column does not exist. */
  datatype PipelineError = KeyError(absent: seq<string>)

  /** Every row has one cell per column. */
  predicate WellFormed(t: Table) {
    forall i | 0 <= i < |t.rows| :: |t.rows[i]| == |t.columns|
  }

  // ---------------------------------------------------------------- columns

  predicate HasColumn(cols: seq<Column>, name: string) {
    exists j | 0 <= j < |cols| :: cols[j].name == name
  }

  /** Position of the first column called `name`. */
  function ColumnIndex(cols: seq<Column>, name: string): (r: Option<nat>)
    ensures r.Some? <==> HasColumn(cols, name)
    ensures r.Some? ==> r.value < |cols| && cols[r.value].name == name
  {
    if |cols| == 0 then None
    else if cols[0].name == name then Some(0)
    else
      match ColumnIndex(cols[1..], name)
      case None => None
      case Some(j) => Some(j + 1)
  }

  /** Resolves a list of column names to positions, as `df[names]` does; `None`
      is the `KeyError` case. */
  function Resolve(cols: seq<Column>, names: seq<string>): (r: Option<seq<nat>>)
    ensures r.Some? <==> forall k | 0 <= k < |names| :: HasColumn(cols, names[k])
    ensures r.Some? ==> |r.value| == |names|
    ensures r.Some? ==> forall k | 0 <= k < |names| ::
              r.value[k] < |cols| && cols[r.value[k]].name == names[k]
  {
    if |names| == 0 then Some([])
    else
      match (ColumnIndex(cols, names[0]), Resolve(cols, names[1..]))
      case (Some(j), Some(js)) =>
        var r := [j] + js;
        assert forall k | 1 <= k < |names| :: names[k] == names[1..][k - 1];
        Some(r)
      case (None, _) => None
      case (_, None) =>
        assert forall k | 1 <= k < |names| :: names[k] == names[1..][k - 1];
        None
  }

  /** The names among `names` that are not columns, in order: what a `KeyError` reports. */
  function Absent(cols: seq<Column>, names: seq<string>): (r: seq<string>)
    ensures forall n | n in r :: n in names && !HasColumn(cols, n)
    ensures forall n | n in names && !HasColumn(cols, n) :: n in r
  {
    if |names| == 0 then []
    else (if HasColumn(cols, names[0]) then [] else [names[0]]) + Absent(cols, names[1..])
  }

  // ---------------------------------------------------------------- trimming

  /** What `Series.str.strip()` does to one cell of an object column: strings are
      stripped, and anything that is not a string comes back as NaN. */
  function TrimCell(c: Cell): Cell {
    match c
    case Str(s) => Str(Text.Strip(s))
    case _ => Null
  }

  function TrimRow(cols: seq<Column>, row: Row): (r: Row)
    ensures |r| == |row|
  {
    seq(|row|, j requires 0 <= j < |row| =>
      if j < |cols| && cols[j].isText then TrimCell(row[j]) else row[j])
  }

  /** `df[str_cols] = df[str_cols].apply(lambda col: col.str.strip())` over the
      object-dtype columns. */
  function Trim(t: Table): (r: Table)
    ensures r.columns == t.columns && |r.rows| == |t.rows|
    ensures WellFormed(t) ==> WellFormed(r)
  {
    Table(t.columns, seq(|t.rows|, i requires 0 <= i < |t.rows| => TrimRow(t.columns, t.rows[i])))
  }

  /** Trimming, cell by cell: in a text column a string loses its leading and
      trailing whitespace and nothing else, a null stays null, and a non-string
      becomes null; a non-text column is untouched. */
  lemma TrimMeaning(t: Table, i: nat, j: nat)
    requires WellFormed(t) && i < |t.rows| && j < |t.columns|
    ensures !t.columns[j].isText ==> Trim(t).rows[i][j] == t.rows[i][j]
    ensures t.columns[j].isText && t.rows[i][j].Str? ==>
              Trim(t).rows[i][j].Str? && Text.IsStripOf(t.rows[i][j].s, Trim(t).rows[i][j].s, Text.StrSpace)
    ensures t.rows[i][j] == Null ==> Trim(t).rows[i][j] == Null
    ensures t.columns[j].isText && t.rows[i][j].Num? ==> Trim(t).rows[i][j] == Null
  {
  }

  /** A whitespace-only string in a text column becomes the empty string, which
      is not null. */
  lemma TrimBlankIsEmptyNotNull(t: Table, i: nat, j: nat)
    requires WellFormed(t) && i < |t.rows| && j < |t.columns|
    requires t.columns[j].isText && t.rows[i][j].Str? && Text.AllIn(t.rows[i][j].s, Text.StrSpace)
    ensures Trim(t).rows[i][j] == Str("")
  {
    Text.StripEmptyIffAllIn(t.rows[i][j].s, Text.StrSpace);
  }

  /** Trimming twice is trimming once. */
  lemma TrimIdempotent(t: Table)
    ensures Trim(Trim(t)) == Trim(t)
  {
    var once := Trim(t);
    var twice := Trim(once);
    forall i | 0 <= i < |t.rows|
      ensures twice.rows[i] == once.rows[i]
    {
      assert once.rows[i] == TrimRow(t.columns, t.rows[i]);
      assert twice.rows[i] == TrimRow(t.columns, once.rows[i]);
      TrimRowIdempotent(t.columns, t.rows[i]);
    }
    assert twice.rows == once.rows;
  }

  // ---------------------------------------------------------------- masks

  /** Some required cell of the row is null (`df[REQUIRED].isnull().any(axis=1)`). */
  predicate MissingAt(row: Row, req: seq<nat>) {
    exists k | 0 <= k < |req| :: req[k] < |row| && row[req[k]] == Null
  }

  function MissingMask(rows: seq<Row>, req: seq<nat>): (m: seq<bool>)
    ensures |m| == |rows|
  {
    seq(|rows|, i requires 0 <= i < |rows| => MissingAt(rows[i], req))
  }

  /** The cells of `row` in the key columns, in key order. */
  function Key(row: Row, key: seq<nat>): (r: seq<Cell>)
    ensures |r| == |key|
  {
    seq(|key|, k requires 0 <= k < |key| => if key[k] < |row| then row[key[k]] else Null)
  }

  function Keys(rows: seq<Row>, key: seq<nat>): (r: seq<seq<Cell>>)
    ensures |r| == |rows|
  {
    seq(|rows|, i requires 0 <= i < |rows| => Key(rows[i], key))
  }

  /** Some earlier element equals element `i`. Nulls compare equal to nulls,
      as in pandas `duplicated`. */
  predicate EarlierCopy<T(==)>(xs: seq<T>, i: nat)
    requires i < |xs|
  {
    exists j | 0 <= j < i :: xs[j] == xs[i]
  }

  /** pandas `duplicated(keep='first')`: flags every element equal to an earlier one. */
  function Duplicated<T(==)>(xs: seq<T>): (m: seq<bool>)
    ensures |m| == |xs|
  {
    seq(|xs|, i requires 0 <= i < |xs| => EarlierCopy(xs, i))
  }

  /** A cross-check of `Duplicated`: the mask computed the way pandas computes
      it, in one pass with a set of the keys seen so far, is the same mask. */
  method DuplicatedBySeenSet<T(==)>(xs: seq<T>) returns (m: seq<bool>)
    ensures |m| == |xs|
    ensures forall i | 0 <= i < |xs| :: m[i] <==> exists j | 0 <= j < i :: xs[j] == xs[i]
    ensures m == Duplicated(xs)
  {
    var seen: set<T> := {};
    m := [];
    var i := 0;
    while i < |xs|
      invariant 0 <= i <= |xs| && |m| == i
      invariant forall x :: x in seen <==> exists j | 0 <= j < i :: xs[j] == x
      invariant forall k | 0 <= k < i :: m[k] <==> exists j | 0 <= j < k :: xs[j] == xs[k]
    {
      m := m + [xs[i] in seen];
      seen := seen + {xs[i]};
      i := i + 1;
    }
  }

  /** Keep-first: for every element, the first element with its value is never flagged. */
  lemma {:induction false} FirstOccurrenceUnflagged<T>(xs: seq<T>, i: nat)
    requires i < |xs|
    ensures exists j | 0 <= j <= i :: !Duplicated(xs)[j] && xs[j] == xs[i]
    decreases i
  {
    if EarlierCopy(xs, i) {
      var j :| 0 <= j < i && xs[j] == xs[i];
      FirstOccurrenceUnflagged(xs, j);
    } else {
      assert !Duplicated(xs)[i];
    }
  }

  /** Number of `true` entries of a mask. */
  function CountTrue(m: seq<bool>): (n: nat)
    ensures n <= |m|
  {
    if |m| == 0 then 0 else CountTrue(m[..|m| - 1]) + (if m[|m| - 1] then 1 else 0)
  }

  function ValueSet<T>(xs: seq<T>): set<T> {
    set j | 0 <= j < |xs| :: xs[j]
  }

  /** The flags of a prefix do not depend on what follows it. */
  lemma DuplicatedPrefix<T>(xs: seq<T>, n: nat)
    requires n <= |xs|
    ensures Duplicated(xs)[..n] == Duplicated(xs[..n])
  {
    forall i | 0 <= i < n
      ensures Duplicated(xs)[i] == Duplicated(xs[..n])[i]
    {
      assert EarlierCopy(xs, i) == EarlierCopy(xs[..n], i) by {
        forall j | 0 <= j < i ensures xs[j] == xs[..n][j] { }
      }
    }
  }

  lemma ValueSetSnoc<T>(xs: seq<T>)
    requires |xs| > 0
    ensures ValueSet(xs) == ValueSet(xs[..|xs| - 1]) + {xs[|xs| - 1]}
    ensures Duplicated(xs)[|xs| - 1] <==> xs[|xs| - 1] in ValueSet(xs[..|xs| - 1])
  {
    var n := |xs| - 1;
    var ys := xs[..n];
    forall x | x in ValueSet(xs) ensures x in ValueSet(ys) + {xs[n]} {
      var j :| 0 <= j < |xs| && xs[j] == x;
      if j < n { assert ys[j] == x; }
    }
    forall x | x in ValueSet(ys) ensures x in ValueSet(xs) {
      var j :| 0 <= j < n && ys[j] == x;
      assert xs[j] == x;
    }
    if xs[n] in ValueSet(ys) {
      var j :| 0 <= j < n && ys[j] == xs[n];
      assert xs[j] == xs[n];
    }
  }

  /** The unflagged elements are exactly one per distinct value: their number is
      the number of distinct values. */
  lemma {:induction false} UnflaggedCountIsDistinctCount<T>(xs: seq<T>)
    ensures |xs| - CountTrue(Duplicated(xs)) == |ValueSet(xs)|
  {
    if |xs| > 0 {
      var n := |xs| - 1;
      var ys := xs[..n];
      UnflaggedCountIsDistinctCount(ys);
      DuplicatedPrefix(xs, n);
      ValueSetSnoc(xs);
      var m := Duplicated(xs);
      assert CountTrue(m) == CountTrue(m[..n]) + (if m[n] then 1 else 0);
      if xs[n] in ValueSet(ys) {
        assert ValueSet(xs) == ValueSet(ys);
      } else {
        assert |ValueSet(xs)| == |ValueSet(ys)| + 1;
      }
    }
  }

  // ---------------------------------------------------------------- selection

  /** The positions `i >= from` where the mask is true, in increasing order. */
  function PositionsFrom(mask: seq<bool>, from: nat): (r: seq<nat>)
    requires from <= |mask|
    ensures forall k | 0 <= k < |r| :: from <= r[k] < |mask| && mask[r[k]]
    ensures forall k, l | 0 <= k < l < |r| :: r[k] < r[l]
    ensures forall i | from <= i < |mask| && mask[i] :: i in r
    decreases |mask| - from
  {
    if from == |mask| then []
    else (if mask[from] then [from] else []) + PositionsFrom(mask, from + 1)
  }

  function Positions(mask: seq<bool>): seq<nat> {
    PositionsFrom(mask, 0)
  }

  /** Every element keeps its index label and its cells from `rows`. */
  predicate FaithfulTo(xs: seq<IndexedRow>, rows: seq<Row>) {
    forall k | 0 <= k < |xs| :: xs[k].index < |rows| && xs[k].cells == rows[xs[k].index]
  }

  /** Index labels strictly increase: source order, no label twice. */
  predicate SourceOrdered(xs: seq<IndexedRow>) {
    forall k, l | 0 <= k < l < |xs| :: xs[k].index < xs[l].index
  }

  /** No index label occurs twice. */
  predicate DistinctIndices(xs: seq<IndexedRow>) {
    forall k, l | 0 <= k < l < |xs| :: xs[k].index != xs[l].index
  }

  function IndexSet(xs: seq<IndexedRow>): set<nat> {
    set k | 0 <= k < |xs| :: xs[k].index
  }

  function MaskSet(mask: seq<bool>): set<nat> {
    set i: nat | i < |mask| && mask[i]
  }

  /** `df[mask]`: the rows where the mask holds, in source order, with their labels. */
  function Where(rows: seq<Row>, mask: seq<bool>): (r: seq<IndexedRow>)
    requires |mask| == |rows|
    ensures SourceOrdered(r) && FaithfulTo(r, rows)
    ensures forall k | 0 <= k < |r| :: mask[r[k].index]
    ensures forall i | 0 <= i < |rows| && mask[i] :: exists k | 0 <= k < |r| :: r[k].index == i
  {
    var p := Positions(mask);
    var r := seq(|p|, k requires 0 <= k < |p| => IndexedRow(p[k], rows[p[k]]));
    SelectedRows(rows, mask, p, r);
    r
  }

  /** The rows at the increasing positions `p` of the true entries of `mask`. */
  lemma SelectedRows(rows: seq<Row>, mask: seq<bool>, p: seq<nat>, r: seq<IndexedRow>)
    requires |mask| == |rows|
    requires forall k | 0 <= k < |p| :: p[k] < |mask| && mask[p[k]]
    requires forall k, l | 0 <= k < l < |p| :: p[k] < p[l]
    requires forall i | 0 <= i < |mask| && mask[i] :: i in p
    requires |r| == |p| && forall k | 0 <= k < |r| :: r[k] == IndexedRow(p[k], rows[p[k]])
    ensures SourceOrdered(r) && FaithfulTo(r, rows)
    ensures forall k | 0 <= k < |r| :: mask[r[k].index]
    ensures forall i | 0 <= i < |rows| && mask[i] :: exists k | 0 <= k < |r| :: r[k].index == i
  {
    forall i | 0 <= i < |rows| && mask[i]
      ensures exists k | 0 <= k < |r| :: r[k].index == i
    {
      var k :| 0 <= k < |p| && p[k] == i;
      assert r[k].index == i;
    }
  }

  /** The labels `df[mask]` keeps are the mask's true positions. */
  lemma WhereIndexSet(rows: seq<Row>, mask: seq<bool>)
    requires |mask| == |rows|
    ensures IndexSet(Where(rows, mask)) == MaskSet(mask)
  {
    var r := Where(rows, mask);
    forall i | i in MaskSet(mask) ensures i in IndexSet(r) {
      var k :| 0 <= k < |r| && r[k].index == i;
    }
  }

  /** A table's rows with their labels (`df` under a default RangeIndex). */
  function Labelled(rows: seq<Row>): (r: seq<IndexedRow>)
    ensures |r| == |rows| && SourceOrdered(r) && FaithfulTo(r, rows)
    ensures forall i | 0 <= i < |rows| :: r[i].index == i
  {
    seq(|rows|, i requires 0 <= i < |rows| => IndexedRow(i, rows[i]))
  }

  function Cells(xs: seq<IndexedRow>): (r: seq<Row>)
    ensures |r| == |xs|
    ensures forall k | 0 <= k < |xs| :: r[k] == xs[k].cells
  {
    seq(|xs|, k requires 0 <= k < |xs| => xs[k].cells)
  }

  function Not(mask: seq<bool>): (r: seq<bool>)
    ensures |r| == |mask|
    ensures forall i | 0 <= i < |mask| :: r[i] == !mask[i]
  {
    seq(|mask|, i requires 0 <= i < |mask| => !mask[i])
  }

  // ---------------------------------------------------------------- counting

  lemma {:induction false} DistinctIndexCount(xs: seq<IndexedRow>)
    requires DistinctIndices(xs)
    ensures |IndexSet(xs)| == |xs|
  {
    if |xs| > 0 {
      var n := |xs| - 1;
      var ys := xs[..n];
      DistinctIndexCount(ys);
      assert IndexSet(xs) == IndexSet(ys) + {xs[n].index} by {
        forall i | i in IndexSet(xs) ensures i in IndexSet(ys) + {xs[n].index} {
          var k :| 0 <= k < |xs| && xs[k].index == i;
          if k < n { assert ys[k].index == i; }
        }
      }
      assert xs[n].index !in IndexSet(ys);
    }
  }

  function Range(n: nat): set<nat> {
    MaskSet(seq(n, _ => true))
  }

  lemma {:induction false} RangeCount(n: nat)
    ensures |Range(n)| == n
  {
    if n > 0 {
      RangeCount(n - 1);
      assert Range(n) == Range(n - 1) + {n - 1};
    }
  }

  /** Splitting `0..n` by a mask: the true and false positions together number `n`. */
  lemma MaskSplitCount(mask: seq<bool>)
    ensures |MaskSet(mask)| + |MaskSet(Not(mask))| == |mask|
  {
    var a := MaskSet(mask);
    var b := MaskSet(Not(mask));
    assert a + b == Range(|mask|);
    assert a * b == {};
    RangeCount(|mask|);
  }

  /** `Where` keeps exactly as many rows as the mask has `true` entries. */
  lemma {:induction false} CountTrueIsMaskSize(mask: seq<bool>)
    ensures CountTrue(mask) == |MaskSet(mask)|
  {
    if |mask| > 0 {
      var n := |mask| - 1;
      CountTrueIsMaskSize(mask[..n]);
      if mask[n] {
        assert MaskSet(mask) == MaskSet(mask[..n]) + {n};
      } else {
        assert MaskSet(mask) == MaskSet(mask[..n]);
      }
    }
  }

  /** `len(df[mask]) == mask.sum()`. */
  lemma WhereCount(rows: seq<Row>, mask: seq<bool>)
    requires |mask| == |rows|
    ensures |Where(rows, mask)| == CountTrue(mask)
  {
    var w := Where(rows, mask);
    WhereIndexSet(rows, mask);
    DistinctIndexCount(w);
    CountTrueIsMaskSize(mask);
  }

  /** The true positions of a mask number its `true` entries. */
  lemma PositionsCount(mask: seq<bool>)
    ensures |Positions(mask)| == CountTrue(mask)
  {
    var blank := seq(|mask|, _ => []);
    WhereCount(blank, mask);
  }

  /** A mask that holds everywhere selects every position. */
  lemma {:induction false} PositionsFromAll(mask: seq<bool>, from: nat)
    requires from <= |mask|
    requires forall i | 0 <= i < |mask| :: mask[i]
    ensures |PositionsFrom(mask, from)| == |mask| - from
    ensures forall k | 0 <= k < |mask| - from :: PositionsFrom(mask, from)[k] == from + k
    decreases |mask| - from
  {
    if from < |mask| {
      var r := PositionsFrom(mask, from);
      var t := PositionsFrom(mask, from + 1);
      PositionsFromAll(mask, from + 1);
      assert mask[from];
      assert r == [from] + t;
      forall k | 0 <= k < |mask| - from
        ensures r[k] == from + k
      {
        if k > 0 {
          assert r[k] == t[k - 1];
        }
      }
    }
  }

  /** Two source-ordered selections from the same rows with the same labels are equal. */
  lemma {:induction false} OrderedEqual(a: seq<IndexedRow>, b: seq<IndexedRow>, rows: seq<Row>)
    requires SourceOrdered(a) && SourceOrdered(b) && FaithfulTo(a, rows) && FaithfulTo(b, rows)
    requires IndexSet(a) == IndexSet(b)
    ensures a == b
    decreases |a|
  {
    if |b| > 0 {
      assert b[0].index in IndexSet(b);
    }
    if |a| > 0 {
      assert a[0].index in IndexSet(b);
      assert |b| > 0;
      assert b[0].index in IndexSet(a);
      var l :| 0 <= l < |b| && b[l].index == a[0].index;
      var k :| 0 <= k < |a| && a[k].index == b[0].index;
      assert a[0].index == b[0].index by {
        assert b[0].index <= b[l].index;
        assert a[0].index <= a[k].index;
      }
      assert a[0] == b[0];
      var a', b' := a[1..], b[1..];
      assert IndexSet(a') == IndexSet(a) - {a[0].index} by {
        forall i | i in IndexSet(a) - {a[0].index} ensures i in IndexSet(a') {
          var q :| 0 <= q < |a| && a[q].index == i;
          assert a'[q - 1].index == i;
        }
      }
      assert IndexSet(b') == IndexSet(b) - {b[0].index} by {
        forall i | i in IndexSet(b) - {b[0].index} ensures i in IndexSet(b') {
          var q :| 0 <= q < |b| && b[q].index == i;
          assert b'[q - 1].index == i;
        }
      }
      OrderedEqual(a', b', rows);
      assert a == [a[0]] + a' && b == [b[0]] + b';
    }
  }

  /** The position `Resolve` gives each name is the first column with that name. */
  lemma {:induction false} ResolveFirst(cols: seq<Column>, names: seq<string>, k: nat)
    requires Resolve(cols, names).Some? && k < |names|
    ensures ColumnIndex(cols, names[k]).Some?
    ensures Resolve(cols, names).value[k] == ColumnIndex(cols, names[k]).value
    decreases |names|
  {
    if k > 0 {
      assert names[k] == names[1..][k - 1];
      ResolveFirst(cols, names[1..], k - 1);
    }
  }

  lemma TrimCellIdempotent(c: Cell)
    ensures TrimCell(TrimCell(c)) == TrimCell(c)
  {
    if c.Str? {
      Text.StripIdempotent(c.s);
    }
  }

  /** Trimming a trimmed row changes nothing. */
  lemma TrimRowIdempotent(cols: seq<Column>, row: Row)
    ensures TrimRow(cols, TrimRow(cols, row)) == TrimRow(cols, row)
  {
    var once := TrimRow(cols, row);
    var twice := TrimRow(cols, once);
    forall j | 0 <= j < |row|
      ensures twice[j] == once[j]
    {
      if j < |cols| && cols[j].isText {
        TrimCellIdempotent(row[j]);
      }
    }
    assert twice == once;
  }

  /** A mask's `true` and `false` entries together number its length. */
  lemma {:induction false} CountTrueNot(m: seq<bool>)
    ensures CountTrue(m) + CountTrue(Not(m)) == |m|
  {
    if |m| > 0 {
      var n := |m| - 1;
      assert Not(m)[..n] == Not(m[..n]);
      CountTrueNot(m[..n]);
    }
  }

  /** A mask that holds everywhere keeps every row under its own label. */
  lemma WhereAll(rows: seq<Row>, mask: seq<bool>)
    requires |mask| == |rows| && forall i | 0 <= i < |mask| :: mask[i]
    ensures Where(rows, mask) == Labelled(rows)
  {
    PositionsFromAll(mask, 0);
  }

  /** A mask with no `true` entry counts zero. */
  lemma {:induction false} CountTrueNone(m: seq<bool>)
    requires forall i | 0 <= i < |m| :: !m[i]
    ensures CountTrue(m) == 0
  {
    if |m| > 0 {
      CountTrueNone(m[..|m| - 1]);
    }
  }
}

=== FILE: text.dfy ===
/**
 String helpers with the meaning the Python built-ins give them: `str.strip`,
 `in` on strings, `str.replace`, `str.split`/`str.join` on one separator,
 `str.upper`/`str.lower`, `str.endswith` and `int(str)`.
 Only ASCII is modelled: whitespace is the ASCII characters `str.isspace()`
 accepts, and case mapping touches only `a`-`z`/`A`-`Z`.
 */
module Text {
  import opened Wrappers

  /** The two whitespace sets of the built-ins: `IntSpace` is what `int()` skips
      around its digits (CPython's `Py_ISSPACE`, the six ASCII whitespace
      characters); `StrSpace` is the ASCII characters `str.isspace()` accepts, all
      of which `str.strip()` removes: the six and the information separators
      U+001C-U+001F. */
  datatype Whitespace = IntSpace | StrSpace

  /** The six ASCII whitespace characters. */
  predicate IsSpace(c: char) {
    c == ' ' || c == '\t' || c == '\n' || c == '\r' || c == '\U{000B}' || c == '\U{000C}'
  }

  predicate IsBlank(c: char, ws: Whitespace) {
    IsSpace(c) || (ws == StrSpace && '\U{001C}' <= c <= '\U{001F}')
  }

  predicate AllIn(s: string, ws: Whitespace) {
    forall i | 0 <= i < |s| :: IsBlank(s[i], ws)
  }

  /** Drops leading characters of `ws`. */
  function StripLeft(s: string, ws: Whitespace): (r: string)
    ensures |r| <= |s| && r == s[|s| - |r|..]
    ensures AllIn(s[..|s| - |r|], ws)
    ensures |r| == 0 || !IsBlank(r[0], ws)
  {
    if |s| > 0 && IsBlank(s[0], ws) then StripLeft(s[1..], ws) else s
  }

  /** Drops trailing characters of `ws`. */
  function StripRight(s: string, ws: Whitespace): (r: string)
    ensures |r| <= |s| && r == s[..|r|]
    ensures AllIn(s[|r|..], ws)
    ensures |r| == 0 || !IsBlank(r[|r| - 1], ws)
  {
    if |s| > 0 && IsBlank(s[|s| - 1], ws) then StripRight(s[..|s| - 1], ws) else s
  }

  /** `r` is `s` with a prefix and a suffix made of `ws` removed, and neither end
      of `r` is in `ws`. */
  predicate IsStripOf(s: string, r: string, ws: Whitespace) {
    && (|r| == 0 || (!IsBlank(r[0], ws) && !IsBlank(r[|r| - 1], ws)))
    && exists a | 0 <= a <= |s| - |r| ::
         AllIn(s[..a], ws) && s[a..a + |r|] == r && AllIn(s[a + |r|..], ws)
  }

  /** Strips the characters of `ws` from both ends. */
  function StripBy(s: string, ws: Whitespace): (r: string)
    ensures IsStripOf(s, r, ws)
  {
    StripParts(s, StripLeft(s, ws), StripRight(StripLeft(s, ws), ws), ws);
    StripRight(StripLeft(s, ws), ws)
  }

  /** A left strip followed by a right strip is a strip. */
  lemma StripParts(s: string, l: string, r: string, ws: Whitespace)
    requires |l| <= |s| && l == s[|s| - |l|..] && AllIn(s[..|s| - |l|], ws)
    requires |l| == 0 || !IsBlank(l[0], ws)
    requires |r| <= |l| && r == l[..|r|] && AllIn(l[|r|..], ws)
    requires |r| == 0 || !IsBlank(r[|r| - 1], ws)
    ensures IsStripOf(s, r, ws)
  {
    var a := |s| - |l|;
    assert s[a..a + |r|] == r;
    assert s[a + |r|..] == l[|r|..];
    assert |r| > 0 ==> r[0] == l[0];
    assert AllIn(s[..a], ws) && s[a..a + |r|] == r && AllIn(s[a + |r|..], ws);
  }

  /** Python's `s.strip()`: the ten ASCII whitespace characters are removed from
      both ends, the information separators included. */
  function Strip(s: string): (r: string)
    ensures IsStripOf(s, r, StrSpace)
  {
    StripBy(s, StrSpace)
  }

  /** Stripping twice is stripping once. */
  lemma StripIdempotent(s: string)
    ensures Strip(Strip(s)) == Strip(s)
  {
  }

  /** Interior characters survive: the stripped text is a contiguous slice of `s`,
      so in particular internal whitespace is kept. */
  lemma StripKeepsInterior(s: string, i: nat)
    requires 0 < i && i + 1 < |Strip(s)|
    ensures Strip(s)[i] in s
  {
  }

  /** The information separators count as whitespace for `str.strip()`:
      `"\x1f ab\x1c".strip()` is `"ab"`. */
  lemma StripRemovesSeparators()
    ensures Strip("\U{001F} ab\U{001C}") == "ab"
  {
    var s := "\U{001F} ab\U{001C}";
    assert s == "\U{001F} " + "ab" + "\U{001C}";
    StripAround("\U{001F} ", "ab", "\U{001C}", StrSpace);
  }

  /** A string whose ends are not whitespace strips to itself. */
  lemma StripByKeeps(s: string, ws: Whitespace)
    requires |s| > 0 && !IsBlank(s[0], ws) && !IsBlank(s[|s| - 1], ws)
    ensures StripLeft(s, ws) == s && StripRight(s, ws) == s && StripBy(s, ws) == s
  {
  }

  /** Stripping removes exactly a whitespace prefix and suffix around text whose
      ends are not whitespace. */
  lemma StripAround(p: string, m: string, q: string, ws: Whitespace)
    requires AllIn(p, ws) && AllIn(q, ws)
    requires |m| > 0 && !IsBlank(m[0], ws) && !IsBlank(m[|m| - 1], ws)
    ensures StripBy(p + m + q, ws) == m
  {
    assert p + m + q == p + (m + q);
    StripLeftPrefix(p, m + q, ws);
    StripRightSuffix(m, q, ws);
  }

  lemma {:induction false} StripLeftPrefix(p: string, m: string, ws: Whitespace)
    requires AllIn(p, ws) && |m| > 0 && !IsBlank(m[0], ws)
    ensures StripLeft(p + m, ws) == m
    decreases |p|
  {
    if |p| == 0 {
      assert p + m == m;
    } else {
      assert (p + m)[1..] == p[1..] + m;
      StripLeftPrefix(p[1..], m, ws);
    }
  }

  lemma {:induction false} StripRightSuffix(m: string, q: string, ws: Whitespace)
    requires AllIn(q, ws) && |m| > 0 && !IsBlank(m[|m| - 1], ws)
    ensures StripRight(m + q, ws) == m
    decreases |q|
  {
    if |q| == 0 {
      assert m + q == m;
    } else {
      assert (m + q)[..|m + q| - 1] == m + q[..|q| - 1];
      StripRightSuffix(m, q[..|q| - 1], ws);
    }
  }

  /** Text that ends in a non-whitespace character keeps it through a left strip. */
  lemma {:induction false} StripLeftKeepsLast(s: string, ws: Whitespace)
    requires |s| > 0 && !IsBlank(s[|s| - 1], ws)
    ensures var l := StripLeft(s, ws); |l| > 0 && l[|l| - 1] == s[|s| - 1]
    decreases |s|
  {
    if IsBlank(s[0], ws) {
      assert |s| > 1;
      StripLeftKeepsLast(s[1..], ws);
    }
  }

  lemma StripLeftAllIn(s: string, ws: Whitespace)
    requires AllIn(s, ws)
    ensures StripLeft(s, ws) == ""
  {
  }

  /** A string made only of `ws` strips to the empty string, and only those do. */
  lemma StripEmptyIffAllIn(s: string, ws: Whitespace)
    ensures StripBy(s, ws) == "" <==> AllIn(s, ws)
  {
    var l := StripLeft(s, ws);
    if AllIn(s, ws) {
      StripLeftAllIn(s, ws);
    }
    if StripBy(s, ws) == "" {
      assert AllIn(l[0..], ws);
      assert l == "";
      assert s[..|s|] == s;
    }
  }

  /** `t` occurs in `s` starting at position `i`. */
  predicate OccursAt(s: string, t: string, i: nat) {
    i + |t| <= |s| && s[i..i + |t|] == t
  }

  /** Python's `t in s` for strings. */
  predicate Contains(s: string, t: string) {
    exists i | 0 <= i <= |s| - |t| :: OccursAt(s, t, i)
  }

  /** Containment is transitive. */
  lemma ContainsTransitive(a: string, b: string, c: string)
    requires Contains(a, b) && Contains(b, c)
    ensures Contains(a, c)
  {
    var i :| 0 <= i <= |a| - |b| && OccursAt(a, b, i);
    var j :| 0 <= j <= |b| - |c| && OccursAt(b, c, j);
    forall k | 0 <= k < |c|
      ensures a[i + j + k] == c[k]
    {
      assert c[k] == b[j..j + |c|][k] == b[j + k];
      assert b[j + k] == a[i..i + |b|][j + k] == a[i + j + k];
    }
    assert a[i + j..i + j + |c|] == c;
    assert OccursAt(a, c, i + j);
  }

  /** A string contains its own infix at a known place. */
  lemma ContainsInfix(x: string, t: string, y: string)
    ensures Contains(x + t + y, t)
  {
    assert (x + t + y)[|x|..|x| + |t|] == t;
    assert OccursAt(x + t + y, t, |x|);
  }

  /** Prepending keeps an occurrence. */
  lemma ContainsPrepend(x: string, s: string, t: string)
    requires Contains(s, t)
    ensures Contains(x + s, t)
  {
    var i :| 0 <= i <= |s| - |t| && OccursAt(s, t, i);
    assert (x + s)[|x| + i..|x| + i + |t|] == s[i..i + |t|];
    assert OccursAt(x + s, t, |x| + i);
  }

  /** Python's `s.replace(pat, repl)`: every non-overlapping occurrence of `pat`,
      scanning left to right, becomes `repl`. */
  function ReplaceAll(s: string, pat: string, repl: string): string
    requires |pat| > 0
    decreases |s|
  {
    if |s| < |pat| then s
    else if s[..|pat|] == pat then repl + ReplaceAll(s[|pat|..], pat, repl)
    else [s[0]] + ReplaceAll(s[1..], pat, repl)
  }

  lemma ContainsPrefix(t: string, y: string)
    ensures Contains(t + y, t)
  {
    assert (t + y)[0..|t|] == t;
    assert OccursAt(t + y, t, 0);
  }

  /** When `pat` occurs, the replacement text occurs in the result. */
  lemma {:induction false} ReplaceAllIntroduces(s: string, pat: string, repl: string)
    requires |pat| > 0 && Contains(s, pat)
    ensures Contains(ReplaceAll(s, pat, repl), repl)
    decreases |s|
  {
    var i :| 0 <= i <= |s| - |pat| && OccursAt(s, pat, i);
    if s[..|pat|] == pat {
      ContainsPrefix(repl, ReplaceAll(s[|pat|..], pat, repl));
    } else {
      assert i != 0;
      ReplaceAllShift(s, pat, i);
      ReplaceAllIntroduces(s[1..], pat, repl);
      ContainsPrepend([s[0]], ReplaceAll(s[1..], pat, repl), repl);
    }
  }

  lemma ReplaceAllShift(s: string, pat: string, i: nat)
    requires 0 < i && OccursAt(s, pat, i)
    ensures Contains(s[1..], pat)
  {
    assert s[1..][i - 1..i - 1 + |pat|] == s[i..i + |pat|];
    assert OccursAt(s[1..], pat, i - 1);
  }

  /** Python's `s.endswith(suffix)`. */
  predicate EndsWith(s: string, suffix: string) {
    |suffix| <= |s| && s[|s| - |suffix|..] == suffix
  }

  function UpperChar(c: char): char {
    if 'a' <= c <= 'z' then (c as int - 32) as char else c
  }

  function LowerChar(c: char): char {
    if 'A' <= c <= 'Z' then (c as int + 32) as char else c
  }

  /** Python's `s.upper()` restricted to ASCII letters. */
  function Upper(s: string): (r: string)
    ensures |r| == |s|
    ensures forall i | 0 <= i < |s| :: r[i] == UpperChar(s[i])
  {
    seq(|s|, i requires 0 <= i < |s| => UpperChar(s[i]))
  }

  /** Python's `s.lower()` restricted to ASCII letters. */
  function Lower(s: string): (r: string)
    ensures |r| == |s|
    ensures forall i | 0 <= i < |s| :: r[i] == LowerChar(s[i])
  {
    seq(|s|, i requires 0 <= i < |s| => LowerChar(s[i]))
  }

  /** Joins `parts` with `sep` between neighbours (Python's `sep.join(parts)`). */
  function Join(parts: seq<string>, sep: char): string {
    if |parts| == 0 then ""
    else if |parts| == 1 then parts[0]
    else parts[0] + [sep] + Join(parts[1..], sep)
  }

  /** Python's `s.split(sep)` for a one-character separator: at least one piece,
      no piece contains the separator, and joining the pieces back gives `s`. */
  function Split(s: string, sep: char): (r: seq<string>)
    ensures |r| >= 1
    ensures forall k | 0 <= k < |r| :: sep !in r[k]
    ensures Join(r, sep) == s
    decreases |s|
  {
    if |s| == 0 then [""]
    else
      var rest := Split(s[1..], sep);
      if s[0] == sep then
        assert s == [sep] + s[1..];
        [""] + rest
      else
        var r := [[s[0]] + rest[0]] + rest[1..];
        JoinCons(s[0], rest, sep);
        assert s == [s[0]] + s[1..];
        assert forall k | 1 <= k < |r| :: r[k] == rest[k];
        r
  }

  /** Prepending a character to the first piece prepends it to the join. */
  lemma JoinCons(c: char, rest: seq<string>, sep: char)
    requires |rest| >= 1
    ensures Join([[c] + rest[0]] + rest[1..], sep) == [c] + Join(rest, sep)
  {
    var r := [[c] + rest[0]] + rest[1..];
    assert r[1..] == rest[1..];
    if |rest| > 1 {
      assert Join(r, sep) == [c] + rest[0] + [sep] + Join(rest[1..], sep);
    }
  }

  /** Splitting a piece free of the separator, followed by the separator, peels that piece. */
  lemma {:induction false} SplitPeel(a: string, sep: char, x: string)
    requires sep !in a
    ensures Split(a + [sep] + x, sep) == [a] + Split(x, sep)
    decreases |a|
  {
    if |a| == 0 {
      assert a + [sep] + x == [sep] + x;
      assert ([sep] + x)[1..] == x;
    } else {
      assert (a + [sep] + x)[1..] == a[1..] + [sep] + x;
      SplitPeel(a[1..], sep, x);
      assert [a[0]] + a[1..] == a;
    }
  }

  /** Splitting a separator-free string gives that string alone. */
  lemma {:induction false} SplitSingle(a: string, sep: char)
    requires sep !in a
    ensures Split(a, sep) == [a]
    decreases |a|
  {
    if |a| > 0 {
      SplitSingle(a[1..], sep);
      assert [a[0]] + a[1..] == a;
    }
  }

  /** Round trip: splitting a join of separator-free pieces gives the pieces back. */
  lemma {:induction false} SplitJoin(parts: seq<string>, sep: char)
    requires |parts| >= 1
    requires forall k | 0 <= k < |parts| :: sep !in parts[k]
    ensures Split(Join(parts, sep), sep) == parts
    decreases |parts|
  {
    if |parts| == 1 {
      SplitSingle(parts[0], sep);
    } else {
      SplitJoin(parts[1..], sep);
      SplitPeel(parts[0], sep, Join(parts[1..], sep));
      assert [parts[0]] + parts[1..] == parts;
    }
  }

  predicate IsDigit(c: char) {
    '0' <= c <= '9'
  }

  predicate AllDigits(s: string) {
    forall i | 0 <= i < |s| :: IsDigit(s[i])
  }

  /** Decimal value of a digit string, most significant digit first. */
  function DigitsValue(s: string): nat
    requires AllDigits(s)
  {
    if |s| == 0 then 0
    else DigitsValue(s[..|s| - 1]) * 10 + (s[|s| - 1] as int - '0' as int)
  }

  /** Decimal rendering of a natural number, without leading zeros. */
  function Render(n: nat): (r: string)
    ensures |r| > 0 && AllDigits(r)
  {
    var d := [('0' as int + n % 10) as char];
    if n < 10 then d else Render(n / 10) + d
  }

  /** Python's `int(s)` for the grammar modelled here: surrounding whitespace of
      `IntSpace`, an optional `+`/`-` sign, then one or more ASCII digits; anything
      else is the `ValueError` case, `None`. */
  function ParseInt(s: string): Option<int> {
    var t := StripBy(s, IntSpace);
    if |t| > 0 && (t[0] == '-' || t[0] == '+') then
      var d := t[1..];
      if |d| > 0 && AllDigits(d) then Some(if t[0] == '-' then 0 - DigitsValue(d) as int else DigitsValue(d))
      else None
    else if |t| > 0 && AllDigits(t) then Some(DigitsValue(t))
    else None
  }

  lemma {:induction false} DigitsValueRender(n: nat)
    ensures DigitsValue(Render(n)) == n
  {
    var d := [('0' as int + n % 10) as char];
    if n >= 10 {
      DigitsValueRender(n / 10);
      var r := Render(n / 10) + d;
      assert r[..|r| - 1] == Render(n / 10);
    }
  }

  /** `int(str(n)) == n` for every natural number. */
  lemma ParseIntRender(n: nat)
    ensures ParseInt(Render(n)) == Some(n)
  {
    var r := Render(n);
    StripByKeeps(r, IntSpace);
    DigitsValueRender(n);
  }

  /** A parsable string holds at least one digit, so text made only of whitespace
      never parses, whether `int()` skips that whitespace or not. */
  lemma ParseIntNeedsDigit(s: string)
    requires AllIn(s, StrSpace)
    ensures ParseInt(s) == None
  {
    var l := StripLeft(s, IntSpace);
    var t := StripRight(l, IntSpace);
    if |t| > 0 {
      assert t[0] == l[0] == s[|s| - |l|];
      assert IsBlank(t[0], StrSpace);
    }
    ParseIntNeedsLeadingDigit(s);
  }

  /** `int()` fails when its stripped text does not start with a sign or a digit. */
  lemma ParseIntNeedsLeadingDigit(s: string)
    requires var t := StripBy(s, IntSpace); |t| == 0 || (t[0] != '-' && t[0] != '+' && !IsDigit(t[0]))
    ensures ParseInt(s) == None
  {
  }

  /** Text that starts with neither whitespace, a sign nor a digit, and does not
      end in whitespace, is not an integer. */
  lemma ParseIntRejectsNonDigit(s: string)
    requires |s| > 0 && !IsSpace(s[0]) && !IsSpace(s[|s| - 1])
    requires s[0] != '-' && s[0] != '+' && !IsDigit(s[0])
    ensures ParseInt(s) == None
  {
    StripByKeeps(s, IntSpace);
  }

  /** `int()` does not skip the information separators that `str.strip()` removes:
      `int("\x1c5")` raises `ValueError`. */
  lemma ParseIntKeepsSeparators()
    ensures ParseInt("\U{001C}5") == None
  {
    ParseIntRejectsNonDigit("\U{001C}5");
  }
}

=== FILE: wrappers.dfy ===
/** Failure-compatible wrappers shared by every module of the model. */
module Wrappers {

  /** A value that may be absent (Python's `None`). */
  datatype Option<+T> = None | Some(value: T) {

    /** The wrapped value, or `default` when absent (Python's `d.get(k, default)` shape). */
    function GetOr(default: T): T {
      match this
      case Some(v) => v
      case None => default
    }
  }

  /** Either the value an operation returns or the exception it raises. */
  datatype Result<+R, +E> = Success(value: R) | Failure(error: E) {

    predicate IsFailure() {
      Failure?
    }

    function PropagateFailure<U>(): Result<U, E>
      requires Failure?
    {
      Failure(error)
    }

    function Extract(): R
      requires Success?
    {
      value
    }
  }
}
